=== FILE: README.md ===
# ldap-sync, modelled in Dafny

ldap-sync copies the organization chart of an LDAP directory into three
stores: a relational database, Elasticsearch and Redis. A *data source*
names a directory and carries one *dictionary* per entity type
(department, employee, position): a search base, a filter and the
*attribute maps* from directory attribute names to entity fields, some of
them carrying date-time patterns.

A *porter* pulls the three entity types from the directory. The cycle
porter runs one employee query per department. An *organization* is then
assembled from the results, in these steps:

- index departments and positions by number;
- link each department to its parent;
- keep only the employees whose department number is known, and attach
  them to their departments and positions;
- compute each department's memoised id, number and name paths along its
  root chain.

Saving an organization hands every department to a storage back end. The
composite back end writes the database and then Elasticsearch, and tries
to undo both when a runtime exception occurs.

The model has one module per source class:

- **entities:** `Domain`, `Departments`;
- **configuration:** `DataSources`, `DataSourceFactories`;
- **directory access:** `LdapOperators`, `LdapPorters`, `CyclePorters`;
- **assembly:** `Organizations`;
- **back ends:** `DatabaseStorages`, `ElasticsearchStorages`,
  `ElasticsearchPersistences`, `RedisPersistences`, `CompositeStorages`,
  `CompositePersistences`, `Persistences`;
- **shared:** `Stores` (the back ends as maps, plus a trace of client
  calls) and `Text` (the Java string operations the code relies on).

How the Java object graph is represented:

- Nullable references are `Option`, except the natural keys: a
  department's and a position's number and an employee's uid are plain
  strings (see "## Left out").
- A reference to another entity is that entity's natural key. Departments
  and positions are keyed by number, employees by uid.
- Parent and child links live in a separate `Tree`.
- A ghost `rank` map witnesses that the parent links contain no cycle,
  which is what makes `getPath` terminate.

How failures are represented:

- Every client call either takes effect or throws.
- Which calls throw, and whether the throwable is checked, is an
  environment parameter, `Env`.
- Every attempted call is appended to a trace, so the order of calls can
  be stated.

## Model

| member | source | states |
|---|---|---|
| Departments.EqualityByNumber | src/main/java/com/willowleaf/ldapsync/domain/model/Department.java:175-186 | Equal departments have equal hash codes, whatever their other fields hold (the contract between `equals` and `hashCode`). The hash is a signed 32-bit value. |
| Departments.GetPath | src/main/java/com/willowleaf/ldapsync/domain/model/Department.java:162-173 | The path starts at a department without a parent and ends at the given department. Each element is the parent of the next. A department without a parent has the one-element path. |
| Departments.PathOfChild | src/main/java/com/willowleaf/ldapsync/domain/model/Department.java:162-173 | A child's path is its parent's path followed by the child. |
| Departments.PathIsTheRootChain | src/main/java/com/willowleaf/ldapsync/domain/model/Department.java:162-173 | The path is a chain from a root to the department, and it is the only such chain. |
| Departments.PathInIndex | src/main/java/com/willowleaf/ldapsync/domain/model/Department.java:162-173 | When the tree's links stay inside the department index, every department on a path is in the index. |
| Departments.ComputedPathStep | src/main/java/com/willowleaf/ldapsync/domain/model/Department.java:121-152 | A root's path string is its own label. A child's path string is the parent's path string, then "_", then the child's own label. |
| Departments.NumberPathIsJoinedChain | src/main/java/com/willowleaf/ldapsync/domain/model/Department.java:134-139 | The computed number path is the numbers of the root chain joined with "_". |
| Departments.GetPathField | src/main/java/com/willowleaf/ldapsync/domain/model/Department.java:121-152 | A getter returns the stored value and changes nothing when the field is non-empty. When the field is null or "", the getter stores and returns the path string computed from the tree. The other two path fields are left alone. |
| Departments.MemoisedPathIsStable | src/main/java/com/willowleaf/ldapsync/domain/model/Department.java:121-152 | Once a getter has produced a non-empty value, later calls return the same value and change nothing, even if the tree has changed since. |
| Departments.SetPathsFillsBlanks | src/main/java/com/willowleaf/ldapsync/domain/Organization.java:179-187 | After `setPath`, each non-empty path field keeps its value and each blank one holds the computed path string. |
| Departments.SetPathsRunsTheGetters | src/main/java/com/willowleaf/ldapsync/domain/Organization.java:179-187 | `setPath` on one department is the id, number and name getters run one after another. |
| Departments.SetPathsKeepsAndJoins | src/main/java/com/willowleaf/ldapsync/domain/Organization.java:179-187 | Every preset path survives `setPath`. A blank number path becomes the numbers of the root chain joined with "_". |
| Domain.FlattenMembership | src/main/java/com/willowleaf/ldapsync/domain/Organization.java:70-75 | An employee is in the concatenated list exactly when it is in some department's list. |
| Domain.FlattenEmpty | src/main/java/com/willowleaf/ldapsync/domain/Organization.java:70-75 | The concatenated list is empty exactly when every department's list is empty. |
| Organizations.IndexBy | src/main/java/com/willowleaf/ldapsync/domain/Organization.java:207-222 | The index holds exactly the keys that occur in the input, and each entry is filed under its own key. With unique keys, every element is found under its key. |
| Organizations.BuildTreeLink | src/main/java/com/willowleaf/ldapsync/domain/Organization.java:131-143 | Every parent link comes from an input department whose parent number resolves to the linked parent. |
| Organizations.BuildTreeParents | src/main/java/com/willowleaf/ldapsync/domain/Organization.java:131-143 | With unique numbers, each department's parent is the one its parent number resolves to. There is no parent when the number is null or unknown. |
| Organizations.BuildTreeChildren | src/main/java/com/willowleaf/ldapsync/domain/Organization.java:131-143 | Each department's children are the departments whose parent resolves to it, in input order. |
| Organizations.ChildrenSpecMembers | src/main/java/com/willowleaf/ldapsync/domain/Organization.java:131-143 | A number is among a department's children exactly when an input department with that number has it as resolved parent. |
| Organizations.ChildrenSpecDistinct | src/main/java/com/willowleaf/ldapsync/domain/Organization.java:131-143 | With unique numbers, no child is listed twice. |
| Organizations.TreeWellFormed | src/main/java/com/willowleaf/ldapsync/domain/Organization.java:131-143 | Unique, acyclic input gives links that decrease the rank and stay inside the index. |
| Organizations.TreeShape | src/main/java/com/willowleaf/ldapsync/domain/Organization.java:131-143 | A department whose parent number is known gets that parent and is among its children; any other department has no parent. The children are exactly the departments naming the parent, each once. |
| Organizations.Kept | src/main/java/com/willowleaf/ldapsync/domain/Organization.java:151-153 | An employee is kept exactly when it is in the input and its department number is non-null and indexed. |
| Organizations.KeptAppend | src/main/java/com/willowleaf/ldapsync/domain/Organization.java:151-153 | Filtering a concatenation gives the filtered parts concatenated, so the filter keeps input order and keeps an employee listed twice twice. |
| Organizations.KeptSingle | src/main/java/com/willowleaf/ldapsync/domain/Organization.java:151-153 | A single employee is kept exactly when its department number is non-null and indexed. |
| Organizations.Newcomers | src/main/java/com/willowleaf/ldapsync/domain/Organization.java:155-162 | An employee is appended to department `k` exactly when it is kept, not yet attached, and carries number `k`. |
| Organizations.PositionMembers | src/main/java/com/willowleaf/ldapsync/domain/Organization.java:169-171 | A uid is added to a position exactly when a kept employee with that uid holds the position's number. |
| Organizations.EmployeesFiltered | src/main/java/com/willowleaf/ldapsync/domain/Organization.java:148-174 | An input employee appears resolved among the organization's employees exactly when its department number is non-null and indexed. Every resolved employee comes from such an input employee and is attached to a department. The organization's list is the kept list resolved entry by entry, so it has the same length and the input order. |
| Organizations.DepartmentMembership | src/main/java/com/willowleaf/ldapsync/domain/Organization.java:155-162 | An assembled department keeps its own employees by uid and in place. The employees after them are attached to it and are among the organization's employees. Every unattached input employee with its number is among them. |
| Organizations.AssembledDepartment | src/main/java/com/willowleaf/ldapsync/domain/Organization.java:119-129 | Paths are computed on the finished tree. Each assembled department is `setPath` applied to the input department with its final employee list. |
| Organizations.AssembledPaths | src/main/java/com/willowleaf/ldapsync/domain/Organization.java:119-129 | After assembly, preset paths are kept. A blank number path is the root chain of the finished tree joined with "_". |
| Organizations.BlankPathComputed | src/main/java/com/willowleaf/ldapsync/domain/Organization.java:179-187 | After assembly, any blank path field, of whichever kind, holds the string computed from the finished tree. |
| Organizations.EmployeePosition | src/main/java/com/willowleaf/ldapsync/domain/Organization.java:164-172 | An employee whose position number names a fetched position gets that position's name, and gets the position's number appended to its list. |
| Organizations.PositionMembership | src/main/java/com/willowleaf/ldapsync/domain/Organization.java:169-171 | After assembly, a uid is in a position's list exactly when it was there before, or it belongs to a kept employee holding that position. |
| Organizations.IsEmpty | src/main/java/com/willowleaf/ldapsync/domain/Organization.java:194-200 | A cached answer is returned unchanged. Otherwise the answer is "no department has an employee", and it is then cached. |
| Organizations.IsEmptyCached | src/main/java/com/willowleaf/ldapsync/domain/Organization.java:194-200 | Asking a second time gives the same answer and changes nothing. |
| Organizations.AttachedNotAppendedAgain | src/main/java/com/willowleaf/ldapsync/domain/Organization.java:66-79 | When every employee in the department lists is already attached, each department keeps exactly its own employees, by uid and in order. |
| Organizations.ScenarioPath | src/main/java/com/willowleaf/ldapsync/domain/Organization.java:119-187 | Department "2" under root "1" gets the number path "1_2". |
| Organizations.ScenarioRelations | src/main/java/com/willowleaf/ldapsync/domain/Organization.java:148-174 | In that instance, employee "e1" of department "2" with position "p1" named "Engineer" is attached to "2", carries the name "Engineer", and is the one uid added to "p1". |
| DataSources.GetDictionary | src/main/java/com/willowleaf/ldapsync/domain/DataSource.java:100-106 | The first dictionary of the requested type in list order is returned. When there is none, the error names the type. |
| DataSources.StrategyOrdinalRoundTrip | src/main/java/com/willowleaf/ldapsync/domain/DataSource.java:44-73 | The stored ordinals of the pull strategy are exactly 0 and 1, and decoding inverts encoding. |
| DataSources.TypeOrdinalRoundTrip | src/main/java/com/willowleaf/ldapsync/domain/Dictionary.java:37-50 | The stored ordinals of the dictionary type are exactly 0 to 2, and decoding inverts encoding. |
| LdapOperators.Patterns | src/main/java/com/willowleaf/ldapsync/domain/LdapOperator.java:49-63 | The table has an entry for exactly the source names of maps that carry a pattern. The entry holds the comma-split patterns of the last such map. |
| LdapOperators.FormatterTable | src/main/java/com/willowleaf/ldapsync/domain/LdapOperator.java:49-63 | The operator is built from the employee dictionary's maps, and fails exactly when that dictionary is missing. |
| LdapOperators.GetValue | src/main/java/com/willowleaf/ldapsync/domain/LdapOperator.java:97-116 | Agrees with the reference definition. An absent attribute gives null, and an attribute without patterns gives its text. Otherwise the first pattern that parses gives the value, and when none parses the last failure is rethrown. The patterns are tried in order. |
| LdapOperators.MapEntryDescribes | src/main/java/com/willowleaf/ldapsync/domain/LdapOperator.java:87-92 | A mapped record has exactly the target names as fields. Each field holds the value extracted for the last map with that target name. |
| LdapOperators.MapEntries | src/main/java/com/willowleaf/ldapsync/domain/LdapOperator.java:75-95 | A search succeeds exactly when every entry maps. The results correspond one to one, in order. A failure is the error of the first entry that fails. |
| LdapOperators.Search | src/main/java/com/willowleaf/ldapsync/domain/LdapOperator.java:75-95 | The directory is asked for the source names. Its failure is passed on, and otherwise each entry found is mapped, in order. |
| LdapOperators.ParsingAppliesToAnyEntity | src/main/java/com/willowleaf/ldapsync/domain/LdapOperator.java:97-106 | The pattern table is consulted by source name alone. An attribute of any dictionary whose first employee pattern parses holds that date-time. |
| LdapPorters.AndFilterIsConjunction | src/main/java/com/willowleaf/ldapsync/domain/LdapPorter.java:61-65 | With a non-empty name and value, the filter is the RFC 4515 conjunction of the configured filter and `name=value`. Otherwise it is the configured filter unchanged. |
| LdapPorters.ValueSplicedVerbatim | src/main/java/com/willowleaf/ldapsync/domain/LdapPorter.java:61-65 | The value appears whole and unchanged right after `name=`. |
| LdapPorters.ValueNotEscaped | src/main/java/com/willowleaf/ldapsync/domain/LdapPorter.java:61-65 | A value containing filter syntax adds a filter component that no configured attribute produced. |
| LdapPorters.PullElements | src/main/java/com/willowleaf/ldapsync/domain/LdapPorter.java:45-56 | The pull succeeds exactly when the search does, keeping count and order. Each element is stamped with the data source id when the type has the setter, and left as it is otherwise. |
| LdapPorters.PullAllUsesConfiguredFilter | src/main/java/com/willowleaf/ldapsync/domain/LdapPorter.java:41-43 | The two-argument pull queries with the configured filter unchanged. |
| LdapPorters.PulledDepartmentsStamped | src/main/java/com/willowleaf/ldapsync/domain/LdapPorter.java:45-56 | Every pulled department carries the data source id, and nothing else about it changes. |
| CyclePorters.DepartmentNumberSource | src/main/java/com/willowleaf/ldapsync/domain/porter/CycleLdapPorter.java:30-35 | The source name returned is that of the first employee map targeting `departmentNumber`. When no map does, the result is a configuration error. |
| CyclePorters.FetchEmployees | src/main/java/com/willowleaf/ldapsync/domain/porter/CycleLdapPorter.java:36-40 | The fetch succeeds exactly when every department's query does. Each department then holds exactly its own query's results, each attached to it. |
| CyclePorters.Pull | src/main/java/com/willowleaf/ldapsync/domain/porter/CycleLdapPorter.java:20-45 | A missing department dictionary is the first failure. A successful pull has the fetched departments, in order, and exactly the positions the position search returned. |
| CyclePorters.PullSucceedsExactly | src/main/java/com/willowleaf/ldapsync/domain/porter/CycleLdapPorter.java:20-45 | The pull succeeds exactly when every stage does: the three dictionaries, the mapping, the department search, every employee query and the position search. |
| CyclePorters.PullReportsFirstFailure | src/main/java/com/willowleaf/ldapsync/domain/porter/CycleLdapPorter.java:20-45 | A failing pull reports the first failing stage: the department search, then the employee dictionary, then the first failing employee query in department order, then the position dictionary and search. |
| CyclePorters.PulledDepartmentsHoldTheirQueries | src/main/java/com/willowleaf/ldapsync/domain/porter/CycleLdapPorter.java:36-40 | Each fetched department holds the results of the employee filter AND-ed with `mapped attribute = its number`. The results are in order, attached to it and stamped. |
| CyclePorters.MissingMappingBeforeEmployeeQueries | src/main/java/com/willowleaf/ldapsync/domain/porter/CycleLdapPorter.java:30-36 | A missing department-number mapping fails the pull before any employee query. The outcome does not depend on the employee search. |
| CyclePorters.PulledEmployeesAttached | src/main/java/com/willowleaf/ldapsync/domain/porter/CycleLdapPorter.java:36-40 | Every fetched employee is attached to the department whose list it is in. |
| CyclePorters.CycleDepartmentsKeepTheirEmployees | src/main/java/com/willowleaf/ldapsync/domain/porter/CycleLdapPorter.java:36-44 | In the organization built from a cycle pull, each department holds exactly the employees its query returned, with none appended twice. |
| DataSourceFactories.ToMap | src/main/java/com/willowleaf/ldapsync/domain/factory/DataSourceFactory.java:29-35 | Collecting the pattern table succeeds exactly when no two pattern-bearing maps share a source name, and then gives the operator's table. A failure names the first repeated source name. |
| DataSourceFactories.GetDataSource | src/main/java/com/willowleaf/ldapsync/domain/factory/DataSourceFactory.java:26-38 | An unknown id is an error. Otherwise the factory succeeds exactly when the employee dictionary exists and its source names are distinct, and it returns the stored data source with the operator's pattern table. |
| DataSourceFactories.FactoryRejectsWhatOperatorOverwrites | src/main/java/com/willowleaf/ldapsync/domain/factory/DataSourceFactory.java:29-35 | The factory fails exactly on repeated source names, naming one of them. On the same input the operator's constructor succeeds. |
| DatabaseStorages.Write | src/main/java/com/willowleaf/ldapsync/domain/persistence/DatabaseStorage.java:26-30 | The department row is written without its list, then the employee rows. The save returns exactly when both writes do and the list is not null. Only the database changes. |
| DatabaseStorages.Save | src/main/java/com/willowleaf/ldapsync/domain/persistence/DatabaseStorage.java:26-32 | A save that returns restores the employee list. A save that throws leaves it null. |
| DatabaseStorages.Remove | src/main/java/com/willowleaf/ldapsync/domain/persistence/DatabaseStorage.java:35-38 | The department row is deleted first. A null list is rejected after that delete. A remove that returns deletes exactly the department's id and its employees' ids. |
| DatabaseStorages.SaveThenRemove | src/main/java/com/willowleaf/ldapsync/domain/persistence/DatabaseStorage.java:26-38 | A save followed by a remove leaves the tables with their earlier keys minus the department's and its employees' ids. |
| DatabaseStorages.RemoveAfterFailedSave | src/main/java/com/willowleaf/ldapsync/domain/persistence/DatabaseStorage.java:26-38 | After a failed save, the remove deletes the department row and then throws on the null list, without touching the employee rows. |
| ElasticsearchStorages.Memoised | src/main/java/com/willowleaf/ldapsync/domain/persistence/ElasticsearchStorage.java:77-97 | A remembered index name is returned as it is. Otherwise the name for the given data source is computed and remembered. A null data source fails only when nothing is remembered. |
| ElasticsearchStorages.MemoIsSticky | src/main/java/com/willowleaf/ldapsync/domain/persistence/ElasticsearchStorage.java:77-89 | The first index name computed is the one every later request gets, whatever its data source. |
| ElasticsearchStorages.SaveEmployees | src/main/java/com/willowleaf/ldapsync/domain/persistence/ElasticsearchStorage.java:64-75 | An empty list makes no request. Otherwise one bulk request upserts every employee by uid into the index of the first employee's data source. A null list throws before any request. |
| ElasticsearchStorages.Save | src/main/java/com/willowleaf/ldapsync/domain/persistence/ElasticsearchStorage.java:41-44 | The department document is the first call. When the save returns, that document is in its index. The database rows are untouched. |
| ElasticsearchStorages.SaveWritesEmployees | src/main/java/com/willowleaf/ldapsync/domain/persistence/ElasticsearchStorage.java:41-75 | When a save of a non-empty list returns, whatever names the instance remembers, it made exactly the department upsert and then the employee bulk upsert, and every employee uid is in the remembered employee index. |
| ElasticsearchStorages.DeleteTargets | src/main/java/com/willowleaf/ldapsync/domain/persistence/ElasticsearchStorage.java:50-55 | There is one delete per employee, by uid, all in the index first computed for the first employee. |
| ElasticsearchStorages.Remove | src/main/java/com/willowleaf/ldapsync/domain/persistence/ElasticsearchStorage.java:48-57 | The department document is deleted first. A remove that returns had a non-null list, and has deleted every employee document from the remembered employee index. |
| ElasticsearchStorages.EmptyRemoveRejected | src/main/java/com/willowleaf/ldapsync/domain/persistence/ElasticsearchStorage.java:48-57 | A remove with an empty employee list always throws. When the department delete returns, it is followed by the empty bulk request, whose rejection is the throwable. |
| ElasticsearchStorages.RemoveFreshSkippingEmpty | src/main/java/com/willowleaf/ldapsync/domain/persistence/ElasticsearchStorage.java:48-57 | The corrected Elasticsearch remove sends no bulk request without items. With employees it is the per-call remove. Without them it deletes only the department document, and returns exactly when the data source is set and that delete returns. The rows are untouched. |
| ElasticsearchStorages.SaveThenRemove | src/main/java/com/willowleaf/ldapsync/domain/persistence/ElasticsearchStorage.java:41-75 | A remove after a save, on the same instance, deletes the department document and every employee document the save wrote. |
| ElasticsearchStorages.IndexSharedAcrossDataSources | src/main/java/com/willowleaf/ldapsync/domain/persistence/ElasticsearchStorage.java:77-82 | After a department of data source `a` is saved, a department of another data source `b` is written to `dept_a`, which differs from `dept_b`. |
| ElasticsearchStorages.FreshIndexFollowsDataSource | src/main/java/com/willowleaf/ldapsync/domain/persistence/ElasticsearchStorage.java:77-97 | With names computed per call, a department is written to its own data source's index, and the employees to their first employee's data source's index. |
| ElasticsearchPersistences.WrapChecked | src/main/java/com/willowleaf/ldapsync/domain/persistence/ElasticsearchPersistence.java:52-55 | The wrapped throwable is always a runtime exception, and runtime exceptions pass through unchanged. |
| ElasticsearchPersistences.SaveEmployees | src/main/java/com/willowleaf/ldapsync/domain/persistence/ElasticsearchPersistence.java:62-73 | An empty list makes no request. Otherwise one bulk upsert goes to the employee index of the first employee's data source. No other store changes. |
| ElasticsearchPersistences.Save | src/main/java/com/willowleaf/ldapsync/domain/persistence/ElasticsearchPersistence.java:41-56 | Every throwable leaving the save is a runtime exception, and only the indices change. |
| ElasticsearchPersistences.ReturningSaveWritesAll | src/main/java/com/willowleaf/ldapsync/domain/persistence/ElasticsearchPersistence.java:41-56 | A save of a non-empty list returns exactly when both writes do. It then made the department upsert into dept_ of its data source and one bulk upsert into emp_ of the first employee's data source, and the department document and every employee uid are present. |
| ElasticsearchPersistences.DepartmentWrittenFirst | src/main/java/com/willowleaf/ldapsync/domain/persistence/ElasticsearchPersistence.java:41-60 | The department document is written first, to its own data source's index. When that write throws, nothing else is attempted and a checked failure leaves wrapped. |
| ElasticsearchPersistences.EmployeeFailureDeletesDepartment | src/main/java/com/willowleaf/ldapsync/domain/persistence/ElasticsearchPersistence.java:45-51 | A checked failure of the employee bulk is followed by the delete of the department document, and leaves wrapped. When that delete returns, the document is gone. |
| ElasticsearchPersistences.EmptyListSingleRequest | src/main/java/com/willowleaf/ldapsync/domain/persistence/ElasticsearchPersistence.java:62-66 | An empty employee list makes the save exactly one request, and the save returns exactly when that request does. |
| ElasticsearchPersistences.DocumentFields | src/main/java/com/willowleaf/ldapsync/domain/persistence/ElasticsearchPersistence.java:103-134 | A field goes into the document exactly when its type is String, Integer or Long. |
| ElasticsearchPersistences.UnneededFieldIgnored | src/main/java/com/willowleaf/ldapsync/domain/persistence/ElasticsearchPersistence.java:129-134 | Adding a field of any other type leaves the document unchanged. |
| RedisPersistences.KeysSeparate | src/main/java/com/willowleaf/ldapsync/domain/persistence/RedisPersistence.java:50-60 | A department key never equals an employee key. Keys of one type coincide exactly when the ids render alike. |
| RedisPersistences.NullIdSharesKey | src/main/java/com/willowleaf/ldapsync/domain/persistence/RedisPersistence.java:58-60 | A null id and the id "null" share a key. |
| RedisPersistences.Save | src/main/java/com/willowleaf/ldapsync/domain/persistence/RedisPersistence.java:29-39 | The department key is written first. A second call, the multi-set, happens exactly for a non-empty list. A save that returns has written every key. |
| RedisPersistences.Remove | src/main/java/com/willowleaf/ldapsync/domain/persistence/RedisPersistence.java:41-48 | The remove is one delete of the department key and one key per employee. A null list throws before any call, and only Redis changes. |
| RedisPersistences.SaveThenRemove | src/main/java/com/willowleaf/ldapsync/domain/persistence/RedisPersistence.java:29-48 | A remove after a save with the same list deletes every key the save wrote. |
| CompositeStorages.Remove | src/main/java/com/willowleaf/ldapsync/domain/persistence/CompositeStorage.java:37-46 | The database remove comes first, and its throwable ends the compensation. When it returns and the instance can name the department index, the next call deletes the department document from that index. A null list always ends in a throw. |
| CompositeStorages.SaveReturnsOnlyWhenBothSaved | src/main/java/com/willowleaf/ldapsync/domain/persistence/CompositeStorage.java:26-34 | The save returns exactly when both back-end saves return. Then the list is as it was and no remove call is made. |
| CompositeStorages.DatabaseFailureLosesOriginal | src/main/java/com/willowleaf/ldapsync/domain/persistence/CompositeStorage.java:26-46 | A throwing database save ends in the null-list failure, not the original exception. The department row is gone, and Elasticsearch is neither written nor compensated. |
| CompositeStorages.CheckedFailureSkipsCompensation | src/main/java/com/willowleaf/ldapsync/domain/persistence/CompositeStorage.java:26-34 | A checked exception from the Elasticsearch save escapes with no remove call, and the database rows written before stay. |
| CompositeStorages.RemoveClearsBothBackEnds | src/main/java/com/willowleaf/ldapsync/domain/persistence/CompositeStorage.java:37-39 | A compensating remove that returns had a list, and has cleared both back ends: the department and employee rows, the department document, and for a non-empty list every employee document. |
| CompositeStorages.RuntimeFailureCompensated | src/main/java/com/willowleaf/ldapsync/domain/persistence/CompositeStorage.java:26-46 | An unchecked Elasticsearch failure is compensated. When the compensation returns, the original is rethrown and the department and employee rows are gone. The department document is gone from the department index the instance remembers, and for a department with employees every employee document is gone from the remembered employee index. |
| CompositeStorages.CompensationFailureReplacesOriginal | src/main/java/com/willowleaf/ldapsync/domain/persistence/CompositeStorage.java:30-39 | A compensation that throws replaces the original exception. When the database remove throws, no Elasticsearch delete follows. |
| CompositeStorages.CorrectedCompensation | src/main/java/com/willowleaf/ldapsync/domain/persistence/CompositeStorage.java:26-46 | With the list restored, every failure compensated and no bulk request without items, the original exception is rethrown unchanged whenever the removes return, with or without employees. Neither the rows nor the department document remain, and for a department with employees no employee document remains in the index of the first employee's data source. |
| CompositeStorages.EmployeelessCompensationThrows | src/main/java/com/willowleaf/ldapsync/domain/persistence/CompositeStorage.java:26-46 | For a department without employees, an unchecked Elasticsearch failure is always replaced by the compensation's own throwable. When the earlier removes return, that is the rejection of the bulk request without items. |
| CompositeStorages.RemoveCorrected | src/main/java/com/willowleaf/ldapsync/domain/persistence/CompositeStorage.java:37-39 | The corrected remove extends the trace and never sends a bulk request without items. |
| CompositeStorages.CorrectedAgreesOnSuccess | src/main/java/com/willowleaf/ldapsync/domain/persistence/CompositeStorage.java:26-34 | For an Elasticsearch storage that has not yet named its indices, the corrected save returns exactly when the original does, with the same effect. With names already remembered the two differ, as the third finding shows. |
| CompositePersistences.Compensate | src/main/java/com/willowleaf/ldapsync/domain/persistence/CompositePersistence.java:33-42 | The compensation always throws and never touches Elasticsearch. A non-runtime throwable passes untouched. A throwing database remove ends it with its own throwable. |
| CompositePersistences.RedisNeverWritten | src/main/java/com/willowleaf/ldapsync/domain/persistence/CompositePersistence.java:28-32 | With the Redis save switched off, a save never adds a Redis key. |
| CompositePersistences.ElasticsearchFailureCompensatedElsewhere | src/main/java/com/willowleaf/ldapsync/domain/persistence/CompositePersistence.java:28-44 | Every Elasticsearch failure is a runtime exception and is compensated. The original is rethrown, the rows and Redis key are gone, and the Elasticsearch documents stay. |
| CompositePersistences.DatabaseFailureLosesOriginal | src/main/java/com/willowleaf/ldapsync/domain/persistence/CompositePersistence.java:28-44 | A throwing database save ends in the null-list failure instead of the original, and Redis is untouched. |
| CompositePersistences.NoRemovalOnSuccess | src/main/java/com/willowleaf/ldapsync/domain/persistence/CompositePersistence.java:28-32 | A save that returns made no remove call. |
| Persistences.DropIndex | src/main/java/com/willowleaf/ldapsync/domain/persistence/Persistence.java:56-60 | The existence check comes first, and the delete follows only for an existing index. When the call returns, the index is absent. Nothing else changes. |
| Persistences.Wipe | src/main/java/com/willowleaf/ldapsync/domain/persistence/Persistence.java:62-68 | A wipe that returns removes both indices of the data source and exactly the rows stamped with its id. Whether it returns or throws, the rows and indices it keeps hold their old values, rows of other data sources and indices other than the two are kept, and Redis is untouched. |
| Persistences.WipeSparesOtherSources | src/main/java/com/willowleaf/ldapsync/domain/persistence/Persistence.java:35-68 | The indices and employee rows of any other data source survive unchanged. |
| Persistences.SaveEach | src/main/java/com/willowleaf/ldapsync/domain/persistence/Persistence.java:81 | The departments handed to the save are a prefix of the list, and all of them when nothing throws. |
| Persistences.SaveEachSingle | src/main/java/com/willowleaf/ldapsync/domain/persistence/Persistence.java:81 | Saving one department is one call of the back end's save, with its state and throwable. |
| Persistences.SaveEachAppend | src/main/java/com/willowleaf/ldapsync/domain/persistence/Persistence.java:81 | Once the saves of a list have returned, saving it followed by more departments continues from the state they left, with the attempted departments concatenated. |
| Persistences.SaveEachStopsAtFirstThrow | src/main/java/com/willowleaf/ldapsync/domain/persistence/Persistence.java:81 | A throwing run ended at the last department attempted: the saves of all earlier departments returned, and the last save, started from the state they left, threw. |
| Persistences.WipeBeforeSaves | src/main/java/com/willowleaf/ldapsync/domain/persistence/Persistence.java:78-83 | Department saves start only after a wipe that returned and left nothing of the data source. A throwing wipe saves nothing. |
| Persistences.EmptyOrganizationTouchesNothing | src/main/java/com/willowleaf/ldapsync/domain/persistence/Persistence.java:78-83 | An organization without employees makes no call, through either save. |
| Persistences.OrganizationSaveIsSaveWithoutWipe | src/main/java/com/willowleaf/ldapsync/domain/Organization.java:112-116 | After a returning wipe, `Persistence.save` equals `Organization.save` on the wiped store. |
| Stores.IndexNameInjective | src/main/java/com/willowleaf/ldapsync/domain/persistence/Persistence.java:35-54 | Index names coincide exactly when prefix and data source id both agree. |
| Text.JavaSplitJoin | src/main/java/com/willowleaf/ldapsync/domain/LdapOperator.java:58 | Splitting separator-free pieces joined by the separator gives the pieces back, provided the last piece is non-empty. |
| Text.IntToStringRoundTrip | src/main/java/com/willowleaf/ldapsync/domain/persistence/Persistence.java:38-40 | The decimal rendering of a data source id parses back to the id. |
| Text.Units | src/main/java/com/willowleaf/ldapsync/domain/model/Department.java:184-186 | A character below 0x10000 is one UTF-16 code unit; any other is a high and a low surrogate that together encode it. |
| Text.Utf16OfBasicPlane | src/main/java/com/willowleaf/ldapsync/domain/model/Department.java:184-186 | A string without supplementary characters has one code unit per character, equal to it. |
| Text.StringHashIsPolynomial | src/main/java/com/willowleaf/ldapsync/domain/model/Department.java:184-186 | `String.hashCode`, wrapping to 32 bits at every step, equals s[0]*31^(n-1) + ... + s[n-1] over the UTF-16 code units, wrapped once. |
| Text.SupplementaryHash | src/main/java/com/willowleaf/ldapsync/domain/model/Department.java:184-186 | A supplementary character hashes as its surrogate pair: 31*0xD83D + 0xDE00 for U+1F600. |

## Left out

- Threads and parallel streams are sequential folds in list order. This
  covers the tree and relation threads of `init`, the position task of
  the cycle porter, and the parallel per-department saves. Races on the
  shared lists and maps are not modelled.
- The order of children appended by the parallel tree build and of
  newcomer employees is input order. Properties that depend on it are
  also stated as membership.
- Connecting to the directory (`getLdapOperations`) is not modelled. The
  search is a parameter, and so are the binary `objectGUID` attribute and
  connection pooling.
- The bean wrapper's reflective property setting is modelled as a record
  from target name to value. Type conversion of the set values is left
  out.
- Date parsing is a parameter. A malformed pattern, which makes
  `DateTimeFormatter.ofPattern` throw, is not modelled.
- JSON serialisation for Redis is not modelled: a Redis value is the
  entity itself. Documents for Elasticsearch are modelled only by the
  choice of fields (`needful`); their content is the entity itself.
- Logging is left out. The log lines after compensation read the list,
  but they cannot throw once the database remove has returned.
- The single-query porter and the controller, service, lock and Spring
  wiring around the core are not part of this model.
- `DatabasePersistence` has the same code as `DatabaseStorage`, which
  models it.
- `CompositePersistence` calls a one-argument `remove` on the database
  persistence, which that class does not declare. The model uses the
  two-argument remove.
- A bulk request without items never reaches the server: the client's
  own validation rejects it with an unchecked exception ("no requests
  added"), whatever the environment says. Stores.DoBulk models this. The
  Elasticsearch remove as written therefore always throws for a department
  without employees.
- ElasticsearchStorages.SaveWritesEmployees: a bulk request whose items
  fail one by one returns normally, with the failures only in its
  response, which the source does not read. The model applies every bulk
  request in full when it returns, so the promise holds only when every
  item succeeded.
- ElasticsearchStorages.SaveThenRemove: per-item failures of either bulk
  request return normally and are modelled as full success, as for
  SaveWritesEmployees.
- ElasticsearchStorages.Remove: per-item failures of the bulk delete
  return normally and are modelled as full success.
- ElasticsearchPersistences.ReturningSaveWritesAll: per-item failures of
  the bulk upsert return normally and are modelled as full success.
- Organizations.Assemble requires unique department and position
  numbers. With duplicates, the parallel stream that fills the source's
  maps keeps whichever element comes last, which is not determined. It
  also requires acyclic parent links, without which `getPath` in the
  source never ends.
- CompositeStorages.Save: its own contract states only the first call.
  Its behaviour is stated by the lemmas in the table.
- CompositeStorages.SaveCorrected: its own contract states only the first
  call. Its behaviour is stated by CorrectedCompensation and
  CorrectedAgreesOnSuccess.
- CompositePersistences.Save: its own contract states only the first
  call. Its behaviour is stated by the lemmas in the table.
- Natural keys are never null: a department's and a position's number
  and an employee's uid are plain strings. In the source they come from
  `getValue`, which yields null for an absent attribute. A null number
  makes `ConcurrentHashMap.put` in `getDepartmentMap` or
  `getPositionMap` throw a `NullPointerException` inside the tree or
  relation thread, which ends that thread without reaching `init`. In
  the cycle porter a null department number makes `andFilter` return
  the employee filter unchanged, so that department's query returns
  every employee.
- CyclePorters.Pull: a failure of the position task reaches the caller
  of `pull` wrapped in an `ExecutionException` by `FutureTask.get`; the
  model reports the position task's own error. The position task runs
  concurrently but its failure is observed only after the employee
  queries, which is the order the model reports.
- ElasticsearchPersistences.DocumentFields: only which field names are
  included is stated, not their values.

## Findings

| source | as written | input that shows it | evidently intended | confidence | as-written member | corrected member |
|---|---|---|---|---|---|---|
| src/main/java/com/willowleaf/ldapsync/domain/persistence/DatabaseStorage.java:26-32 with src/main/java/com/willowleaf/ldapsync/domain/persistence/CompositeStorage.java:26-46 | The employee list is set back only when both writes return, so a throwing save leaves it null. The compensating remove then deletes the department row and fails on the null list, replacing the original exception. | any department whose employee `saveAll` throws, e.g. on a constraint violation | set the list back in a `finally`, so the compensation removes the rows and rethrows the original | not executed | CompositeStorages.DatabaseFailureLosesOriginal | CompositeStorages.CorrectedCompensation |
| src/main/java/com/willowleaf/ldapsync/domain/persistence/CompositeStorage.java:30 | Only `RuntimeException` is caught. An `IOException` that the Elasticsearch save rethrows unchecked through `@SneakyThrows` escapes with no compensation, and the database rows stay. | the Elasticsearch client's `update` failing with an `IOException`, such as a refused connection | compensate every failure of either back end | not executed | CompositeStorages.CheckedFailureSkipsCompensation | CompositeStorages.CorrectedCompensation |
| src/main/java/com/willowleaf/ldapsync/domain/persistence/ElasticsearchStorage.java:77-89 | The index names are remembered by the singleton storage the first time they are computed, so every later data source writes to the first one's indices. | saving a department of data source 1, then one of data source 2: the second goes to `dept_1` | one index per data source, `dept_{id}` and `emp_{id}` | not executed | ElasticsearchStorages.IndexSharedAcrossDataSources | ElasticsearchStorages.FreshIndexFollowsDataSource |
| src/main/java/com/willowleaf/ldapsync/domain/persistence/ElasticsearchStorage.java:48-57 with src/main/java/com/willowleaf/ldapsync/domain/persistence/CompositeStorage.java:26-46 | The remove sends its bulk delete even when there are no employees, and the client rejects a bulk request without items. So the compensation for a department without employees always throws and replaces the original exception. | a department without employees whose Elasticsearch `update` throws an unchecked exception | send the bulk delete only when there are employees, as `saveEmployees` does | not executed | CompositeStorages.EmployeelessCompensationThrows | CompositeStorages.CorrectedCompensation |

=== FILE: composite_persistence.dfy ===
/** The older composite back end: the database, then Elasticsearch (the
    Redis save is switched off), and on a runtime exception a compensating
    remove from the database and Redis, but not from Elasticsearch, before
    the exception is rethrown. */
module CompositePersistences {
  import opened Wrappers
  import opened Domain
  import opened Stores
  import DB = DatabaseStorages
  import EP = ElasticsearchPersistences
  import RP = RedisPersistences

  /** The `catch (RuntimeException e)` block: the database remove, the Redis
      remove, a log line reading the employee list, and the rethrow; a
      throwing step ends it with its own throwable. The log line cannot
      throw here: the database remove has already thrown on a null list. */
  function Compensate(env: Env, s: State, d: Department, list: Option<seq<Employee>>, e: Exn): (r: Step)
    ensures |s.trace| <= |r.state.trace| && r.state.trace[..|s.trace|] == s.trace
    ensures r.thrown.Some?
    ensures r.state.world.indices == s.world.indices
    ensures !IsRuntime(e) ==> r == Step(s, Some(e))
    ensures IsRuntime(e) && DB.Remove(env, s, d, list).thrown.Some? ==> r == DB.Remove(env, s, d, list)
  {
    if !IsRuntime(e) then Step(s, Some(e))
    else
      var x := DB.Remove(env, s, d, list);
      if x.thrown.Some? then x
      else
        var y := RP.Remove(env, x.state, d, list);
        if y.thrown.Some? then y else Step(y.state, Some(e))
  }

  /** `save`: the database save, then the Elasticsearch save with whatever
      list the database save left on the department. */
  function Save(env: Env, s: State, d: Department): (r: Step)
    ensures |s.trace| < |r.state.trace| && r.state.trace[..|s.trace|] == s.trace && r.state.trace[|s.trace|] == SaveRow(d)
  {
    var a := DB.Save(env, s, d, Some(d.employees));
    if a.thrown.Some? then Compensate(env, a.state, d, a.list, a.thrown.value)
    else
      var b := EP.Save(env, a.state, d, a.list);
      if b.thrown.Some? then Compensate(env, b.state, d, a.list, b.thrown.value)
      else b
  }

  /** Redis is never written: with its save switched off, its keys can only go. */
  lemma RedisNeverWritten(env: Env, s: State, d: Department)
    ensures Save(env, s, d).state.world.redis.Keys <= s.world.redis.Keys
  {
  }

  /** Every throwable leaving the Elasticsearch save is a runtime exception,
      so every failure after the database save returned is compensated; when
      the compensation returns, the original exception is rethrown, the
      department's rows and Redis keys are gone, and the Elasticsearch
      documents stay as the failed save left them. */
  lemma ElasticsearchFailureCompensatedElsewhere(env: Env, s: State, d: Department)
    requires DB.Save(env, s, d, Some(d.employees)).thrown.None?
    requires var a := DB.Save(env, s, d, Some(d.employees));
             var b := EP.Save(env, a.state, d, a.list);
             && b.thrown.Some?
             && DB.Remove(env, b.state, d, a.list).thrown.None?
             && RP.Remove(env, DB.Remove(env, b.state, d, a.list).state, d, a.list).thrown.None?
    ensures var a := DB.Save(env, s, d, Some(d.employees));
            var b := EP.Save(env, a.state, d, a.list);
            var r := Save(env, s, d);
            && IsRuntime(b.thrown.value)
            && r.thrown == b.thrown
            && r.state.world.indices == b.state.world.indices
            && d.id !in r.state.world.departmentRows
            && r.state.world.employeeRows.Keys !! IdsOf(d.employees)
            && RP.DeptKey(d.id) !in r.state.world.redis
  {
    var a := DB.Save(env, s, d, Some(d.employees));
    var b := EP.Save(env, a.state, d, a.list);
    var x := DB.Remove(env, b.state, d, a.list);
    var y := RP.Remove(env, x.state, d, a.list);
    assert RP.RemovedKeys(d, d.employees)[0] in RP.RemovedKeys(d, d.employees);
    assert y.state.world.departmentRows == x.state.world.departmentRows;
  }

  /** A database save that throws leaves the list null, so the compensation
      deletes the department row and then throws on the null list: the
      original exception is lost and Redis is not reached. */
  lemma DatabaseFailureLosesOriginal(env: Env, s: State, d: Department)
    requires DB.Save(env, s, d, Some(d.employees)).thrown.Some?
    requires env(DeleteRow(d)).None?
    ensures var r := Save(env, s, d);
            && r.thrown == Some(NullReference)
            && r.thrown != DB.Save(env, s, d, Some(d.employees)).thrown
            && d.id !in r.state.world.departmentRows
            && r.state.world.redis == s.world.redis
  {
  }

  /** A save that returns made no remove call. */
  lemma NoRemovalOnSuccess(env: Env, s: State, d: Department)
    requires Save(env, s, d).thrown.None?
    ensures var r := Save(env, s, d);
            forall k :: |s.trace| <= k < |r.state.trace| ==> !IsRemoval(r.state.trace[k])
  {
    var a := DB.Save(env, s, d, Some(d.employees));
    var b := EP.Save(env, a.state, d, a.list);
    assert |a.state.trace| <= |s.trace| + 2;
    var index := IndexName(DEPT_PREFIX, d.dataSource.value);
    var u := Do(env, a.state, Upsert(index, d.number, DeptDoc(d)));
    var v := EP.SaveEmployees(env, u.state, a.list);
    assert b == v;
  }
}

=== FILE: composite_storage.dfy ===
/** The storage pair used by the organization: the database, then
    Elasticsearch, and on a runtime exception a compensating remove from
    both before the exception is rethrown. */
module CompositeStorages {
  import opened Wrappers
  import opened Domain
  import opened Stores
  import DB = DatabaseStorages
  import ES = ElasticsearchStorages

  /** A state after a composite action: the back ends, the Elasticsearch
      storage's memo, the department's employee-list field, and the throwable. */
  datatype Stored = Stored(state: State, memo: ES.Memo, list: Option<seq<Employee>>, thrown: Option<Exn>)

  /** `remove`: the database, then Elasticsearch, then a log line that reads
      the employee list; the first step that throws ends it with its own
      throwable. The log line cannot throw here: the database remove has
      already thrown on a null list. */
  function Remove(env: Env, s: State, memo: ES.Memo, d: Department, list: Option<seq<Employee>>): (r: Stored)
    ensures r.list == list
    ensures |s.trace| < |r.state.trace| && r.state.trace[..|s.trace|] == s.trace && r.state.trace[|s.trace|] == DeleteRow(d)
    ensures DB.Remove(env, s, d, list).thrown.Some? ==> r.thrown == DB.Remove(env, s, d, list).thrown
    ensures list.None? ==> r.thrown.Some?
    ensures DB.Remove(env, s, d, list).thrown.None? && ES.Memoised(memo.deptIndex, DEPT_PREFIX, d.dataSource).Success? ==>
              var k := |DB.Remove(env, s, d, list).state.trace|;
              k < |r.state.trace|
              && r.state.trace[k] == Delete(ES.Memoised(memo.deptIndex, DEPT_PREFIX, d.dataSource).value.index, d.number)
  {
    var a := DB.Remove(env, s, d, list);
    if a.thrown.Some? then Stored(a.state, memo, list, a.thrown)
    else
      var b := ES.Remove(env, a.state, memo, d, list);
      Stored(b.state, b.memo, list, b.thrown)
  }

  /** A compensating remove that returns has cleared both back ends: the
      department row and the employee rows, the department document, and,
      for a non-empty list, every employee document in the index the
      instance names for the first employee. */
  lemma RemoveClearsBothBackEnds(env: Env, s: State, memo: ES.Memo, d: Department, list: Option<seq<Employee>>)
    ensures var r := Remove(env, s, memo, d, list);
            r.thrown.None? ==>
              && list.Some?
              && d.id !in r.state.world.departmentRows
              && r.state.world.employeeRows.Keys !! IdsOf(list.value)
              && ES.Memoised(memo.deptIndex, DEPT_PREFIX, d.dataSource).Success?
              && var dept := ES.Memoised(memo.deptIndex, DEPT_PREFIX, d.dataSource).value.index;
                 (dept in r.state.world.indices ==> d.number !in r.state.world.indices[dept])
    ensures var r := Remove(env, s, memo, d, list);
            r.thrown.None? && list.Some? && |list.value| > 0 ==>
              var emp := ES.Memoised(memo.empIndex, EMP_PREFIX, list.value[0].dataSource);
              && emp.Success?
              && (emp.value.index in r.state.world.indices ==>
                    forall i :: 0 <= i < |list.value| ==> list.value[i].uid !in r.state.world.indices[emp.value.index])
  {
    var r := Remove(env, s, memo, d, list);
    if r.thrown.None? {
      var a := DB.Remove(env, s, d, list);
      var b := ES.Remove(env, a.state, memo, d, list);
      assert r.state == b.state;
    }
  }

  /** `catch (RuntimeException e)`: compensate, then rethrow `e` unless the
      compensation threw; any other throwable passes through untouched. */
  function Catch(env: Env, s: State, memo: ES.Memo, d: Department, list: Option<seq<Employee>>, e: Exn): (r: Stored)
    ensures !IsRuntime(e) ==> r == Stored(s, memo, list, Some(e))
    ensures IsRuntime(e) ==> r.thrown.Some?
    ensures IsRuntime(e) && Remove(env, s, memo, d, list).thrown.None? ==> r == Remove(env, s, memo, d, list).(thrown := Some(e))
    ensures IsRuntime(e) && Remove(env, s, memo, d, list).thrown.Some? ==> r == Remove(env, s, memo, d, list)
  {
    if !IsRuntime(e) then Stored(s, memo, list, Some(e))
    else
      var c := Remove(env, s, memo, d, list);
      if c.thrown.Some? then c else c.(thrown := Some(e))
  }

  /** `save` as written: the database save, then the Elasticsearch save
      with whatever employee list the database save left on the department. */
  function Save(env: Env, s: State, memo: ES.Memo, d: Department): (r: Stored)
    ensures |s.trace| < |r.state.trace| && r.state.trace[..|s.trace|] == s.trace && r.state.trace[|s.trace|] == SaveRow(d)
  {
    var a := DB.Save(env, s, d, Some(d.employees));
    if a.thrown.Some? then Catch(env, a.state, memo, d, a.list, a.thrown.value)
    else
      var b := ES.Save(env, a.state, memo, d, a.list);
      if b.thrown.Some? then Catch(env, b.state, b.memo, d, a.list, b.thrown.value)
      else Stored(b.state, b.memo, a.list, None)
  }

  /** Both saves returning is the only way `save` returns, and then no
      remove call is made and the list is as it was. */
  lemma SaveReturnsOnlyWhenBothSaved(env: Env, s: State, memo: ES.Memo, d: Department)
    ensures var r := Save(env, s, memo, d);
            var a := DB.Save(env, s, d, Some(d.employees));
            r.thrown.None? <==> a.thrown.None? && ES.Save(env, a.state, memo, d, a.list).thrown.None?
    ensures var r := Save(env, s, memo, d);
            r.thrown.None? ==> r.list == Some(d.employees) && forall k :: |s.trace| <= k < |r.state.trace| ==> !IsRemoval(r.state.trace[k])
  {
    var r := Save(env, s, memo, d);
    var a := DB.Save(env, s, d, Some(d.employees));
    if a.thrown.None? {
      var b := ES.Save(env, a.state, memo, d, a.list);
      if b.thrown.None? {
        assert r.state == b.state;
        assert forall k :: |s.trace| <= k < |a.state.trace| ==> !IsRemoval(a.state.trace[k]) by {
          assert |a.state.trace| <= |s.trace| + 2;
        }
        ElasticsearchSaveRemovesNothing(env, a.state, memo, d, a.list);
      }
    }
  }

  /** The Elasticsearch save makes no remove call. */
  lemma ElasticsearchSaveRemovesNothing(env: Env, s: State, memo: ES.Memo, d: Department, list: Option<seq<Employee>>)
    ensures var r := ES.Save(env, s, memo, d, list);
            forall k :: |s.trace| <= k < |r.state.trace| ==> !IsRemoval(r.state.trace[k])
  {
    var r := ES.Save(env, s, memo, d, list);
    assert |r.state.trace| <= |s.trace| + 2;
  }

  /** A database save that throws is followed by no Elasticsearch save, and,
      since it left the employee list null, by a compensation that deletes
      the department row and then throws on the null list: the original
      exception is lost and Elasticsearch is not compensated. */
  lemma DatabaseFailureLosesOriginal(env: Env, s: State, memo: ES.Memo, d: Department)
    requires DB.Save(env, s, d, Some(d.employees)).thrown.Some?
    requires env(DeleteRow(d)).None?
    ensures var r := Save(env, s, memo, d);
            var e := DB.Save(env, s, d, Some(d.employees)).thrown.value;
            && r.thrown == Some(NullReference) && r.thrown != Some(e)
            && r.list.None?
            && d.id !in r.state.world.departmentRows
            && r.state.world.indices == s.world.indices
            && forall k :: |s.trace| <= k < |r.state.trace| ==> !r.state.trace[k].Upsert? && !r.state.trace[k].BulkUpsert? && !r.state.trace[k].Delete?
  {
    var a := DB.Save(env, s, d, Some(d.employees));
    assert a.list.None?;
    var c := DB.Remove(env, a.state, d, a.list);
    assert c.thrown == Some(NullReference);
    assert |c.state.trace| <= |a.state.trace| + 2 && |a.state.trace| <= |s.trace| + 2;
  }

  /** A checked exception from the Elasticsearch save is not a
      `RuntimeException`: it escapes without compensation and the database
      rows written just before stay. */
  lemma CheckedFailureSkipsCompensation(env: Env, s: State, memo: ES.Memo, d: Department)
    requires DB.Save(env, s, d, Some(d.employees)).thrown.None?
    requires var a := DB.Save(env, s, d, Some(d.employees));
             var b := ES.Save(env, a.state, memo, d, a.list);
             b.thrown.Some? && !IsRuntime(b.thrown.value)
    ensures var r := Save(env, s, memo, d);
            && r.thrown.Some? && !IsRuntime(r.thrown.value)
            && d.id in r.state.world.departmentRows
            && IdsOf(d.employees) <= r.state.world.employeeRows.Keys
            && forall k :: |s.trace| <= k < |r.state.trace| ==> !IsRemoval(r.state.trace[k])
  {
    var a := DB.Save(env, s, d, Some(d.employees));
    assert |a.state.trace| <= |s.trace| + 2;
    ElasticsearchSaveRemovesNothing(env, a.state, memo, d, a.list);
  }

  /** An unchecked failure of the Elasticsearch save, after the database
      save returned, is compensated in both back ends; when the compensation
      itself does not throw, the original exception is rethrown and the
      department's rows are gone. */
  lemma RuntimeFailureCompensated(env: Env, s: State, memo: ES.Memo, d: Department)
    requires DB.Save(env, s, d, Some(d.employees)).thrown.None?
    requires var a := DB.Save(env, s, d, Some(d.employees));
             var b := ES.Save(env, a.state, memo, d, a.list);
             b.thrown.Some? && IsRuntime(b.thrown.value)
    ensures var r := Save(env, s, memo, d);
            var a := DB.Save(env, s, d, Some(d.employees));
            var b := ES.Save(env, a.state, memo, d, a.list);
            Remove(env, b.state, b.memo, d, a.list).thrown.None? ==>
              && r.thrown == b.thrown
              && r.state == Remove(env, b.state, b.memo, d, a.list).state
              && d.id !in r.state.world.departmentRows
              && r.state.world.employeeRows.Keys !! IdsOf(d.employees)
              && b.memo.deptIndex.Some?
              && (b.memo.deptIndex.value in r.state.world.indices ==> d.number !in r.state.world.indices[b.memo.deptIndex.value])
    ensures var r := Save(env, s, memo, d);
            var a := DB.Save(env, s, d, Some(d.employees));
            var b := ES.Save(env, a.state, memo, d, a.list);
            Remove(env, b.state, b.memo, d, a.list).thrown.None? && |d.employees| > 0 ==>
              var emp := ES.Memoised(b.memo.empIndex, EMP_PREFIX, d.employees[0].dataSource);
              && emp.Success?
              && (emp.value.index in r.state.world.indices ==>
                    forall i :: 0 <= i < |d.employees| ==> d.employees[i].uid !in r.state.world.indices[emp.value.index])
  {
    var a := DB.Save(env, s, d, Some(d.employees));
    var b := ES.Save(env, a.state, memo, d, a.list);
    if Remove(env, b.state, b.memo, d, a.list).thrown.None? {
      RemoveClearsBothBackEnds(env, b.state, b.memo, d, a.list);
      ES.MemoIsSticky(b.memo.deptIndex, DEPT_PREFIX, d.dataSource, d.dataSource);
    }
  }

  /** A compensation that throws replaces the original exception with its own. */
  lemma CompensationFailureReplacesOriginal(env: Env, s: State, memo: ES.Memo, d: Department, list: Option<seq<Employee>>, e: Exn)
    requires IsRuntime(e) && Remove(env, s, memo, d, list).thrown.Some?
    ensures Catch(env, s, memo, d, list, e).thrown == Remove(env, s, memo, d, list).thrown
    ensures DB.Remove(env, s, d, list).thrown.Some? ==>
              forall k :: |s.trace| <= k < |Catch(env, s, memo, d, list, e).state.trace| ==>
                !Catch(env, s, memo, d, list, e).state.trace[k].Delete? && !Catch(env, s, memo, d, list, e).state.trace[k].BulkDelete?
  {
    if DB.Remove(env, s, d, list).thrown.Some? {
      assert |DB.Remove(env, s, d, list).state.trace| <= |s.trace| + 2;
    }
  }

  /** As written, the compensation for a department without employees can
      never return: the Elasticsearch remove always ends with a bulk request
      without items, which the client rejects. So a runtime exception from the
      Elasticsearch save is always replaced, and when the earlier removes
      return it is replaced by the rejection of that empty bulk request. */
  lemma EmployeelessCompensationThrows(env: Env, s: State, memo: ES.Memo, d: Department)
    requires |d.employees| == 0
    requires DB.Save(env, s, d, Some(d.employees)).thrown.None?
    requires var a := DB.Save(env, s, d, Some(d.employees));
             var b := ES.Save(env, a.state, memo, d, a.list);
             b.thrown.Some? && IsRuntime(b.thrown.value)
    ensures var a := DB.Save(env, s, d, Some(d.employees));
            var b := ES.Save(env, a.state, memo, d, a.list);
            var r := Save(env, s, memo, d);
            && r.thrown.Some?
            && r.thrown == Remove(env, b.state, b.memo, d, a.list).thrown
    ensures var a := DB.Save(env, s, d, Some(d.employees));
            var b := ES.Save(env, a.state, memo, d, a.list);
            var r := Save(env, s, memo, d);
            var n := ES.Memoised(b.memo.deptIndex, DEPT_PREFIX, d.dataSource);
            n.Success? && env(DeleteRow(d)).None? && env(DeleteRows([])).None? && env(Delete(n.value.index, d.number)).None? ==>
              r.thrown == Some(Raised(false, BulkDelete([])))
  {
    var a := DB.Save(env, s, d, Some(d.employees));
    var b := ES.Save(env, a.state, memo, d, a.list);
    assert a.list == Some([]);
    var c := DB.Remove(env, b.state, d, a.list);
    if c.thrown.None? {
      ES.EmptyRemoveRejected(env, c.state, b.memo, d);
    }
  }

  /** Every remove call returns. */
  ghost predicate RemovalsSucceed(env: Env) {
    forall c :: IsRemoval(c) ==> env(c).None?
  }

  /** The corrected remove: both back ends, the index named per call, and
      no bulk request for a department without employees. */
  function RemoveCorrected(env: Env, s: State, d: Department, list: Option<seq<Employee>>): (r: Step)
    ensures |s.trace| < |r.state.trace| && r.state.trace[..|s.trace|] == s.trace
    ensures forall k :: |s.trace| <= k < |r.state.trace| ==> !EmptyBulk(r.state.trace[k])
  {
    var a := DB.Remove(env, s, d, list);
    if a.thrown.Some? then
      assert |a.state.trace| <= |s.trace| + 2;
      a
    else ES.RemoveFreshSkippingEmpty(env, a.state, d, list)
  }

  /** The corrected save: the database save sets the list back in a
      `finally`, the Elasticsearch index is named for the department's own
      data source, and every throwable, checked or not, is compensated
      before it is rethrown. */
  function SaveCorrected(env: Env, s: State, d: Department): (r: Step)
    ensures |s.trace| < |r.state.trace| && r.state.trace[..|s.trace|] == s.trace && r.state.trace[|s.trace|] == SaveRow(d)
  {
    var a := DB.SaveRestoring(env, s, d, Some(d.employees));
    var b := if a.thrown.Some? then Step(a.state, a.thrown) else ES.SaveFresh(env, a.state, d, a.list);
    if b.thrown.None? then b
    else
      var c := RemoveCorrected(env, b.state, d, a.list);
      if c.thrown.Some? then c else Step(c.state, b.thrown)
  }

  /** With the corrected save, a failure of either back end, checked or
      not, is rethrown unchanged once the remove calls return, and leaves
      neither the department's rows nor its documents behind: not the
      department document, and not the employee documents in the index of
      the first employee's data source. */
  lemma CorrectedCompensation(env: Env, s: State, d: Department, dataSourceId: int)
    requires RemovalsSucceed(env)
    requires d.dataSource == Some(dataSourceId)
    requires |d.employees| > 0 ==> d.employees[0].dataSource.Some?
    ensures var r := SaveCorrected(env, s, d);
            var a := DB.SaveRestoring(env, s, d, Some(d.employees));
            var original := if a.thrown.Some? then a.thrown else ES.SaveFresh(env, a.state, d, a.list).thrown;
            r.thrown == original
    ensures var r := SaveCorrected(env, s, d);
            var w := r.state.world;
            var index := IndexName(DEPT_PREFIX, dataSourceId);
            r.thrown.Some? ==>
              && d.id !in w.departmentRows
              && w.employeeRows.Keys !! IdsOf(d.employees)
              && (index in w.indices ==> d.number !in w.indices[index])
    ensures var r := SaveCorrected(env, s, d);
            var w := r.state.world;
            r.thrown.Some? && |d.employees| > 0 ==>
              var index := IndexName(EMP_PREFIX, d.employees[0].dataSource.value);
              index in w.indices ==> forall i :: 0 <= i < |d.employees| ==> d.employees[i].uid !in w.indices[index]
  {
    var a := DB.SaveRestoring(env, s, d, Some(d.employees));
    var b := if a.thrown.Some? then Step(a.state, a.thrown) else ES.SaveFresh(env, a.state, d, a.list);
    if b.thrown.Some? {
      var c1 := DB.Remove(env, b.state, d, a.list);
      assert env(DeleteRow(d)).None? && env(DeleteRows(d.employees)).None?;
      assert c1.thrown.None?;
      var n := ES.Memoised(None, DEPT_PREFIX, d.dataSource).value;
      assert env(Delete(n.index, d.number)).None?;
      if |d.employees| > 0 {
        var c2 := ES.Remove(env, c1.state, ES.Memo(None, None), d, a.list);
        var tn := ES.DeleteTargets(None, d.employees);
        assert tn.Success?;
        assert env(BulkDelete(tn.value.targets)).None?;
        assert c2.thrown.None?;
        assert ES.Memoised(None, EMP_PREFIX, d.employees[0].dataSource).value.index
            == IndexName(EMP_PREFIX, d.employees[0].dataSource.value);
        assert SaveCorrected(env, s, d).state == c2.state;
      }
    }
  }

  /** For an Elasticsearch storage that has not yet named its indices, the
      corrected save returns exactly when the as-written one does, with the
      same effect. */
  lemma CorrectedAgreesOnSuccess(env: Env, s: State, d: Department)
    ensures var r := Save(env, s, ES.Memo(None, None), d);
            r.thrown.None? <==> SaveCorrected(env, s, d).thrown.None?
    ensures var r := Save(env, s, ES.Memo(None, None), d);
            r.thrown.None? ==> r.state == SaveCorrected(env, s, d).state
  {
  }
}

=== FILE: cycle_porter.dfy ===
/** The cycle strategy: departments first, then the employees of each
    department by one query each, then the positions; the organization is
    built from the departments' own lists. The background position task
    and the parallel per-department queries are sequential here, and a
    failure is reported in that order. */
module CyclePorters {
  import opened Wrappers
  import opened Domain
  import opened DataSources
  import opened LdapPorters
  import opened Organizations

  /** The target name that marks the employee attribute holding the department number. */
  const DEPARTMENT_NUMBER := "departmentNumber"

  /** The source name of the first employee map whose target is the
      department number; a configuration error when there is none. */
  function DepartmentNumberSource(dict: Dictionary): (r: Result<string, Error>)
    ensures r.Success? <==> exists i :: 0 <= i < |dict.attributeMaps| && dict.attributeMaps[i].targetName == DEPARTMENT_NUMBER
    ensures r.Success? ==> exists i :: 0 <= i < |dict.attributeMaps| && dict.attributeMaps[i].targetName == DEPARTMENT_NUMBER
                                && dict.attributeMaps[i].sourceName == r.value
                                && forall j :: 0 <= j < i ==> dict.attributeMaps[j].targetName != DEPARTMENT_NUMBER
    ensures r.Failure? ==> r.error == MissingDepartmentNumberMapping
  {
    FirstSource(dict.attributeMaps)
  }

  function FirstSource(maps: seq<AttributeMap>): (r: Result<string, Error>)
    ensures r.Success? <==> exists i :: 0 <= i < |maps| && maps[i].targetName == DEPARTMENT_NUMBER
    ensures r.Success? ==> exists i :: 0 <= i < |maps| && maps[i].targetName == DEPARTMENT_NUMBER && maps[i].sourceName == r.value
                                && forall j :: 0 <= j < i ==> maps[j].targetName != DEPARTMENT_NUMBER
    ensures r.Failure? ==> r.error == MissingDepartmentNumberMapping
    decreases |maps|
  {
    if |maps| == 0 then Failure(MissingDepartmentNumberMapping)
    else if maps[0].targetName == DEPARTMENT_NUMBER then Success(maps[0].sourceName)
    else
      assert forall i :: 1 <= i < |maps| ==> maps[i] == maps[1..][i - 1];
      FirstSource(maps[1..])
  }

  /** One department after its query: its employees are exactly the
      employees found for it, each attached to it. */
  function AttachFetched(d: Department, found: seq<Employee>): (r: Department)
    ensures r == d.(employees := r.employees)
    ensures |r.employees| == |found|
    ensures forall i :: 0 <= i < |found| ==> r.employees[i] == found[i].(department := Some(d.number))
  {
    d.(employees := seq(|found|, i requires 0 <= i < |found| => found[i].(department := Some(d.number))))
  }

  /** The employee query of one department: the employee dictionary's filter
      and-ed with `source=number`, each result stamped with the data source. */
  function QueryEmployees(ds: DataSource, dict: Dictionary, search: Search<Employee>, source: string, d: Department): Result<seq<Employee>, Error> {
    PullElements(ds, dict, search, Some(StampEmployee), Some(source), Some(d.number))
  }

  /** `error` is the error of the first department query, in department
      order, that fails. */
  predicate FirstFailure(ds: DataSource, dict: Dictionary, search: Search<Employee>, source: string, depts: seq<Department>, error: Error) {
    exists j :: 0 <= j < |depts| && QueryEmployees(ds, dict, search, source, depts[j]) == Failure(error)
                && forall k :: 0 <= k < j ==> QueryEmployees(ds, dict, search, source, depts[k]).Success?
  }

  /** Every department replaced by the one with its own query result; the
      first failing query, in department order, aborts. */
  function FetchEmployees(ds: DataSource, dict: Dictionary, search: Search<Employee>, source: string, depts: seq<Department>): (r: Result<seq<Department>, Error>)
    ensures r.Success? <==> forall i :: 0 <= i < |depts| ==> QueryEmployees(ds, dict, search, source, depts[i]).Success?
    ensures r.Success? ==> |r.value| == |depts|
    ensures r.Success? ==> forall i :: 0 <= i < |depts| ==>
              QueryEmployees(ds, dict, search, source, depts[i]).Success?
              && r.value[i] == AttachFetched(depts[i], QueryEmployees(ds, dict, search, source, depts[i]).value)
    ensures r.Failure? ==> FirstFailure(ds, dict, search, source, depts, r.error)
    decreases |depts|
  {
    if |depts| == 0 then Success([])
    else
      var init := depts[..|depts| - 1];
      var d := depts[|depts| - 1];
      var rs := FetchEmployees(ds, dict, search, source, init);
      var q := QueryEmployees(ds, dict, search, source, d);
      if rs.Failure? then
        assert exists i :: 0 <= i < |depts| && QueryEmployees(ds, dict, search, source, depts[i]).Failure? by {
          var i :| 0 <= i < |init| && QueryEmployees(ds, dict, search, source, init[i]).Failure?;
          assert depts[i] == init[i];
        }
        assert FirstFailure(ds, dict, search, source, depts, rs.error) by {
          var j :| 0 <= j < |init| && QueryEmployees(ds, dict, search, source, init[j]) == Failure(rs.error)
                   && forall k :: 0 <= k < j ==> QueryEmployees(ds, dict, search, source, init[k]).Success?;
          assert depts[j] == init[j];
          assert forall k :: 0 <= k < j ==> depts[k] == init[k];
        }
        rs
      else if q.Failure? then
        assert QueryEmployees(ds, dict, search, source, depts[|depts| - 1]) == Failure(q.error);
        assert forall k :: 0 <= k < |depts| - 1 ==> depts[k] == init[k];
        Failure(q.error)
      else
        var all := rs.value + [AttachFetched(d, q.value)];
        assert forall i :: 0 <= i < |depts| ==>
                 QueryEmployees(ds, dict, search, source, depts[i]).Success?
                 && all[i] == AttachFetched(depts[i], QueryEmployees(ds, dict, search, source, depts[i]).value) by {
          forall i | 0 <= i < |depts|
            ensures QueryEmployees(ds, dict, search, source, depts[i]).Success?
                    && all[i] == AttachFetched(depts[i], QueryEmployees(ds, dict, search, source, depts[i]).value)
          {
            if i < |init| {
              assert depts[i] == init[i];
            }
          }
        }
        Success(all)
  }

  /** What `pull` hands to the organization: departments with their employees, and positions. */
  datatype Fetched = Fetched(departments: seq<Department>, positions: seq<Position>)

  /** The three directory searches, one per entity type. */
  datatype Searches = Searches(departments: Search<Department>, employees: Search<Employee>, positions: Search<Position>)

  /** Every stage of the cycle strategy succeeds: both dictionaries and the
      mapping are found, and every directory search returns. */
  predicate StagesSucceed(ds: DataSource, searches: Searches) {
    && GetDictionary(ds, DEPARTMENT).Success?
    && PullAll(ds, GetDictionary(ds, DEPARTMENT).value, searches.departments, Some(StampDepartment)).Success?
    && GetDictionary(ds, EMPLOYEE).Success?
    && DepartmentNumberSource(GetDictionary(ds, EMPLOYEE).value).Success?
    && (forall d :: d in PullAll(ds, GetDictionary(ds, DEPARTMENT).value, searches.departments, Some(StampDepartment)).value ==>
          QueryEmployees(ds, GetDictionary(ds, EMPLOYEE).value, searches.employees,
                         DepartmentNumberSource(GetDictionary(ds, EMPLOYEE).value).value, d).Success?)
    && GetDictionary(ds, POSITION).Success?
    && PullAll(ds, GetDictionary(ds, POSITION).value, searches.positions, Some(StampPosition)).Success?
  }

  /** `pull` of the cycle strategy, up to the construction of the
      organization: each stage in turn, the first failure aborting. */
  function Pull(ds: DataSource, searches: Searches): (r: Result<Fetched, Error>)
    ensures GetDictionary(ds, DEPARTMENT).Failure? ==> r == Failure(MissingDictionary(DEPARTMENT))
    ensures r.Success? ==>
              && GetDictionary(ds, DEPARTMENT).Success?
              && PullAll(ds, GetDictionary(ds, DEPARTMENT).value, searches.departments, Some(StampDepartment)).Success?
              && GetDictionary(ds, EMPLOYEE).Success?
              && DepartmentNumberSource(GetDictionary(ds, EMPLOYEE).value).Success?
              && var depts := PullAll(ds, GetDictionary(ds, DEPARTMENT).value, searches.departments, Some(StampDepartment)).value;
                 var fe := FetchEmployees(ds, GetDictionary(ds, EMPLOYEE).value, searches.employees,
                                          DepartmentNumberSource(GetDictionary(ds, EMPLOYEE).value).value, depts);
                 fe.Success? && r.value.departments == fe.value && |r.value.departments| == |depts|
    ensures r.Success? ==>
              && GetDictionary(ds, POSITION).Success?
              && PullAll(ds, GetDictionary(ds, POSITION).value, searches.positions, Some(StampPosition)).Success?
              && r.value.positions == PullAll(ds, GetDictionary(ds, POSITION).value, searches.positions, Some(StampPosition)).value
  {
    var deptDict :- GetDictionary(ds, DEPARTMENT);
    var depts :- PullAll(ds, deptDict, searches.departments, Some(StampDepartment));
    var empDict :- GetDictionary(ds, EMPLOYEE);
    var source :- DepartmentNumberSource(empDict);
    var withEmployees :- FetchEmployees(ds, empDict, searches.employees, source, depts);
    var posDict :- GetDictionary(ds, POSITION);
    var positions :- PullAll(ds, posDict, searches.positions, Some(StampPosition));
    Success(Fetched(withEmployees, positions))
  }

  /** The pull succeeds exactly when every stage does. */
  lemma PullSucceedsExactly(ds: DataSource, searches: Searches)
    ensures Pull(ds, searches).Success? <==> StagesSucceed(ds, searches)
  {
  }

  /** A failing pull reports the first failing stage, in the order the
      source observes them: the department search, the employee dictionary,
      the department-number mapping, the first failing employee query in
      department order, and last the position task. */
  lemma PullReportsFirstFailure(ds: DataSource, searches: Searches)
    ensures var deptDict := GetDictionary(ds, DEPARTMENT);
            deptDict.Success? && PullAll(ds, deptDict.value, searches.departments, Some(StampDepartment)).Failure? ==>
              Pull(ds, searches) == Failure(PullAll(ds, deptDict.value, searches.departments, Some(StampDepartment)).error)
    ensures var deptDict := GetDictionary(ds, DEPARTMENT);
            && deptDict.Success? && PullAll(ds, deptDict.value, searches.departments, Some(StampDepartment)).Success?
            && GetDictionary(ds, EMPLOYEE).Failure? ==>
              Pull(ds, searches) == Failure(MissingDictionary(EMPLOYEE))
    ensures var deptDict := GetDictionary(ds, DEPARTMENT);
            var empDict := GetDictionary(ds, EMPLOYEE);
            && deptDict.Success? && PullAll(ds, deptDict.value, searches.departments, Some(StampDepartment)).Success?
            && empDict.Success? && DepartmentNumberSource(empDict.value).Success? ==>
              var depts := PullAll(ds, deptDict.value, searches.departments, Some(StampDepartment)).value;
              var source := DepartmentNumberSource(empDict.value).value;
              && (FetchEmployees(ds, empDict.value, searches.employees, source, depts).Failure? ==>
                    Pull(ds, searches).Failure?
                    && FirstFailure(ds, empDict.value, searches.employees, source, depts, Pull(ds, searches).error))
              && (FetchEmployees(ds, empDict.value, searches.employees, source, depts).Success? ==>
                    && (GetDictionary(ds, POSITION).Failure? ==> Pull(ds, searches) == Failure(MissingDictionary(POSITION)))
                    && (GetDictionary(ds, POSITION).Success?
                        && PullAll(ds, GetDictionary(ds, POSITION).value, searches.positions, Some(StampPosition)).Failure? ==>
                          Pull(ds, searches) ==
                            Failure(PullAll(ds, GetDictionary(ds, POSITION).value, searches.positions, Some(StampPosition)).error)))
  {
  }

  /** Each fetched department keeps its number and holds exactly the
      employees its own query returned, in order, each attached to it and
      stamped with the data source; the query used the employee
      dictionary's filter and-ed with the mapped attribute and the number. */
  lemma PulledDepartmentsHoldTheirQueries(ds: DataSource, searches: Searches, i: int)
    requires Pull(ds, searches).Success?
    ensures var deptDict := GetDictionary(ds, DEPARTMENT).value;
            var empDict := GetDictionary(ds, EMPLOYEE).value;
            var source := DepartmentNumberSource(empDict).value;
            var depts := PullAll(ds, deptDict, searches.departments, Some(StampDepartment)).value;
            var out := Pull(ds, searches).value.departments;
            0 <= i < |out| ==>
              var found := searches.employees(empDict.base, AndFilter(empDict.filter, Some(source), Some(depts[i].number)), empDict.attributeMaps);
              && found.Success?
              && out[i].number == depts[i].number
              && |out[i].employees| == |found.value|
              && forall k :: 0 <= k < |found.value| ==>
                   out[i].employees[k] == found.value[k].(dataSource := Some(ds.id), department := Some(depts[i].number))
  {
    var deptDict := GetDictionary(ds, DEPARTMENT).value;
    var empDict := GetDictionary(ds, EMPLOYEE).value;
    var source := DepartmentNumberSource(empDict).value;
    var depts := PullAll(ds, deptDict, searches.departments, Some(StampDepartment)).value;
    if 0 <= i < |Pull(ds, searches).value.departments| {
      assert Pull(ds, searches).value.departments[i] == AttachFetched(depts[i], QueryEmployees(ds, empDict, searches.employees, source, depts[i]).value);
    }
  }

  /** A missing department-number mapping is reported before any employee
      query: the outcome does not depend on the employee search at all. */
  lemma MissingMappingBeforeEmployeeQueries(ds: DataSource, searches: Searches, other: Search<Employee>)
    requires GetDictionary(ds, EMPLOYEE).Success? && DepartmentNumberSource(GetDictionary(ds, EMPLOYEE).value).Failure?
    ensures Pull(ds, searches) == Pull(ds, searches.(employees := other))
    ensures Pull(ds, searches).Failure?
    ensures GetDictionary(ds, DEPARTMENT).Success? && PullAll(ds, GetDictionary(ds, DEPARTMENT).value, searches.departments, Some(StampDepartment)).Success? ==>
              Pull(ds, searches) == Failure(MissingDepartmentNumberMapping)
  {
  }

  /** The organization of the cycle strategy, built from the departments' own lists. */
  function CycleOrganization(ds: DataSource, fetched: Fetched, ghost rank: map<string, nat>): Organization
    requires UniqueKeys(fetched.departments, DepartmentNumber) && UniqueKeys(fetched.positions, PositionNumber)
    requires AcyclicParents(fetched.departments, rank)
  {
    FromDepartments(ds, fetched.departments, fetched.positions, rank)
  }

  /** In the organization of the cycle strategy every department holds
      exactly the employees its query returned: the relation step appends
      none of them a second time. */
  lemma CycleDepartmentsKeepTheirEmployees(ds: DataSource, searches: Searches, rank: map<string, nat>, i: int)
    requires Pull(ds, searches).Success?
    requires var f := Pull(ds, searches).value;
             UniqueKeys(f.departments, DepartmentNumber) && UniqueKeys(f.positions, PositionNumber) && AcyclicParents(f.departments, rank)
    requires 0 <= i < |Pull(ds, searches).value.departments|
    ensures var f := Pull(ds, searches).value;
            var r := CycleOrganization(ds, f, rank).departments[i].employees;
            |r| == |f.departments[i].employees| && forall k :: 0 <= k < |r| ==> r[k].uid == f.departments[i].employees[k].uid
  {
    var f := Pull(ds, searches).value;
    PulledEmployeesAttached(ds, searches);
    AttachedNotAppendedAgain(ds, f.departments, f.positions, rank, i);
  }

  /** Every employee the cycle strategy fetches is already attached to a department. */
  lemma PulledEmployeesAttached(ds: DataSource, searches: Searches)
    requires Pull(ds, searches).Success?
    ensures var f := Pull(ds, searches).value;
            forall j, e :: 0 <= j < |f.departments| && e in f.departments[j].employees ==> e.department == Some(f.departments[j].number)
  {
    var f := Pull(ds, searches).value;
    var empDict := GetDictionary(ds, EMPLOYEE).value;
    var source := DepartmentNumberSource(empDict).value;
    var depts := PullAll(ds, GetDictionary(ds, DEPARTMENT).value, searches.departments, Some(StampDepartment)).value;
    forall j, e | 0 <= j < |f.departments| && e in f.departments[j].employees
      ensures e.department == Some(f.departments[j].number)
    {
      var k :| 0 <= k < |f.departments[j].employees| && f.departments[j].employees[k] == e;
      assert f.departments[j] == AttachFetched(depts[j], QueryEmployees(ds, empDict, searches.employees, source, depts[j]).value);
    }
  }
}

=== FILE: data_source.dfy ===
/** Operations of a data source: looking up the dictionary of an entity type,
    and the ordinal encoding JPA uses to store the two enumerations. */
module DataSources {
  import opened Wrappers
  import opened Domain

  /** `getDictionary`: the first dictionary, in list order, of the requested
      type; a configuration error naming the type when there is none. */
  function GetDictionary(ds: DataSource, kind: DictionaryType): (r: Result<Dictionary, Error>)
    ensures r.Success? <==> exists i :: 0 <= i < |ds.dictionaries| && ds.dictionaries[i].kind == kind
    ensures r.Success? ==> r.value.kind == kind
    ensures r.Success? ==> exists i :: 0 <= i < |ds.dictionaries| && ds.dictionaries[i] == r.value
                                && forall j :: 0 <= j < i ==> ds.dictionaries[j].kind != kind
    ensures r.Failure? ==> r.error == MissingDictionary(kind)
  {
    FirstOfKind(ds.dictionaries, kind)
  }

  function FirstOfKind(dicts: seq<Dictionary>, kind: DictionaryType): (r: Result<Dictionary, Error>)
    ensures r.Success? <==> exists i :: 0 <= i < |dicts| && dicts[i].kind == kind
    ensures r.Success? ==> r.value.kind == kind
    ensures r.Success? ==> exists i :: 0 <= i < |dicts| && dicts[i] == r.value
                                && forall j :: 0 <= j < i ==> dicts[j].kind != kind
    ensures r.Failure? ==> r.error == MissingDictionary(kind)
    decreases |dicts|
  {
    if |dicts| == 0 then Failure(MissingDictionary(kind))
    else if dicts[0].kind == kind then Success(dicts[0])
    else
      var r := FirstOfKind(dicts[1..], kind);
      assert forall i :: 1 <= i < |dicts| ==> dicts[i] == dicts[1..][i - 1];
      r
  }

  /** Ordinal JPA writes for `@Enumerated` without a type: declaration order. */
  function StrategyOrdinal(s: PullStrategy): nat {
    match s
    case SINGLE => 0
    case CYCLE => 1
  }

  function StrategyFromOrdinal(n: int): Option<PullStrategy> {
    if n == 0 then Some(SINGLE) else if n == 1 then Some(CYCLE) else None
  }

  /** The two strategies are exactly the ordinals 0 and 1, and decoding inverts encoding. */
  lemma StrategyOrdinalRoundTrip(s: PullStrategy, n: int)
    ensures StrategyFromOrdinal(StrategyOrdinal(s)) == Some(s)
    ensures StrategyFromOrdinal(n).Some? <==> n == 0 || n == 1
    ensures StrategyFromOrdinal(n).Some? ==> StrategyOrdinal(StrategyFromOrdinal(n).value) == n
  {
  }

  function TypeOrdinal(t: DictionaryType): nat {
    match t
    case DEPARTMENT => 0
    case EMPLOYEE => 1
    case POSITION => 2
  }

  function TypeFromOrdinal(n: int): Option<DictionaryType> {
    if n == 0 then Some(DEPARTMENT) else if n == 1 then Some(EMPLOYEE) else if n == 2 then Some(POSITION) else None
  }

  lemma TypeOrdinalRoundTrip(t: DictionaryType, n: int)
    ensures TypeFromOrdinal(TypeOrdinal(t)) == Some(t)
    ensures TypeFromOrdinal(n).Some? <==> 0 <= n <= 2
    ensures TypeFromOrdinal(n).Some? ==> TypeOrdinal(TypeFromOrdinal(n).value) == n
  {
  }
}

=== FILE: data_source_factory.dfy ===
/** Loading a data source by id and building its date-time pattern table.
    Unlike the operator's constructor, which lets a later map overwrite an
    earlier one, the factory collects into a map without a merge function
    and fails on a repeated source name. */
module DataSourceFactories {
  import opened Wrappers
  import opened Text
  import opened Domain
  import opened DataSources
  import opened LdapOperators

  /** No two pattern-bearing maps share a source name. */
  predicate DistinctSources(maps: seq<AttributeMap>) {
    forall i, j :: 0 <= i < j < |maps| && HasPattern(maps[i]) && HasPattern(maps[j]) ==> maps[i].sourceName != maps[j].sourceName
  }

  /** `Collectors.toMap` over the pattern-bearing maps, in stream order: the
      first source name met a second time aborts the collection. */
  function ToMap(maps: seq<AttributeMap>): (r: Result<PatternTable, Error>)
    ensures r.Success? <==> DistinctSources(maps)
    ensures r.Success? ==> r.value == Patterns(maps)
    ensures r.Failure? ==> exists j :: 0 <= j < |maps| && HasPattern(maps[j]) && r.error == DuplicateKey(maps[j].sourceName)
                                 && DistinctSources(maps[..j]) && !DistinctSources(maps[..j + 1])
    decreases |maps|
  {
    if |maps| == 0 then Success(map[])
    else
      var init := maps[..|maps| - 1];
      var m := maps[|maps| - 1];
      var rest := ToMap(init);
      DistinctSnoc(maps);
      if rest.Failure? then
        assert exists j :: 0 <= j < |maps| && HasPattern(maps[j]) && rest.error == DuplicateKey(maps[j].sourceName)
                                && DistinctSources(maps[..j]) && !DistinctSources(maps[..j + 1]) by {
          var j :| 0 <= j < |init| && HasPattern(init[j]) && rest.error == DuplicateKey(init[j].sourceName)
                   && DistinctSources(init[..j]) && !DistinctSources(init[..j + 1]);
          assert maps[j] == init[j] && maps[..j] == init[..j] && maps[..j + 1] == init[..j + 1];
        }
        Failure(rest.error)
      else if HasPattern(m) && m.sourceName in rest.value then
        assert maps[..|maps| - 1] == init && maps[..|maps|] == maps;
        Failure(DuplicateKey(m.sourceName))
      else
        Success(if HasPattern(m) then rest.value[m.sourceName := JavaSplit(m.pattern.value, ',')] else rest.value)
  }

  /** Extending the maps by one keeps the source names distinct exactly when
      the new map has no pattern or a source name not seen before. */
  lemma DistinctSnoc(maps: seq<AttributeMap>)
    requires |maps| > 0
    ensures var init := maps[..|maps| - 1];
            var m := maps[|maps| - 1];
            DistinctSources(maps) <==>
              DistinctSources(init) && !(HasPattern(m) && exists i :: 0 <= i < |init| && HasPattern(init[i]) && init[i].sourceName == m.sourceName)
  {
    var init := maps[..|maps| - 1];
    assert forall i :: 0 <= i < |init| ==> init[i] == maps[i];
  }

  /** A data source together with the pattern table the factory sets on it. */
  datatype Configured = Configured(dataSource: DataSource, formatters: PatternTable)

  /** `getDataSource`: the stored data source with the given id, with the
      pattern table of its employee dictionary. An unknown id, a missing
      employee dictionary and a repeated pattern-bearing source name are errors. */
  function GetDataSource(repository: map<int, DataSource>, id: int): (r: Result<Configured, Error>)
    ensures id !in repository ==> r == Failure(UnknownDataSource(id))
    ensures id in repository ==>
              (r.Success? <==> GetDictionary(repository[id], EMPLOYEE).Success?
                               && DistinctSources(GetDictionary(repository[id], EMPLOYEE).value.attributeMaps))
    ensures id in repository && GetDictionary(repository[id], EMPLOYEE).Failure? ==> r == Failure(MissingDictionary(EMPLOYEE))
    ensures r.Success? ==> r.value.dataSource == repository[id] && FormatterTable(repository[id]) == Success(r.value.formatters)
  {
    if id !in repository then Failure(UnknownDataSource(id))
    else
      var ds := repository[id];
      var dict :- GetDictionary(ds, EMPLOYEE);
      var table :- ToMap(dict.attributeMaps);
      Success(Configured(ds, table))
  }

  /** The factory and the operator disagree exactly on repeated source
      names: there the factory fails, naming the repeated source name,
      while the operator's constructor keeps the later patterns. */
  lemma FactoryRejectsWhatOperatorOverwrites(repository: map<int, DataSource>, id: int)
    requires id in repository && GetDictionary(repository[id], EMPLOYEE).Success?
    ensures FormatterTable(repository[id]).Success?
    ensures var maps := GetDictionary(repository[id], EMPLOYEE).value.attributeMaps;
            !DistinctSources(maps) <==> GetDataSource(repository, id).Failure?
    ensures var maps := GetDictionary(repository[id], EMPLOYEE).value.attributeMaps;
            GetDataSource(repository, id).Failure? ==>
              exists j :: 0 <= j < |maps| && HasPattern(maps[j]) && GetDataSource(repository, id).error == DuplicateKey(maps[j].sourceName)
  {
  }
}

=== FILE: database_storage.dfy ===
/** The relational back end: a department row and its employees' rows,
    written through two repositories. The department's employee list is a
    mutable field that the save takes out while the department row is
    written; that field is threaded through here as an `Option`, `None`
    standing for null. The older `DatabasePersistence` has the same code. */
module DatabaseStorages {
  import opened Wrappers
  import opened Domain
  import opened Stores

  /** A state after a save, with the department's employee-list field as the save left it. */
  datatype Saved = Saved(state: State, list: Option<seq<Employee>>, thrown: Option<Exn>)

  /** The two writes of a save: the department row, then, when the list
      taken from the department is not null, the employee rows. */
  function Write(env: Env, s: State, d: Department, list: Option<seq<Employee>>): (r: Step)
    ensures |s.trace| < |r.state.trace| <= |s.trace| + 2 && r.state.trace[..|s.trace|] == s.trace
    ensures r.state.trace[|s.trace|] == SaveRow(d)
    ensures |r.state.trace| == |s.trace| + 2 ==> list.Some? && r.state.trace[|s.trace| + 1] == SaveRows(list.value)
    ensures r.thrown.None? <==> env(SaveRow(d)).None? && list.Some? && env(SaveRows(list.value)).None?
    ensures r.thrown.Some? ==> IsRuntime(r.thrown.value)
    ensures env(SaveRow(d)).Some? ==> r.state.world == s.world && r.thrown == Some(Raised(false, SaveRow(d)))
    ensures r.thrown.None? ==>
              && r.state.world.departmentRows == s.world.departmentRows[d.id := d.(employees := [])]
              && r.state.world.employeeRows.Keys == s.world.employeeRows.Keys + IdsOf(list.value)
    ensures r.state.world.indices == s.world.indices && r.state.world.redis == s.world.redis
  {
    var a := Do(env, s, SaveRow(d));
    if a.thrown.Some? then a
    else if list.None? then Step(a.state, Some(NullReference))
    else Do(env, a.state, SaveRows(list.value))
  }

  /** `DatabaseStorage.save` as written: the field is set back only when
      both writes return, so a throwing save leaves it null. */
  function Save(env: Env, s: State, d: Department, list: Option<seq<Employee>>): (r: Saved)
    ensures r.thrown.None? ==> r.list == list
    ensures r.thrown.Some? ==> r.list.None?
    ensures Step(r.state, r.thrown) == Write(env, s, d, list)
  {
    var w := Write(env, s, d, list);
    Saved(w.state, if w.thrown.None? then list else None, w.thrown)
  }

  /** The save with the field set back whatever happens (`finally`). */
  function SaveRestoring(env: Env, s: State, d: Department, list: Option<seq<Employee>>): (r: Saved)
    ensures r.list == list
    ensures Step(r.state, r.thrown) == Write(env, s, d, list)
  {
    var w := Write(env, s, d, list);
    Saved(w.state, list, w.thrown)
  }

  /** `DatabaseStorage.remove`: the department row, then the rows of the
      employees in the department's current list; a null list reaches
      `deleteAll`, which rejects it. */
  function Remove(env: Env, s: State, d: Department, list: Option<seq<Employee>>): (r: Step)
    ensures |s.trace| < |r.state.trace| <= |s.trace| + 2 && r.state.trace[..|s.trace|] == s.trace
    ensures r.state.trace[|s.trace|] == DeleteRow(d)
    ensures r.thrown.None? <==> env(DeleteRow(d)).None? && list.Some? && env(DeleteRows(list.value)).None?
    ensures r.thrown.Some? ==> IsRuntime(r.thrown.value)
    ensures env(DeleteRow(d)).None? && list.None? ==> r.thrown == Some(NullReference)
    ensures r.thrown.None? ==>
              && r.state.world.departmentRows == s.world.departmentRows - {d.id}
              && r.state.world.employeeRows == s.world.employeeRows - IdsOf(list.value)
    ensures r.state.world.indices == s.world.indices && r.state.world.redis == s.world.redis
  {
    var a := Do(env, s, DeleteRow(d));
    if a.thrown.Some? then a
    else if list.None? then Step(a.state, Some(NullReference))
    else Do(env, a.state, DeleteRows(list.value))
  }

  /** A save followed by a remove of the same department and list leaves
      none of the keys the save wrote: the tables hold exactly the earlier
      keys minus the department's id and its employees' ids. */
  lemma SaveThenRemove(env: Env, s: State, d: Department, list: Option<seq<Employee>>)
    requires Save(env, s, d, list).thrown.None?
    requires Remove(env, Save(env, s, d, list).state, d, Save(env, s, d, list).list).thrown.None?
    ensures var w := Remove(env, Save(env, s, d, list).state, d, Save(env, s, d, list).list).state.world;
            && w.departmentRows.Keys == s.world.departmentRows.Keys - {d.id}
            && w.employeeRows.Keys == s.world.employeeRows.Keys - IdsOf(list.value)
  {
  }

  /** A failed save leaves the field null, so the remove that follows
      deletes the department row and then throws on the null list, without
      touching the employee rows. */
  lemma RemoveAfterFailedSave(env: Env, s: State, d: Department, list: Option<seq<Employee>>)
    requires Save(env, s, d, list).thrown.Some?
    requires env(DeleteRow(d)).None?
    ensures var saved := Save(env, s, d, list);
            var r := Remove(env, saved.state, d, saved.list);
            && r.thrown == Some(NullReference)
            && r.state.world.employeeRows == saved.state.world.employeeRows
            && d.id !in r.state.world.departmentRows
  {
  }
}

=== FILE: department.dfy ===
/** The department entity's own behaviour: equality by number, the parent
    chain walked by `getPath`, and the memoised `idPath`, `numberPath` and
    `namePath` fields. Parent links are the `parent` map of a `Tree`, keyed by
    department number, as the organization builds it. */
module Departments {
  import opened Wrappers
  import opened Text
  import opened Domain

  /** `equals`: two departments are equal when their numbers are. */
  predicate Equals(a: Department, b: Department) {
    a.number == b.number
  }

  /** `hashCode`: `Objects.hash(number)`, that is 31 + the string hash, in 32-bit arithmetic. */
  function HashCode(d: Department): int {
    Wrap32(31 + StringHash(d.number))
  }

  /** The `equals`/`hashCode` contract: equal departments hash alike whatever
      their other fields hold, and the hash is a signed 32-bit value. */
  lemma EqualityByNumber(a: Department, b: Department)
    ensures Equals(a, b) ==> HashCode(a) == HashCode(b)
    ensures -TWO_31 <= HashCode(a) < TWO_31
  {
  }

  /** The parent and children links of a department tree, by department number. */
  datatype Tree = Tree(parent: map<string, string>, children: map<string, seq<string>>)

  function ChildrenOf(t: Tree, k: string): seq<string> {
    if k in t.children then t.children[k] else []
  }

  /** Acyclicity witness: every parent link leads to a strictly smaller rank. */
  ghost predicate Ranked(t: Tree, rank: map<string, nat>) {
    forall c :: c in t.parent ==> c in rank && t.parent[c] in rank && rank[t.parent[c]] < rank[c]
  }

  /** Every linked department, child or parent, is in the index, filed under its own number. */
  ghost predicate Closed(t: Tree, idx: map<string, Department>) {
    && (forall k :: k in idx ==> idx[k].number == k)
    && (forall c :: c in t.parent ==> c in idx && t.parent[c] in idx)
  }

  /** `w[i]` has a parent link to `w[i + 1]` (leaf-to-root order). */
  predicate LinksUp(t: Tree, w: seq<string>, i: int)
    requires 0 <= i < |w| - 1
  {
    w[i] in t.parent && t.parent[w[i]] == w[i + 1]
  }

  /** `p[i]` is the parent of `p[i + 1]` (root-to-leaf order). */
  predicate LinksDown(t: Tree, p: seq<string>, i: int)
    requires 0 <= i < |p| - 1
  {
    p[i + 1] in t.parent && t.parent[p[i + 1]] == p[i]
  }

  /** The departments visited by the loop of `getPath`, from `k` up to a department without a parent. */
  function Walk(t: Tree, k: string, ghost rank: map<string, nat>): (w: seq<string>)
    requires Ranked(t, rank)
    ensures |w| > 0 && w[0] == k && w[|w| - 1] !in t.parent
    ensures forall i :: 0 <= i < |w| - 1 ==> LinksUp(t, w, i)
    decreases if k in rank then rank[k] + 1 else 0
  {
    if k in t.parent then
      var rest := Walk(t, t.parent[k], rank);
      var w := [k] + rest;
      forall i | 0 <= i < |w| - 1
        ensures LinksUp(t, w, i)
      {
        if i > 0 {
          assert LinksUp(t, rest, i - 1);
        }
      }
      w
    else [k]
  }

  function Reverse(s: seq<string>): (r: seq<string>)
    ensures |r| == |s| && forall i :: 0 <= i < |s| ==> r[i] == s[|s| - 1 - i]
    decreases |s|
  {
    if |s| == 0 then [] else Reverse(s[1..]) + [s[0]]
  }

  /** `getPath`: the chain from a root down to `k`, in root-to-leaf order. */
  function GetPath(t: Tree, k: string, ghost rank: map<string, nat>): (path: seq<string>)
    requires Ranked(t, rank)
    ensures |path| > 0 && path[|path| - 1] == k && path[0] !in t.parent
    ensures forall i :: 0 <= i < |path| - 1 ==> LinksDown(t, path, i)
    ensures k !in t.parent ==> path == [k]
  {
    var w := Walk(t, k, rank);
    var path := Reverse(w);
    forall i | 0 <= i < |path| - 1
      ensures LinksDown(t, path, i)
    {
      assert LinksUp(t, w, |w| - 2 - i);
    }
    path
  }

  /** A child's path is its parent's path followed by the child; so its length
      is one more than the number of its ancestors. */
  lemma PathOfChild(t: Tree, k: string, rank: map<string, nat>)
    requires Ranked(t, rank) && k in t.parent
    ensures GetPath(t, k, rank) == GetPath(t, t.parent[k], rank) + [k]
  {
    var w := Walk(t, k, rank);
    assert w[1..] == Walk(t, t.parent[k], rank);
    assert GetPath(t, k, rank) == Reverse(w) == Reverse(w[1..]) + [k];
  }

  /** `chain` runs from a parentless department down to `k`, each one the parent of the next. */
  ghost predicate IsRootChain(t: Tree, k: string, chain: seq<string>) {
    && |chain| > 0
    && chain[|chain| - 1] == k
    && chain[0] !in t.parent
    && forall i :: 0 <= i < |chain| - 1 ==> LinksDown(t, chain, i)
  }

  /** The path is the one and only root chain ending at `k`. */
  lemma {:induction false} PathIsTheRootChain(t: Tree, k: string, rank: map<string, nat>, chain: seq<string>)
    requires Ranked(t, rank)
    ensures IsRootChain(t, k, GetPath(t, k, rank))
    ensures IsRootChain(t, k, chain) ==> chain == GetPath(t, k, rank)
    decreases |chain|
  {
    if IsRootChain(t, k, chain) {
      if |chain| == 1 {
        assert chain == [k];
      } else {
        var init := chain[..|chain| - 1];
        assert LinksDown(t, chain, |chain| - 2);
        forall i | 0 <= i < |init| - 1
          ensures LinksDown(t, init, i)
        {
          assert LinksDown(t, chain, i);
        }
        assert IsRootChain(t, t.parent[k], init);
        PathIsTheRootChain(t, t.parent[k], rank, init);
        PathOfChild(t, k, rank);
        assert chain == init + [k];
      }
    }
  }

  /** Every department on the path of an indexed department is indexed. */
  lemma PathInIndex(t: Tree, idx: map<string, Department>, k: string, rank: map<string, nat>)
    requires Ranked(t, rank) && Closed(t, idx) && k in idx
    ensures forall i :: 0 <= i < |GetPath(t, k, rank)| ==> GetPath(t, k, rank)[i] in idx
  {
    var p := GetPath(t, k, rank);
    forall i | 0 <= i < |p|
      ensures p[i] in idx
    {
      if i < |p| - 1 {
        assert LinksDown(t, p, i);
      } else {
        assert p[i] == k;
      }
    }
  }

  /** Which of the three memoised path fields. */
  datatype PathKind = IdPath | NumberPath | NamePath

  /** The value a department contributes to a path of the given kind. */
  function Label(d: Department, kind: PathKind): string {
    match kind
    case IdPath => Display(d.id)
    case NumberPath => d.number
    case NamePath => Display(d.name)
  }

  /** The labels of the departments along a chain; every department on a
      path is indexed (`PathInIndex`), the empty label only pads the total
      definition. */
  function Labels(keys: seq<string>, idx: map<string, Department>, kind: PathKind): (ls: seq<string>)
    ensures |ls| == |keys| && forall i :: 0 <= i < |keys| && keys[i] in idx ==> ls[i] == Label(idx[keys[i]], kind)
    decreases |keys|
  {
    if |keys| == 0 then []
    else [if keys[0] in idx then Label(idx[keys[0]], kind) else ""] + Labels(keys[1..], idx, kind)
  }

  lemma {:induction false} LabelsAppend(a: seq<string>, b: seq<string>, idx: map<string, Department>, kind: PathKind)
    ensures Labels(a + b, idx, kind) == Labels(a, idx, kind) + Labels(b, idx, kind)
    decreases |a|
  {
    if |a| > 0 {
      assert (a + b)[0] == a[0] && (a + b)[1..] == a[1..] + b;
      LabelsAppend(a[1..], b, idx, kind);
    } else {
      assert a + b == b;
    }
  }

  /** The path string the getter computes when its field is still empty. */
  function ComputedPath(t: Tree, idx: map<string, Department>, k: string, kind: PathKind, ghost rank: map<string, nat>): string
    requires Ranked(t, rank)
  {
    Join(Labels(GetPath(t, k, rank), idx, kind), "_")
  }

  /** The labels of a chain extended by one department. */
  lemma LabelsSnoc(p: seq<string>, k: string, idx: map<string, Department>, kind: PathKind)
    requires k in idx
    ensures Labels(p + [k], idx, kind) == Labels(p, idx, kind) + [Label(idx[k], kind)]
  {
    LabelsAppend(p, [k], idx, kind);
  }

  /** A root's path string is its own label; a child's is its parent's path
      string, "_", and its own label. */
  lemma ComputedPathStep(t: Tree, idx: map<string, Department>, k: string, kind: PathKind, rank: map<string, nat>)
    requires Ranked(t, rank) && Closed(t, idx) && k in idx
    ensures k !in t.parent ==> ComputedPath(t, idx, k, kind, rank) == Label(idx[k], kind)
    ensures k in t.parent ==>
              ComputedPath(t, idx, k, kind, rank) == ComputedPath(t, idx, t.parent[k], kind, rank) + "_" + Label(idx[k], kind)
  {
    if k in t.parent {
      var pp := GetPath(t, t.parent[k], rank);
      PathOfChild(t, k, rank);
      LabelsSnoc(pp, k, idx, kind);
      JoinSnoc(Labels(pp, idx, kind), Label(idx[k], kind), "_");
    } else {
      assert GetPath(t, k, rank) == [k];
    }
  }

  /** The number path is the numbers of the root chain joined with "_". */
  lemma NumberPathIsJoinedChain(t: Tree, idx: map<string, Department>, k: string, rank: map<string, nat>)
    requires Ranked(t, rank) && Closed(t, idx) && k in idx
    ensures ComputedPath(t, idx, k, NumberPath, rank) == Join(GetPath(t, k, rank), "_")
  {
    PathInIndex(t, idx, k, rank);
    var p := GetPath(t, k, rank);
    assert Labels(p, idx, NumberPath) == p;
  }

  function Cached(d: Department, kind: PathKind): Option<string> {
    match kind
    case IdPath => d.idPath
    case NumberPath => d.numberPath
    case NamePath => d.namePath
  }

  function WithCached(d: Department, kind: PathKind, v: string): Department {
    match kind
    case IdPath => d.(idPath := Some(v))
    case NumberPath => d.(numberPath := Some(v))
    case NamePath => d.(namePath := Some(v))
  }

  /** `getIdPath` / `getNumberPath` / `getNamePath`: the stored value when it is
      non-empty, otherwise the path string computed from the current links,
      which is also stored. Returns the department afterwards and the value. */
  function GetPathField(t: Tree, idx: map<string, Department>, d: Department, kind: PathKind, ghost rank: map<string, nat>): (res: (Department, string))
    requires Ranked(t, rank) && Closed(t, idx) && d.number in idx
    ensures res.0.number == d.number && res.0.employees == d.employees
    ensures Cached(res.0, kind) == Some(res.1)
    ensures !IsBlank(Cached(d, kind)) ==> res == (d, Cached(d, kind).value)
    ensures IsBlank(Cached(d, kind)) ==> res.1 == ComputedPath(t, idx, d.number, kind, rank)
    ensures forall other :: other != kind ==> Cached(res.0, other) == Cached(d, other)
  {
    if IsBlank(Cached(d, kind)) then
      var v := ComputedPath(t, idx, d.number, kind, rank);
      (WithCached(d, kind, v), v)
    else
      (d, Cached(d, kind).value)
  }

  /** Memoisation: once a getter has produced a non-empty value, later calls
      return it and change nothing, whatever the tree looks like by then. */
  lemma MemoisedPathIsStable(t: Tree, idx: map<string, Department>, d: Department, kind: PathKind, rank: map<string, nat>,
                             t2: Tree, idx2: map<string, Department>, rank2: map<string, nat>)
    requires Ranked(t, rank) && Closed(t, idx) && d.number in idx
    requires Ranked(t2, rank2) && Closed(t2, idx2) && d.number in idx2
    requires GetPathField(t, idx, d, kind, rank).1 != ""
    ensures var first := GetPathField(t, idx, d, kind, rank);
            GetPathField(t2, idx2, first.0, kind, rank2) == first
  {
  }

  /** The value a path field holds once its getter has run: the stored
      value when it is non-empty, the computed path string otherwise. */
  function Filled(t: Tree, idx: map<string, Department>, d: Department, kind: PathKind, ghost rank: map<string, nat>): Option<string>
    requires Ranked(t, rank) && Closed(t, idx) && d.number in idx
  {
    if IsBlank(Cached(d, kind)) then Some(ComputedPath(t, idx, d.number, kind, rank)) else Cached(d, kind)
  }

  /** `setPath`: the three getters in turn, id, number, then name. Each
      getter only reads the tree and its own field, so the three fields are
      filled independently. */
  function SetPaths(t: Tree, idx: map<string, Department>, d: Department, ghost rank: map<string, nat>): (r: Department)
    requires Ranked(t, rank) && Closed(t, idx) && d.number in idx
    ensures r == d.(idPath := r.idPath, numberPath := r.numberPath, namePath := r.namePath)
  {
    d.(idPath := Filled(t, idx, d, IdPath, rank),
       numberPath := Filled(t, idx, d, NumberPath, rank),
       namePath := Filled(t, idx, d, NamePath, rank))
  }

  /** Per kind of path: a set field keeps its value, a blank one gets the computed path string. */
  lemma SetPathsFillsBlanks(t: Tree, idx: map<string, Department>, d: Department, kind: PathKind, rank: map<string, nat>)
    requires Ranked(t, rank) && Closed(t, idx) && d.number in idx
    ensures !IsBlank(Cached(d, kind)) ==> Cached(SetPaths(t, idx, d, rank), kind) == Cached(d, kind)
    ensures IsBlank(Cached(d, kind)) ==> Cached(SetPaths(t, idx, d, rank), kind) == Some(ComputedPath(t, idx, d.number, kind, rank))
  {
    match kind
    case IdPath =>
    case NumberPath =>
    case NamePath =>
  }

  /** Setting the paths keeps every preset field, and fills a blank number
      path with the numbers of the root chain joined with "_". */
  lemma SetPathsKeepsAndJoins(t: Tree, idx: map<string, Department>, d: Department, rank: map<string, nat>)
    requires Ranked(t, rank) && Closed(t, idx) && d.number in idx
    ensures var r := SetPaths(t, idx, d, rank);
            && (!IsBlank(d.idPath) ==> r.idPath == d.idPath)
            && (!IsBlank(d.numberPath) ==> r.numberPath == d.numberPath)
            && (!IsBlank(d.namePath) ==> r.namePath == d.namePath)
            && (IsBlank(d.numberPath) ==> r.numberPath == Some(Join(GetPath(t, d.number, rank), "_")))
  {
    NumberPathIsJoinedChain(t, idx, d.number, rank);
  }

  /** Setting the paths is running the three getters one after another. */
  lemma SetPathsRunsTheGetters(t: Tree, idx: map<string, Department>, d: Department, rank: map<string, nat>)
    requires Ranked(t, rank) && Closed(t, idx) && d.number in idx
    ensures var a := GetPathField(t, idx, d, IdPath, rank).0;
            var b := GetPathField(t, idx, a, NumberPath, rank).0;
            SetPaths(t, idx, d, rank) == GetPathField(t, idx, b, NamePath, rank).0
  {
  }
}

=== FILE: domain.dfy ===
/** The entities the synchronisation works on. A Java reference that may be
    null is an `Option`; a back-reference to another entity is that entity's
    natural key (departments and positions by `number`, employees by `uid`),
    which is also what the entities' `equals` compares. */
module Domain {
  import opened Wrappers

  /** `Dictionary.Type`. */
  datatype DictionaryType = DEPARTMENT | EMPLOYEE | POSITION

  /** `DataSource.PullStrategy`: fetch everything at once, or employees department by department. */
  datatype PullStrategy = SINGLE | CYCLE

  /** Correspondence of one directory attribute to one target field; `pattern`
      is a comma-separated list of date-time formats. */
  datatype AttributeMap = AttributeMap(sourceName: string, targetName: string, pattern: Option<string>)

  /** Where and how to query the directory for one entity type. */
  datatype Dictionary = Dictionary(kind: DictionaryType, base: string, filter: string, attributeMaps: seq<AttributeMap>)

  /** A configured directory source; connection settings are not modelled. */
  datatype DataSource = DataSource(id: int, name: string, pullStrategy: PullStrategy, dictionaries: seq<Dictionary>)

  /** An employee. `department` is the number of the department object it is
      attached to; `positions` holds one entry per position lookup, `None` for
      a lookup that found nothing; `dataSource` is the stamped source id. */
  datatype Employee = Employee(
    id: Option<string>,
    uid: string,
    name: Option<string>,
    departmentNumber: Option<string>,
    positionNumber: Option<string>,
    positionName: Option<string>,
    department: Option<string>,
    positions: seq<Option<string>>,
    dataSource: Option<int>)

  /** A department with its memoised path fields and its employee list. */
  datatype Department = Department(
    id: Option<string>,
    number: string,
    name: Option<string>,
    parentNumber: Option<string>,
    idPath: Option<string>,
    numberPath: Option<string>,
    namePath: Option<string>,
    employees: seq<Employee>,
    dataSource: Option<int>)

  /** A position; `employees` are the uids of the employees linked to it. */
  datatype Position = Position(id: Option<string>, number: string, name: Option<string>, employees: seq<string>, dataSource: Option<int>)

  /** Errors raised while configuring or fetching. */
  datatype Error =
    | MissingDictionary(kind: DictionaryType)
    | MissingDepartmentNumberMapping
    | UnparsableDate(value: string, pattern: string)
    | DirectoryFailure(reason: string)
    | UnknownDataSource(dataSourceId: int)
    | DuplicateKey(key: string)

  /** All departments' employee lists, concatenated in department order. */
  function Flatten(ds: seq<Department>): (es: seq<Employee>)
    ensures |ds| == 0 ==> es == []
    decreases |ds|
  {
    if |ds| == 0 then [] else Flatten(ds[..|ds| - 1]) + ds[|ds| - 1].employees
  }

  lemma {:induction false} FlattenMembership(ds: seq<Department>, e: Employee)
    ensures e in Flatten(ds) <==> exists i :: 0 <= i < |ds| && e in ds[i].employees
    decreases |ds|
  {
    if |ds| > 0 {
      var init := ds[..|ds| - 1];
      FlattenMembership(init, e);
      if e in Flatten(init) {
        var i :| 0 <= i < |init| && e in init[i].employees;
        assert ds[i] == init[i];
      }
      if exists i :: 0 <= i < |ds| && e in ds[i].employees {
        var i :| 0 <= i < |ds| && e in ds[i].employees;
        if i < |ds| - 1 {
          assert init[i] == ds[i];
        }
      }
    }
  }

  /** The concatenation holds no employee exactly when every department's list is empty. */
  lemma {:induction false} FlattenEmpty(ds: seq<Department>)
    ensures Flatten(ds) == [] <==> forall i :: 0 <= i < |ds| ==> ds[i].employees == []
    decreases |ds|
  {
    if |ds| > 0 {
      FlattenEmpty(ds[..|ds| - 1]);
      assert forall i :: 0 <= i < |ds| - 1 ==> ds[..|ds| - 1][i] == ds[i];
    }
  }
}

=== FILE: elasticsearch_persistence.dfy ===
/** The older Elasticsearch back end: the index names are computed on every
    call, a failed employee write deletes the department document again,
    and an `IOException` leaves wrapped in a `RuntimeException`. Only fields
    of type String, Integer or Long go into a document. */
module ElasticsearchPersistences {
  import opened Wrappers
  import opened Domain
  import opened Stores
  import ES = ElasticsearchStorages

  /** `catch (IOException e) { throw new RuntimeException(e); }`. */
  function WrapChecked(e: Exn): (r: Exn)
    ensures IsRuntime(r)
    ensures IsRuntime(e) ==> r == e
  {
    if e.Raised? && e.checked then Wrapped(e) else e
  }

  /** `saveEmployees`: no request for an empty list; otherwise one bulk
      request to the employee index of the first employee's data source. */
  function SaveEmployees(env: Env, s: State, list: Option<seq<Employee>>): (r: Step)
    ensures |s.trace| <= |r.state.trace| <= |s.trace| + 1 && r.state.trace[..|s.trace|] == s.trace
    ensures list == Some([]) ==> r == Step(s, None)
    ensures list.Some? && |list.value| > 0 && list.value[0].dataSource.Some? ==>
              Since(s, r.state) == [BulkUpsert(IndexName(EMP_PREFIX, list.value[0].dataSource.value), ES.Entries(list.value))]
    ensures r.state.world.departmentRows == s.world.departmentRows && r.state.world.employeeRows == s.world.employeeRows
    ensures r.state.world.redis == s.world.redis
  {
    if list.None? then Step(s, Some(NullReference))
    else if |list.value| == 0 then Step(s, None)
    else if list.value[0].dataSource.None? then Step(s, Some(NullReference))
    else DoBulk(env, s, BulkUpsert(IndexName(EMP_PREFIX, list.value[0].dataSource.value), ES.Entries(list.value)))
  }

  /** `save`: the department document, then the employees. A checked
      failure of the employee write deletes the department document and is
      rethrown, and both it and a checked failure of the department write
      leave wrapped; unchecked ones leave as they are. */
  function Save(env: Env, s: State, d: Department, list: Option<seq<Employee>>): (r: Step)
    ensures |s.trace| <= |r.state.trace| && r.state.trace[..|s.trace|] == s.trace
    ensures r.thrown.Some? ==> IsRuntime(r.thrown.value)
    ensures r.state.world.departmentRows == s.world.departmentRows && r.state.world.employeeRows == s.world.employeeRows
    ensures r.state.world.redis == s.world.redis
  {
    if d.dataSource.None? then Step(s, Some(NullReference))
    else
      var index := IndexName(DEPT_PREFIX, d.dataSource.value);
      var a := Do(env, s, Upsert(index, d.number, DeptDoc(d)));
      if a.thrown.Some? then Step(a.state, Some(WrapChecked(a.thrown.value)))
      else
        var b := SaveEmployees(env, a.state, list);
        if b.thrown.Some? && !IsRuntime(b.thrown.value) then
          var c := Do(env, b.state, Delete(index, d.number));
          if c.thrown.Some? then Step(c.state, Some(WrapChecked(c.thrown.value)))
          else Step(c.state, Some(Wrapped(b.thrown.value)))
        else b
  }

  /** The department document goes first, to the index of the department's
      own data source; when that write throws nothing else is attempted and
      a checked failure leaves wrapped, with no delete. */
  lemma DepartmentWrittenFirst(env: Env, s: State, d: Department, list: Option<seq<Employee>>, id: int)
    requires d.dataSource == Some(id)
    ensures var r := Save(env, s, d, list);
            && |r.state.trace| > |s.trace|
            && r.state.trace[|s.trace|] == Upsert(IndexName(DEPT_PREFIX, id), d.number, DeptDoc(d))
    ensures var c := Upsert(IndexName(DEPT_PREFIX, id), d.number, DeptDoc(d));
            var r := Save(env, s, d, list);
            env(c).Some? ==> && r.state == State(s.world, s.trace + [c])
                             && r.thrown == Some(WrapChecked(Raised(env(c).value, c)))
  {
  }

  /** A checked failure of the employee write is followed by the delete of
      the department document, and leaves wrapped; when the delete returns,
      the department document is gone from its index. */
  lemma EmployeeFailureDeletesDepartment(env: Env, s: State, d: Department, es: seq<Employee>, id: int, first: int)
    requires d.dataSource == Some(id) && |es| > 0 && es[0].dataSource == Some(first)
    requires env(Upsert(IndexName(DEPT_PREFIX, id), d.number, DeptDoc(d))).None?
    requires env(BulkUpsert(IndexName(EMP_PREFIX, first), ES.Entries(es))) == Some(true)
    ensures var r := Save(env, s, d, Some(es));
            var bulk := BulkUpsert(IndexName(EMP_PREFIX, first), ES.Entries(es));
            var del := Delete(IndexName(DEPT_PREFIX, id), d.number);
            && Since(s, r.state)[1..] == [bulk, del]
            && (env(del).None? ==> r.thrown == Some(Wrapped(Raised(true, bulk)))
                                   && (IndexName(DEPT_PREFIX, id) in r.state.world.indices ==>
                                         d.number !in r.state.world.indices[IndexName(DEPT_PREFIX, id)]))
  {
    var r := Save(env, s, d, Some(es));
    var a := Do(env, s, Upsert(IndexName(DEPT_PREFIX, id), d.number, DeptDoc(d)));
    var b := SaveEmployees(env, a.state, Some(es));
    assert Since(s, r.state) == Since(s, a.state) + Since(a.state, b.state) + Since(b.state, r.state);
  }

  /** A save of a non-empty list returns exactly when both writes do; it
      then made the department upsert and one bulk upsert into the employee
      index of the first employee's data source, and left the department
      document and every employee document in place. */
  lemma ReturningSaveWritesAll(env: Env, s: State, d: Department, es: seq<Employee>, id: int, first: int)
    requires d.dataSource == Some(id) && |es| > 0 && es[0].dataSource == Some(first)
    ensures var up := Upsert(IndexName(DEPT_PREFIX, id), d.number, DeptDoc(d));
            var bulk := BulkUpsert(IndexName(EMP_PREFIX, first), ES.Entries(es));
            Save(env, s, d, Some(es)).thrown.None? <==> env(up).None? && env(bulk).None?
    ensures var r := Save(env, s, d, Some(es));
            var deptIndex := IndexName(DEPT_PREFIX, id);
            var empIndex := IndexName(EMP_PREFIX, first);
            r.thrown.None? ==>
              && Since(s, r.state) == [Upsert(deptIndex, d.number, DeptDoc(d)), BulkUpsert(empIndex, ES.Entries(es))]
              && deptIndex in r.state.world.indices && d.number in r.state.world.indices[deptIndex]
              && empIndex in r.state.world.indices
              && forall i :: 0 <= i < |es| ==> es[i].uid in r.state.world.indices[empIndex]
  {
    var deptIndex := IndexName(DEPT_PREFIX, id);
    var empIndex := IndexName(EMP_PREFIX, first);
    var r := Save(env, s, d, Some(es));
    var a := Do(env, s, Upsert(deptIndex, d.number, DeptDoc(d)));
    if r.thrown.None? {
      var b := SaveEmployees(env, a.state, Some(es));
      assert r == b;
      IndexNameInjective(DEPT_PREFIX, EMP_PREFIX, id, first);
      assert Since(s, r.state) == Since(s, a.state) + Since(a.state, b.state);
    }
  }

  /** An empty employee list makes the save a single request. */
  lemma EmptyListSingleRequest(env: Env, s: State, d: Department, id: int)
    requires d.dataSource == Some(id)
    ensures var r := Save(env, s, d, Some([]));
            Since(s, r.state) == [Upsert(IndexName(DEPT_PREFIX, id), d.number, DeptDoc(d))]
            && (r.thrown.None? <==> env(Upsert(IndexName(DEPT_PREFIX, id), d.number, DeptDoc(d))).None?)
  {
  }

  /** The declared type of an entity field, as far as the document builder looks at it. */
  datatype FieldType = StringField | IntegerField | LongField | OtherField(typeName: string)

  /** `needful`: only String, Integer and Long fields are persisted. */
  predicate Needful(t: FieldType) {
    t == StringField || t == IntegerField || t == LongField
  }

  /** The names of the fields placed in a document, in declaration order. */
  function DocumentFields(fields: seq<(string, FieldType)>): (names: seq<string>)
    ensures |names| <= |fields|
    ensures forall n :: n in names <==> exists i :: 0 <= i < |fields| && fields[i].0 == n && Needful(fields[i].1)
    decreases |fields|
  {
    if |fields| == 0 then []
    else
      var init := fields[..|fields| - 1];
      var last := fields[|fields| - 1];
      assert forall i :: 0 <= i < |init| ==> init[i] == fields[i];
      DocumentFields(init) + (if Needful(last.1) then [last.0] else [])
  }

  /** Adding a field the builder does not persist leaves the document as it was. */
  lemma {:induction false} UnneededFieldIgnored(fields: seq<(string, FieldType)>, name: string, t: FieldType)
    requires !Needful(t)
    ensures DocumentFields(fields + [(name, t)]) == DocumentFields(fields)
  {
    assert (fields + [(name, t)])[..|fields|] == fields;
  }
}

=== FILE: elasticsearch_storage.dfy ===
/** The Elasticsearch back end of the storage pair: a department document
    keyed by number and one employee document per uid, upserted. The index
    names are remembered by the storage instance the first time they are
    asked for, whatever data source they were asked for. */
module ElasticsearchStorages {
  import opened Wrappers
  import opened Text
  import opened Domain
  import opened Stores

  /** The index names an instance has remembered, null until first asked for. */
  datatype Memo = Memo(deptIndex: Option<string>, empIndex: Option<string>)

  /** An index name, and the remembered name after asking for it. */
  datatype Named = Named(index: string, memo: Option<string>)

  /** `getDeptIndex` / `getEmpIndex`: the remembered name when there is one;
      otherwise the name for this data source, which is then remembered. The
      data source is dereferenced only when nothing is remembered. */
  function Memoised(memo: Option<string>, prefix: string, dataSource: Option<int>): (r: Result<Named, Exn>)
    ensures r.Success? ==> r.value.memo == Some(r.value.index)
    ensures r.Failure? ==> r.error == NullReference && memo.None? && dataSource.None?
  {
    match memo
    case Some(name) => Success(Named(name, memo))
    case None =>
      if dataSource.None? then Failure(NullReference)
      else Success(Named(IndexName(prefix, dataSource.value), Some(IndexName(prefix, dataSource.value))))
  }

  /** The first name asked for is the one every later request gets. */
  lemma {:induction false} MemoIsSticky(memo: Option<string>, prefix: string, first: Option<int>, later: Option<int>)
    requires Memoised(memo, prefix, first).Success?
    ensures var n := Memoised(memo, prefix, first).value;
            Memoised(n.memo, prefix, later) == Success(n)
    ensures memo.None? ==> Memoised(memo, prefix, first).value.index == IndexName(prefix, first.value)
  {
    var n := Memoised(memo, prefix, first).value;
    assert n.memo == Some(n.index);
  }

  /** A state after an Elasticsearch action, with the instance's memo. */
  datatype Indexed = Indexed(state: State, memo: Memo, thrown: Option<Exn>)

  /** One upsert per employee, keyed by uid, in list order. */
  function Entries(es: seq<Employee>): (r: seq<(string, Doc)>)
    ensures |r| == |es| && forall i :: 0 <= i < |es| ==> r[i] == (es[i].uid, EmpDoc(es[i]))
  {
    seq(|es|, i requires 0 <= i < |es| => (es[i].uid, EmpDoc(es[i])))
  }

  /** `saveEmployees`: nothing for an empty list; otherwise one bulk request
      sending every employee to the index of the first employee's data source. */
  function SaveEmployees(env: Env, s: State, memo: Memo, list: Option<seq<Employee>>): (r: Indexed)
    ensures |s.trace| <= |r.state.trace| && r.state.trace[..|s.trace|] == s.trace
    ensures list.None? ==> r == Indexed(s, memo, Some(NullReference))
    ensures list == Some([]) ==> r == Indexed(s, memo, None)
    ensures list.Some? && |list.value| > 0 && Memoised(memo.empIndex, EMP_PREFIX, list.value[0].dataSource).Success? ==>
              var n := Memoised(memo.empIndex, EMP_PREFIX, list.value[0].dataSource).value;
              && r.memo == memo.(empIndex := n.memo)
              && Since(s, r.state) == [BulkUpsert(n.index, Entries(list.value))]
              && (r.thrown.None? ==> n.index in r.state.world.indices
                                      && forall i :: 0 <= i < |list.value| ==> list.value[i].uid in r.state.world.indices[n.index])
  {
    if list.None? then Indexed(s, memo, Some(NullReference))
    else if |list.value| == 0 then Indexed(s, memo, None)
    else
      var en := Memoised(memo.empIndex, EMP_PREFIX, list.value[0].dataSource);
      if en.Failure? then Indexed(s, memo, Some(en.error))
      else
        var b := DoBulk(env, s, BulkUpsert(en.value.index, Entries(list.value)));
        Indexed(b.state, memo.(empIndex := en.value.memo), b.thrown)
  }

  /** `save`: the department document, then the employees; the employees
      are not attempted when the department write throws. */
  function Save(env: Env, s: State, memo: Memo, d: Department, list: Option<seq<Employee>>): (r: Indexed)
    ensures Memoised(memo.deptIndex, DEPT_PREFIX, d.dataSource).Failure? ==> r == Indexed(s, memo, Some(NullReference))
    ensures Memoised(memo.deptIndex, DEPT_PREFIX, d.dataSource).Success? ==>
              var n := Memoised(memo.deptIndex, DEPT_PREFIX, d.dataSource).value;
              && |r.state.trace| > |s.trace|
              && r.state.trace[|s.trace|] == Upsert(n.index, d.number, DeptDoc(d))
              && r.memo.deptIndex == n.memo
              && (r.thrown.None? ==> n.index in r.state.world.indices && d.number in r.state.world.indices[n.index])
    ensures |s.trace| <= |r.state.trace| && r.state.trace[..|s.trace|] == s.trace
    ensures r.state.world.departmentRows == s.world.departmentRows && r.state.world.employeeRows == s.world.employeeRows
  {
    var dn := Memoised(memo.deptIndex, DEPT_PREFIX, d.dataSource);
    if dn.Failure? then Indexed(s, memo, Some(dn.error))
    else
      var memo1 := memo.(deptIndex := dn.value.memo);
      var a := Do(env, s, Upsert(dn.value.index, d.number, DeptDoc(d)));
      if a.thrown.Some? then Indexed(a.state, memo1, a.thrown)
      else
        var b := SaveEmployees(env, a.state, memo1, list);
        SaveKeepsDepartmentDoc(env, a.state, memo1, list, dn.value.index, d.number);
        Indexed(b.state, b.memo, b.thrown)
  }

  /** A returning save of a non-empty list, whatever names the instance
      remembers, made exactly two requests, the department upsert and then
      the employee bulk upsert, and left every employee document in the
      remembered employee index. */
  lemma SaveWritesEmployees(env: Env, s: State, memo: Memo, d: Department, es: seq<Employee>)
    requires |es| > 0
    ensures var r := Save(env, s, memo, d, Some(es));
            r.thrown.None? ==>
              var dn := Memoised(memo.deptIndex, DEPT_PREFIX, d.dataSource);
              var en := Memoised(memo.empIndex, EMP_PREFIX, es[0].dataSource);
              && dn.Success? && en.Success?
              && Since(s, r.state) == [Upsert(dn.value.index, d.number, DeptDoc(d)), BulkUpsert(en.value.index, Entries(es))]
              && en.value.index in r.state.world.indices
              && forall i :: 0 <= i < |es| ==> es[i].uid in r.state.world.indices[en.value.index]
  {
  }

  /** Writing employee documents leaves a department document where it is. */
  lemma SaveKeepsDepartmentDoc(env: Env, s: State, memo: Memo, list: Option<seq<Employee>>, index: string, number: string)
    requires index in s.world.indices && number in s.world.indices[index]
    ensures var r := SaveEmployees(env, s, memo, list);
            && index in r.state.world.indices && number in r.state.world.indices[index]
            && r.state.world.departmentRows == s.world.departmentRows && r.state.world.employeeRows == s.world.employeeRows
  {
  }

  /** The delete targets of `remove`: one per employee, in the index named
      for the first employee's data source, since that name is remembered
      before the second employee asks for it. */
  datatype Targets = Targets(targets: seq<(string, string)>, memo: Option<string>)

  function DeleteTargets(memo: Option<string>, es: seq<Employee>): (r: Result<Targets, Exn>)
    ensures |es| == 0 ==> r == Success(Targets([], memo))
    ensures r.Success? ==> |r.value.targets| == |es| && forall i :: 0 <= i < |es| ==> r.value.targets[i].1 == es[i].uid
    ensures |es| > 0 && Memoised(memo, EMP_PREFIX, es[0].dataSource).Success? ==>
              var n := Memoised(memo, EMP_PREFIX, es[0].dataSource).value;
              r.Success? && r.value.memo == n.memo && forall i :: 0 <= i < |es| ==> r.value.targets[i].0 == n.index
    ensures r.Failure? ==> r.error == NullReference
  {
    if |es| == 0 then Success(Targets([], memo))
    else
      var n :- Memoised(memo, EMP_PREFIX, es[0].dataSource);
      Success(Targets(seq(|es|, i requires 0 <= i < |es| => (n.index, es[i].uid)), n.memo))
  }

  /** `remove`: the department document by number, then one bulk request
      deleting every employee document by uid. */
  function Remove(env: Env, s: State, memo: Memo, d: Department, list: Option<seq<Employee>>): (r: Indexed)
    ensures Memoised(memo.deptIndex, DEPT_PREFIX, d.dataSource).Success? ==>
              var n := Memoised(memo.deptIndex, DEPT_PREFIX, d.dataSource).value;
              && |r.state.trace| > |s.trace|
              && r.state.trace[|s.trace|] == Delete(n.index, d.number)
              && (r.thrown.None? ==> n.index in r.state.world.indices ==> d.number !in r.state.world.indices[n.index])
    ensures r.thrown.None? ==> list.Some?
    ensures r.thrown.None? && list.Some? && |list.value| > 0 ==>
              var n := Memoised(memo.empIndex, EMP_PREFIX, list.value[0].dataSource);
              && n.Success?
              && (n.value.index in r.state.world.indices ==>
                    forall i :: 0 <= i < |list.value| ==> list.value[i].uid !in r.state.world.indices[n.value.index])
    ensures |s.trace| <= |r.state.trace| && r.state.trace[..|s.trace|] == s.trace
    ensures r.state.world.departmentRows == s.world.departmentRows && r.state.world.employeeRows == s.world.employeeRows
  {
    var dn := Memoised(memo.deptIndex, DEPT_PREFIX, d.dataSource);
    if dn.Failure? then Indexed(s, memo, Some(dn.error))
    else
      var memo1 := memo.(deptIndex := dn.value.memo);
      var a := Do(env, s, Delete(dn.value.index, d.number));
      if a.thrown.Some? then Indexed(a.state, memo1, a.thrown)
      else if list.None? then Indexed(a.state, memo1, Some(NullReference))
      else
        var tn := DeleteTargets(memo1.empIndex, list.value);
        if tn.Failure? then Indexed(a.state, memo1, Some(tn.error))
        else
          var b := DoBulk(env, a.state, BulkDelete(tn.value.targets));
          Indexed(b.state, memo1.(empIndex := tn.value.memo), b.thrown)
  }

  /** The remove of a department without employees never returns: after
      the department delete it hands the client a bulk request with no
      items, which the client rejects. */
  lemma EmptyRemoveRejected(env: Env, s: State, memo: Memo, d: Department)
    ensures Remove(env, s, memo, d, Some([])).thrown.Some?
    ensures Memoised(memo.deptIndex, DEPT_PREFIX, d.dataSource).Success? ==>
              var del := Delete(Memoised(memo.deptIndex, DEPT_PREFIX, d.dataSource).value.index, d.number);
              var r := Remove(env, s, memo, d, Some([]));
              env(del).None? ==> && Since(s, r.state) == [del, BulkDelete([])]
                                 && r.thrown == Some(Raised(false, BulkDelete([])))
  {
  }

  /** A remove through the memo a save left behind finds what the save
      wrote: the department document and every employee document are gone
      from the indices they were written to. */
  lemma SaveThenRemove(env: Env, s: State, memo: Memo, d: Department, es: seq<Employee>)
    requires Save(env, s, memo, d, Some(es)).thrown.None?
    requires var saved := Save(env, s, memo, d, Some(es));
             Remove(env, saved.state, saved.memo, d, Some(es)).thrown.None?
    ensures var saved := Save(env, s, memo, d, Some(es));
            var w := Remove(env, saved.state, saved.memo, d, Some(es)).state.world;
            var n := Memoised(memo.deptIndex, DEPT_PREFIX, d.dataSource).value;
            n.index in w.indices ==> d.number !in w.indices[n.index]
    ensures var saved := Save(env, s, memo, d, Some(es));
            var w := Remove(env, saved.state, saved.memo, d, Some(es)).state.world;
            |es| > 0 ==>
              var n := Memoised(memo.empIndex, EMP_PREFIX, es[0].dataSource).value;
              n.index in w.indices ==> forall i :: 0 <= i < |es| ==> es[i].uid !in w.indices[n.index]
  {
    var saved := Save(env, s, memo, d, Some(es));
    var dn := Memoised(memo.deptIndex, DEPT_PREFIX, d.dataSource);
    assert dn.Success?;
    MemoIsSticky(memo.deptIndex, DEPT_PREFIX, d.dataSource, d.dataSource);
    assert saved.memo.deptIndex == dn.value.memo;
    if |es| > 0 {
      var en := Memoised(memo.empIndex, EMP_PREFIX, es[0].dataSource);
      assert en.Success?;
      MemoIsSticky(memo.empIndex, EMP_PREFIX, es[0].dataSource, es[0].dataSource);
      assert saved.memo.empIndex == en.value.memo;
    }
  }

  /** With the names remembered by the instance, a department of a second
      data source is written to the first data source's index: once a
      department of data source `a` has been saved, a department of data
      source `b` lands in `dept_a`, not in `dept_b`. */
  lemma IndexSharedAcrossDataSources(env: Env, s: State, d1: Department, l1: Option<seq<Employee>>,
                                     d2: Department, l2: Option<seq<Employee>>, a: int, b: int)
    requires d1.dataSource == Some(a) && d2.dataSource == Some(b) && a != b
    ensures var first := Save(env, s, Memo(None, None), d1, l1);
            var second := Save(env, first.state, first.memo, d2, l2);
            && second.state.trace[|first.state.trace|] == Upsert(IndexName(DEPT_PREFIX, a), d2.number, DeptDoc(d2))
            && IndexName(DEPT_PREFIX, a) != IndexName(DEPT_PREFIX, b)
  {
    var first := Save(env, s, Memo(None, None), d1, l1);
    assert first.memo.deptIndex == Some(IndexName(DEPT_PREFIX, a));
    IndexNameInjective(DEPT_PREFIX, DEPT_PREFIX, a, b);
  }

  /** The save with the index named for each call's own data source: the
      memo lives for one save only. */
  function SaveFresh(env: Env, s: State, d: Department, list: Option<seq<Employee>>): Step {
    var r := Save(env, s, Memo(None, None), d, list);
    Step(r.state, r.thrown)
  }

  /** The remove with the index named for each call's own data source. */
  function RemoveFresh(env: Env, s: State, d: Department, list: Option<seq<Employee>>): Step {
    var r := Remove(env, s, Memo(None, None), d, list);
    Step(r.state, r.thrown)
  }

  /** The remove with the index named per call that, like `saveEmployees`,
      sends no bulk request for an empty list. */
  function RemoveFreshSkippingEmpty(env: Env, s: State, d: Department, list: Option<seq<Employee>>): (r: Step)
    ensures |s.trace| <= |r.state.trace| && r.state.trace[..|s.trace|] == s.trace
    ensures forall k :: |s.trace| <= k < |r.state.trace| ==> !EmptyBulk(r.state.trace[k])
    ensures list.Some? && |list.value| > 0 ==> r == RemoveFresh(env, s, d, list)
    ensures list == Some([]) ==>
              (r.thrown.None? <==> d.dataSource.Some? && env(Delete(IndexName(DEPT_PREFIX, d.dataSource.value), d.number)).None?)
    ensures r.state.world.departmentRows == s.world.departmentRows && r.state.world.employeeRows == s.world.employeeRows
  {
    if list == Some([]) then
      if d.dataSource.None? then Step(s, Some(NullReference))
      else Do(env, s, Delete(IndexName(DEPT_PREFIX, d.dataSource.value), d.number))
    else
      var r := RemoveFresh(env, s, d, list);
      assert forall k :: |s.trace| <= k < |r.state.trace| ==> !EmptyBulk(r.state.trace[k]) by {
        var dn := Memoised(None, DEPT_PREFIX, d.dataSource);
        if dn.Success? && list.Some? {
          var a := Do(env, s, Delete(dn.value.index, d.number));
          var tn := DeleteTargets(None, list.value);
          if a.thrown.None? && tn.Success? {
            assert |tn.value.targets| == |list.value| > 0;
            assert r.state.trace == s.trace + [Delete(dn.value.index, d.number), BulkDelete(tn.value.targets)];
          }
        }
      }
      r
  }

  /** Named per call, every department document goes to the index of its
      own data source, and the employees to the index of the first
      employee's data source, whatever was saved before. */
  lemma FreshIndexFollowsDataSource(env: Env, s: State, d: Department, es: seq<Employee>, b: int)
    requires d.dataSource == Some(b)
    ensures var r := SaveFresh(env, s, d, Some(es));
            && r.state.trace[|s.trace|] == Upsert(IndexName(DEPT_PREFIX, b), d.number, DeptDoc(d))
            && (r.thrown.None? ==>
                  IndexName(DEPT_PREFIX, b) in r.state.world.indices && d.number in r.state.world.indices[IndexName(DEPT_PREFIX, b)])
    ensures var r := SaveFresh(env, s, d, Some(es));
            r.thrown.None? && |es| > 0 && es[0].dataSource.Some? ==>
              var i := IndexName(EMP_PREFIX, es[0].dataSource.value);
              i in r.state.world.indices && forall k :: 0 <= k < |es| ==> es[k].uid in r.state.world.indices[i]
  {
    var full := Save(env, s, Memo(None, None), d, Some(es));
    var dn := Memoised(None, DEPT_PREFIX, d.dataSource).value;
    assert dn.index == IndexName(DEPT_PREFIX, b);
    if full.thrown.None? && |es| > 0 && es[0].dataSource.Some? {
      var a := Do(env, s, Upsert(dn.index, d.number, DeptDoc(d)));
      assert full == SaveEmployees(env, a.state, Memo(Some(dn.index), None), Some(es));
    }
  }
}

=== FILE: ldap_operator.dfy ===
/** The directory operator of one data source: the table of date-time
    patterns built from the employee dictionary, the extraction of one
    attribute value with its ordered pattern fallback, and the mapping of
    search results onto target field names. Date parsing is a parameter
    (`LocalDateTime.parse` with a pattern), as is the directory itself. */
module LdapOperators {
  import opened Wrappers
  import opened Text
  import opened Domain
  import opened DataSources

  /** A parsed date-time. */
  datatype LocalDateTime = LocalDateTime(year: int, month: int, day: int, hour: int, minute: int, second: int, nano: int)

  /** Parsing `text` with `pattern`: `None` when the text does not match. */
  type Parser = (string, string) -> Option<LocalDateTime>

  /** An attribute value after extraction: the raw text, or the date-time it parsed to. */
  datatype Value = Plain(text: string) | Parsed(at: LocalDateTime)

  /** Source attribute name to its ordered patterns. */
  type PatternTable = map<string, seq<string>>

  /** Whether an attribute map carries a date pattern (Spring's `isEmpty` is false). */
  predicate HasPattern(m: AttributeMap) {
    !IsBlank(m.pattern)
  }

  /** The pattern-bearing map at `i` is the last one with its source name. */
  predicate LastWithSource(maps: seq<AttributeMap>, i: int)
    requires 0 <= i < |maps|
  {
    forall j :: i < j < |maps| && HasPattern(maps[j]) ==> maps[j].sourceName != maps[i].sourceName
  }

  /** The table the operator's constructor fills: one entry per source name
      among the pattern-bearing maps, holding the comma-separated patterns in
      order; a later map with the same source name replaces an earlier one. */
  function Patterns(maps: seq<AttributeMap>): (table: PatternTable)
    ensures forall k :: k in table <==> exists i :: 0 <= i < |maps| && HasPattern(maps[i]) && maps[i].sourceName == k
    ensures forall i :: 0 <= i < |maps| && HasPattern(maps[i]) && LastWithSource(maps, i) ==>
              table[maps[i].sourceName] == JavaSplit(maps[i].pattern.value, ',')
    decreases |maps|
  {
    if |maps| == 0 then map[]
    else
      var init := maps[..|maps| - 1];
      var m := maps[|maps| - 1];
      var t := Patterns(init);
      assert forall i :: 0 <= i < |init| ==> init[i] == maps[i];
      assert forall i :: 0 <= i < |init| && LastWithSource(maps, i) ==> LastWithSource(init, i);
      if HasPattern(m) then t[m.sourceName := JavaSplit(m.pattern.value, ',')] else t
  }

  /** The operator's constructor: the pattern table of the data source's
      employee dictionary, or the missing-dictionary error. */
  function FormatterTable(ds: DataSource): (r: Result<PatternTable, Error>)
    ensures r.Success? <==> GetDictionary(ds, EMPLOYEE).Success?
    ensures r.Failure? ==> r.error == MissingDictionary(EMPLOYEE)
    ensures r.Success? ==> r.value == Patterns(GetDictionary(ds, EMPLOYEE).value.attributeMaps)
  {
    var dict :- GetDictionary(ds, EMPLOYEE);
    Success(Patterns(dict.attributeMaps))
  }

  /** Reference definition of the fallback: the first pattern that parses
      the text, or the error for the last pattern when none does. */
  function ParseFirst(parse: Parser, text: string, patterns: seq<string>): Result<Value, Error>
    requires |patterns| > 0
    decreases |patterns|
  {
    match parse(text, patterns[0])
    case Some(t) => Success(Parsed(t))
    case None =>
      if |patterns| == 1 then Failure(UnparsableDate(text, patterns[0]))
      else ParseFirst(parse, text, patterns[1..])
  }

  /** Reference definition of `getValue`: absent attribute, unconverted text, or the fallback result. */
  function ValueOf(table: PatternTable, parse: Parser, entry: map<string, string>, sourceName: string): Result<Option<Value>, Error> {
    if sourceName !in entry then Success(None)
    else if sourceName !in table || |table[sourceName]| == 0 then Success(Some(Plain(entry[sourceName])))
    else
      var v :- ParseFirst(parse, entry[sourceName], table[sourceName]);
      Success(Some(v))
  }

  /** `getValue`: the patterns are tried in order and `tried` lists those
      tried. An absent attribute is not parsed at all; a source name without
      patterns yields its text; the first successful parse wins and no later
      pattern is tried; when all fail, the error names the last pattern. */
  method GetValue(table: PatternTable, parse: Parser, entry: map<string, string>, sourceName: string)
    returns (r: Result<Option<Value>, Error>, tried: seq<string>)
    ensures r == ValueOf(table, parse, entry, sourceName)
    ensures sourceName !in entry ==> r == Success(None) && tried == []
    ensures sourceName in entry && (sourceName !in table || |table[sourceName]| == 0) ==>
              r == Success(Some(Plain(entry[sourceName]))) && tried == []
    ensures sourceName in entry && sourceName in table ==>
              var v := entry[sourceName];
              var pats := table[sourceName];
              forall i :: 0 <= i < |pats| && parse(v, pats[i]).Some? && (forall j :: 0 <= j < i ==> parse(v, pats[j]).None?) ==>
                r == Success(Some(Parsed(parse(v, pats[i]).value))) && tried == pats[..i + 1]
    ensures sourceName in entry && sourceName in table ==>
              var v := entry[sourceName];
              var pats := table[sourceName];
              |pats| > 0 && (forall i :: 0 <= i < |pats| ==> parse(v, pats[i]).None?) ==>
                r == Failure(UnparsableDate(v, pats[|pats| - 1])) && tried == pats
  {
    tried := [];
    if sourceName !in entry {
      return Success(None), tried;
    }
    var v := entry[sourceName];
    if sourceName !in table || |table[sourceName]| == 0 {
      return Success(Some(Plain(v))), tried;
    }
    var pats := table[sourceName];
    var i := 0;
    while i < |pats|
      invariant 0 <= i < |pats|
      invariant tried == pats[..i]
      invariant forall j :: 0 <= j < i ==> parse(v, pats[j]).None?
      invariant ParseFirst(parse, v, pats) == ParseFirst(parse, v, pats[i..])
      decreases |pats| - i
    {
      tried := tried + [pats[i]];
      var p := parse(v, pats[i]);
      if p.Some? {
        return Success(Some(Parsed(p.value))), tried;
      }
      if i == |pats| - 1 {
        return Failure(UnparsableDate(v, pats[i])), tried;
      }
      assert pats[i..][1..] == pats[i + 1..];
      i := i + 1;
    }
    assert false;
  }

  /** The attribute names requested from the directory: the source names, in map order. */
  function Requested(maps: seq<AttributeMap>): (names: seq<string>)
    ensures |names| == |maps| && forall i :: 0 <= i < |maps| ==> names[i] == maps[i].sourceName
  {
    seq(|maps|, i requires 0 <= i < |maps| => maps[i].sourceName)
  }

  /** A fetched element before conversion: target field name to value. */
  type Record = map<string, Option<Value>>

  /** The map at `i` is the last one with its target name. */
  predicate LastWithTarget(maps: seq<AttributeMap>, i: int)
    requires 0 <= i < |maps|
  {
    forall j :: i < j < |maps| ==> maps[j].targetName != maps[i].targetName
  }

  /** `getValue` for one entry, as a function of the source name. */
  type Extract = string -> Result<Option<Value>, Error>

  function Extractor(table: PatternTable, parse: Parser, entry: map<string, string>): Extract {
    sourceName => ValueOf(table, parse, entry, sourceName)
  }

  /** What a record built from `maps` holds: a field for every target name
      and no other, and in each field the value extracted for the last map
      with that target name. */
  ghost predicate Describes(extract: Extract, maps: seq<AttributeMap>, rec: Record) {
    && FieldsCovered(maps, rec)
    && FieldsFromMaps(maps, rec)
    && LastValues(extract, maps, rec)
  }

  ghost predicate FieldsCovered(maps: seq<AttributeMap>, rec: Record) {
    forall i :: 0 <= i < |maps| ==> maps[i].targetName in rec
  }

  ghost predicate FieldsFromMaps(maps: seq<AttributeMap>, rec: Record) {
    forall t :: t in rec ==> exists i :: 0 <= i < |maps| && maps[i].targetName == t
  }

  ghost predicate LastValues(extract: Extract, maps: seq<AttributeMap>, rec: Record) {
    forall i :: 0 <= i < |maps| && LastWithTarget(maps, i) ==>
      maps[i].targetName in rec && extract(maps[i].sourceName) == Success(rec[maps[i].targetName])
  }

  /** Setting the field of one more map keeps the description. */
  lemma DescribesStep(extract: Extract, maps: seq<AttributeMap>, rec: Record, v: Option<Value>)
    requires |maps| > 0 && Describes(extract, maps[..|maps| - 1], rec)
    requires extract(maps[|maps| - 1].sourceName) == Success(v)
    ensures Describes(extract, maps, rec[maps[|maps| - 1].targetName := v])
  {
    CoveredStep(maps, rec, v);
    FromMapsStep(maps, rec, v);
    LastValuesStep(extract, maps, rec, v);
  }

  lemma CoveredStep(maps: seq<AttributeMap>, rec: Record, v: Option<Value>)
    requires |maps| > 0 && FieldsCovered(maps[..|maps| - 1], rec)
    ensures FieldsCovered(maps, rec[maps[|maps| - 1].targetName := v])
  {
    var init := maps[..|maps| - 1];
    forall i | 0 <= i < |maps|
      ensures maps[i].targetName in rec[maps[|maps| - 1].targetName := v]
    {
      if i < |init| {
        assert maps[i] == init[i];
      }
    }
  }

  lemma FromMapsStep(maps: seq<AttributeMap>, rec: Record, v: Option<Value>)
    requires |maps| > 0 && FieldsFromMaps(maps[..|maps| - 1], rec)
    ensures FieldsFromMaps(maps, rec[maps[|maps| - 1].targetName := v])
  {
    var init := maps[..|maps| - 1];
    var m := maps[|maps| - 1];
    var out := rec[m.targetName := v];
    forall t | t in out
      ensures exists i :: 0 <= i < |maps| && maps[i].targetName == t
    {
      if t != m.targetName {
        var i :| 0 <= i < |init| && init[i].targetName == t;
        assert maps[i] == init[i];
      }
    }
  }

  lemma LastValuesStep(extract: Extract, maps: seq<AttributeMap>, rec: Record, v: Option<Value>)
    requires |maps| > 0 && LastValues(extract, maps[..|maps| - 1], rec)
    requires extract(maps[|maps| - 1].sourceName) == Success(v)
    ensures LastValues(extract, maps, rec[maps[|maps| - 1].targetName := v])
  {
    var init := maps[..|maps| - 1];
    var m := maps[|maps| - 1];
    var out := rec[m.targetName := v];
    forall i | 0 <= i < |maps| && LastWithTarget(maps, i)
      ensures maps[i].targetName in out && extract(maps[i].sourceName) == Success(out[maps[i].targetName])
    {
      if i < |init| {
        assert maps[i] == init[i];
        assert LastWithTarget(init, i);
        assert maps[i].targetName != m.targetName;
      }
    }
  }

  /** The attributes mapper: every map sets its target field from the value
      of its source attribute, in map order, so a later map with the same
      target name wins; the first extraction error aborts the entry. */
  function MapEntry(extract: Extract, maps: seq<AttributeMap>): (r: Result<Record, Error>)
    ensures r.Success? <==> forall i :: 0 <= i < |maps| ==> extract(maps[i].sourceName).Success?
    decreases |maps|
  {
    if |maps| == 0 then Success(map[])
    else
      var init := maps[..|maps| - 1];
      var m := maps[|maps| - 1];
      var rec := MapEntry(extract, init);
      var v := extract(m.sourceName);
      assert forall i :: 0 <= i < |init| ==> maps[i] == init[i];
      if rec.Failure? then
        rec
      else if v.Failure? then
        Failure(v.error)
      else
        Success(rec.value[m.targetName := v.value])
  }

  /** A record the mapper returns holds exactly the target names, each with
      the value extracted for the last map naming it. */
  lemma {:induction false} MapEntryDescribes(extract: Extract, maps: seq<AttributeMap>)
    requires MapEntry(extract, maps).Success?
    ensures Describes(extract, maps, MapEntry(extract, maps).value)
    decreases |maps|
  {
    if |maps| > 0 {
      var init := maps[..|maps| - 1];
      var m := maps[|maps| - 1];
      MapEntryDescribes(extract, init);
      DescribesStep(extract, maps, MapEntry(extract, init).value, extract(m.sourceName).value);
    }
  }

  /** The directory: base, filter and requested attribute names to the entries found. */
  type Directory = (string, string, seq<string>) -> Result<seq<map<string, string>>, Error>

  /** Every entry mapped in order; the first entry whose mapping fails aborts the search. */
  function MapEntries(mapEntry: map<string, string> -> Result<Record, Error>, entries: seq<map<string, string>>): (r: Result<seq<Record>, Error>)
    ensures r.Success? <==> forall i :: 0 <= i < |entries| ==> mapEntry(entries[i]).Success?
    ensures r.Success? ==> |r.value| == |entries| && forall i :: 0 <= i < |entries| ==> mapEntry(entries[i]) == Success(r.value[i])
    ensures r.Failure? ==> exists i :: 0 <= i < |entries| && mapEntry(entries[i]) == Failure(r.error)
                                       && forall j :: 0 <= j < i ==> mapEntry(entries[j]).Success?
    decreases |entries|
  {
    if |entries| == 0 then Success([])
    else
      var first := mapEntry(entries[0]);
      var rest := MapEntries(mapEntry, entries[1..]);
      assert forall i :: 0 < i < |entries| ==> entries[1..][i - 1] == entries[i];
      if first.Failure? then
        Failure(first.error)
      else if rest.Failure? then
        assert exists i :: 0 <= i < |entries| && mapEntry(entries[i]) == Failure(rest.error)
                           && forall j :: 0 <= j < i ==> mapEntry(entries[j]).Success? by {
          var k :| 0 <= k < |entries| - 1 && mapEntry(entries[1..][k]) == Failure(rest.error)
                   && forall j :: 0 <= j < k ==> mapEntry(entries[1..][j]).Success?;
          assert forall j :: 0 < j < k + 1 ==> mapEntry(entries[j]).Success?;
        }
        rest
      else
        Success([first.value] + rest.value)
  }

  /** `search`: ask the directory for the source names of the maps, then map
      every entry found, in order. */
  function Search(table: PatternTable, parse: Parser, directory: Directory, base: string, filter: string, maps: seq<AttributeMap>): (r: Result<seq<Record>, Error>)
    ensures var found := directory(base, filter, Requested(maps));
            && (found.Failure? ==> r == Failure(found.error))
            && (found.Success? ==>
                  var es := found.value;
                  && (r.Success? <==> forall i :: 0 <= i < |es| ==> MapEntry(Extractor(table, parse, es[i]), maps).Success?)
                  && (r.Success? ==>
                        && |r.value| == |es|
                        && forall i :: 0 <= i < |es| ==> MapEntry(Extractor(table, parse, es[i]), maps) == Success(r.value[i])))
  {
    var entries :- directory(base, filter, Requested(maps));
    MapEntries(entry => MapEntry(Extractor(table, parse, entry), maps), entries)
  }

  /** The table is consulted by source name whatever the entity type: an
      attribute of any dictionary whose source name has employee patterns is
      parsed as a date-time, and one whose first pattern parses yields that
      date-time in its target field. */
  lemma ParsingAppliesToAnyEntity(table: PatternTable, parse: Parser, maps: seq<AttributeMap>, entry: map<string, string>, i: int)
    requires 0 <= i < |maps| && LastWithTarget(maps, i)
    requires maps[i].sourceName in entry && maps[i].sourceName in table && |table[maps[i].sourceName]| > 0
    requires parse(entry[maps[i].sourceName], table[maps[i].sourceName][0]).Some?
    requires MapEntry(Extractor(table, parse, entry), maps).Success?
    ensures maps[i].targetName in MapEntry(Extractor(table, parse, entry), maps).value
    ensures MapEntry(Extractor(table, parse, entry), maps).value[maps[i].targetName]
              == Some(Parsed(parse(entry[maps[i].sourceName], table[maps[i].sourceName][0]).value))
  {
    MapEntryDescribes(Extractor(table, parse, entry), maps);
  }
}

=== FILE: ldap_porter.dfy ===
/** The shared part of the two porters: composing the query filter and
    pulling one entity type from the directory, each element stamped with
    the porter's data source. The directory search itself is a parameter. */
module LdapPorters {
  import opened Wrappers
  import opened Text
  import opened Domain

  /** `andFilter`: when both the attribute name and the value are non-empty,
      the AND of the configured filter and the equality `name=value`; the
      configured filter unchanged otherwise. The value is not escaped. */
  function AndFilter(filter: string, name: Option<string>, value: Option<string>): string {
    if !IsBlank(name) && !IsBlank(value) then "(&" + filter + "(" + name.value + "=" + value.value + "))"
    else filter
  }

  /** The filter grammar of section 3 of RFC 4515, as far as it is used here:
      text taken as a complete filter, an equality match, and a conjunction. */
  datatype Filter =
    | Given(text: string)
    | EqualityMatch(attribute: string, assertionValue: string)
    | And(parts: seq<Filter>)

  /** The string form of a filter. */
  function Render(f: Filter): string
    decreases f
  {
    match f
    case Given(text) => text
    case EqualityMatch(a, v) => "(" + a + "=" + v + ")"
    case And(parts) => "(&" + RenderAll(parts) + ")"
  }

  function RenderAll(parts: seq<Filter>): string
    decreases parts
  {
    if |parts| == 0 then "" else Render(parts[0]) + RenderAll(parts[1..])
  }

  /** `andFilter` builds the conjunction of the configured filter and one
      equality match exactly when name and value are non-empty, and leaves
      the configured filter as it is otherwise. */
  lemma AndFilterIsConjunction(filter: string, name: Option<string>, value: Option<string>)
    ensures !IsBlank(name) && !IsBlank(value) ==>
              AndFilter(filter, name, value) == Render(And([Given(filter), EqualityMatch(name.value, value.value)]))
    ensures IsBlank(name) || IsBlank(value) ==> AndFilter(filter, name, value) == Render(Given(filter))
  {
    if !IsBlank(name) && !IsBlank(value) {
      var parts := [Given(filter), EqualityMatch(name.value, value.value)];
      assert parts[1..] == [EqualityMatch(name.value, value.value)];
      assert parts[1..][1..] == [];
      assert RenderAll(parts[1..][1..]) == "";
      assert RenderAll(parts[1..]) == "(" + name.value + "=" + value.value + ")" + "";
      assert RenderAll(parts) == filter + RenderAll(parts[1..]);
    }
  }

  /** The value is spliced in as it is: it appears whole, character for
      character, right after `name=`, whatever characters it holds. */
  lemma ValueSplicedVerbatim(filter: string, name: string, value: string)
    requires name != "" && value != ""
    ensures var r := AndFilter(filter, Some(name), Some(value));
            var start := 2 + |filter| + 1 + |name| + 1;
            && |r| == start + |value| + 2
            && r[start..start + |value|] == value
  {
    var r := AndFilter(filter, Some(name), Some(value));
    assert r == "(&" + filter + "(" + name + "=" + value + "))";
  }

  /** A value holding filter syntax changes the shape of the composed
      filter: with the value `x)(objectClass=*` the text carries an extra
      equality that no configured attribute produced. */
  lemma ValueNotEscaped()
    ensures AndFilter("(o=a)", Some("ou"), Some("x)(objectClass=*")) == "(&(o=a)(ou=x)(objectClass=*))"
  {
  }

  /** Stamps an element with the porter's data source, when the element type has the setter. */
  type Stamp<!T> = Option<(T, int) -> T>

  function Stamped<T>(stamp: Stamp<T>, x: T, dataSourceId: int): T {
    match stamp
    case None => x
    case Some(setter) => setter(x, dataSourceId)
  }

  /** The directory search: base, filter and attribute maps to the mapped
      elements, or a failure. */
  type Search<T> = (string, string, seq<AttributeMap>) -> Result<seq<T>, Error>

  /** `pullElements` with a name and value: the search with the composed
      filter, each result stamped with the data source, count and order kept.
      A missing setter leaves the elements as they are. */
  function PullElements<T>(ds: DataSource, dict: Dictionary, search: Search<T>, stamp: Stamp<T>,
                           name: Option<string>, value: Option<string>): (r: Result<seq<T>, Error>)
    ensures var found := search(dict.base, AndFilter(dict.filter, name, value), dict.attributeMaps);
            && (r.Success? <==> found.Success?)
            && (r.Failure? ==> r.error == found.error)
            && (r.Success? ==> |r.value| == |found.value|)
            && (r.Success? ==> forall i :: 0 <= i < |r.value| ==> r.value[i] == Stamped(stamp, found.value[i], ds.id))
            && (r.Success? && stamp.None? ==> r.value == found.value)
  {
    var found :- search(dict.base, AndFilter(dict.filter, name, value), dict.attributeMaps);
    Success(seq(|found|, i requires 0 <= i < |found| => Stamped(stamp, found[i], ds.id)))
  }

  /** The two-argument `pullElements`: no name and value. */
  function PullAll<T>(ds: DataSource, dict: Dictionary, search: Search<T>, stamp: Stamp<T>): Result<seq<T>, Error> {
    PullElements(ds, dict, search, stamp, None, None)
  }

  /** The two-argument `pullElements` queries with the configured filter unchanged. */
  lemma PullAllUsesConfiguredFilter<T>(ds: DataSource, dict: Dictionary, search: Search<T>, stamp: Stamp<T>)
    ensures var found := search(dict.base, dict.filter, dict.attributeMaps);
            && (PullAll(ds, dict, search, stamp).Success? <==> found.Success?)
            && (found.Success? ==> |PullAll(ds, dict, search, stamp).value| == |found.value|)
  {
  }

  /** The data-source setters of the three entity types. */
  function StampDepartment(d: Department, id: int): Department {
    d.(dataSource := Some(id))
  }

  function StampEmployee(e: Employee, id: int): Employee {
    e.(dataSource := Some(id))
  }

  function StampPosition(p: Position, id: int): Position {
    p.(dataSource := Some(id))
  }

  /** Pulling departments stamps every one of them with the data source id and changes nothing else. */
  lemma PulledDepartmentsStamped(ds: DataSource, dict: Dictionary, search: Search<Department>)
    ensures var r := PullAll(ds, dict, search, Some(StampDepartment));
            var found := search(dict.base, dict.filter, dict.attributeMaps);
            r.Success? ==> forall i :: 0 <= i < |r.value| ==>
              r.value[i].dataSource == Some(ds.id) && r.value[i].(dataSource := found.value[i].dataSource) == found.value[i]
  {
  }
}

=== FILE: organization.dfy ===
/** Assembly of one organization from freshly fetched departments, employees
    and positions: indexing by number, the department tree, the relations
    between employees, departments and positions, the memoised paths, and the
    cached emptiness that gates saving. The two worker threads and the
    parallel streams of the source are sequential folds here, in input order. */
module Organizations {
  import opened Wrappers
  import opened Text
  import opened Domain
  import opened Departments

  function DepartmentNumber(d: Department): string {
    d.number
  }

  function PositionNumber(p: Position): string {
    p.number
  }

  /** No two elements share a natural key. */
  ghost predicate UniqueKeys<T>(xs: seq<T>, key: T -> string) {
    forall i, j :: 0 <= i < j < |xs| ==> key(xs[i]) != key(xs[j])
  }

  /** `getDepartmentMap` / `getPositionMap`: natural key to element; a later
      element with the same key replaces an earlier one. */
  function IndexBy<T(==)>(xs: seq<T>, key: T -> string): (idx: map<string, T>)
    ensures forall k :: k in idx <==> exists i :: 0 <= i < |xs| && key(xs[i]) == k
    ensures forall k :: k in idx ==> key(idx[k]) == k
    ensures UniqueKeys(xs, key) ==> forall i :: 0 <= i < |xs| ==> idx[key(xs[i])] == xs[i]
    decreases |xs|
  {
    if |xs| == 0 then map[]
    else
      var init := xs[..|xs| - 1];
      var last := xs[|xs| - 1];
      var idx0 := IndexBy(init, key);
      assert forall i :: 0 <= i < |init| ==> init[i] == xs[i];
      idx0[key(last) := last]
  }

  /** The parent a department gets: its parent number, when that is non-null and indexed. */
  function ParentKey(idx: map<string, Department>, d: Department): Option<string> {
    if d.parentNumber.Some? && d.parentNumber.value in idx then d.parentNumber else None
  }

  function ParentOf(t: Tree, k: string): Option<string> {
    if k in t.parent then Some(t.parent[k]) else None
  }

  /** Reference definition of a department's children: the numbers of the
      departments whose parent resolves to `k`, in input order. */
  function ChildrenSpec(ds: seq<Department>, idx: map<string, Department>, k: string): seq<string>
    decreases |ds|
  {
    if |ds| == 0 then []
    else
      var last := ds[|ds| - 1];
      ChildrenSpec(ds[..|ds| - 1], idx, k) + (if ParentKey(idx, last) == Some(k) then [last.number] else [])
  }

  /** `buildDepartmentTree`: for every department whose parent number is in the
      index, link it to that parent and append it to the parent's children. */
  function BuildTree(ds: seq<Department>, idx: map<string, Department>): (t: Tree)
    ensures forall c :: c in t.parent ==> t.parent[c] in idx
    decreases |ds|
  {
    if |ds| == 0 then Tree(map[], map[])
    else
      var t0 := BuildTree(ds[..|ds| - 1], idx);
      var d := ds[|ds| - 1];
      match ParentKey(idx, d)
      case None => t0
      case Some(p) => Tree(t0.parent[d.number := p], t0.children[p := ChildrenOf(t0, p) + [d.number]])
  }

  /** Every parent link comes from an input department whose parent number
      resolves to the linked parent. */
  lemma {:induction false} BuildTreeLink(ds: seq<Department>, idx: map<string, Department>, c: string) returns (i: int)
    requires c in BuildTree(ds, idx).parent
    ensures 0 <= i < |ds| && ds[i].number == c && ParentKey(idx, ds[i]) == Some(BuildTree(ds, idx).parent[c])
    decreases |ds|
  {
    var init := ds[..|ds| - 1];
    var d := ds[|ds| - 1];
    var t0 := BuildTree(init, idx);
    if ParentKey(idx, d).Some? && c == d.number {
      i := |ds| - 1;
    } else {
      assert BuildTree(ds, idx).parent[c] == t0.parent[c];
      i := BuildTreeLink(init, idx, c);
      assert init[i] == ds[i];
    }
  }

  /** With unique numbers, each department's link is the parent its parent
      number resolves to, and there is none when that does not resolve. */
  lemma {:induction false} BuildTreeParents(ds: seq<Department>, idx: map<string, Department>)
    requires UniqueKeys(ds, DepartmentNumber)
    ensures forall i :: 0 <= i < |ds| ==> ParentOf(BuildTree(ds, idx), ds[i].number) == ParentKey(idx, ds[i])
    decreases |ds|
  {
    if |ds| > 0 {
      var init := ds[..|ds| - 1];
      var d := ds[|ds| - 1];
      var t0 := BuildTree(init, idx);
      var t := BuildTree(ds, idx);
      assert forall i :: 0 <= i < |init| ==> init[i] == ds[i];
      assert UniqueKeys(init, DepartmentNumber);
      BuildTreeParents(init, idx);
      forall i | 0 <= i < |ds|
        ensures ParentOf(t, ds[i].number) == ParentKey(idx, ds[i])
      {
        if i < |init| {
          assert DepartmentNumber(ds[i]) != DepartmentNumber(d);
          assert ParentOf(t0, init[i].number) == ParentKey(idx, init[i]);
          if ParentKey(idx, d).Some? {
            assert t.parent == t0.parent[d.number := ParentKey(idx, d).value];
          }
        } else if ParentKey(idx, d).None? {
          assert d.number !in t0.parent by {
            if d.number in t0.parent {
              var j := BuildTreeLink(init, idx, d.number);
              assert false;
            }
          }
        }
      }
    }
  }

  /** The children list of every department is the reference one. */
  lemma {:induction false} BuildTreeChildren(ds: seq<Department>, idx: map<string, Department>, k: string)
    ensures ChildrenOf(BuildTree(ds, idx), k) == ChildrenSpec(ds, idx, k)
    decreases |ds|
  {
    if |ds| > 0 {
      BuildTreeChildren(ds[..|ds| - 1], idx, k);
    }
  }

  /** Membership in the reference children list. */
  lemma {:induction false} ChildrenSpecMembers(ds: seq<Department>, idx: map<string, Department>, k: string, x: string)
    ensures x in ChildrenSpec(ds, idx, k) <==> exists i :: 0 <= i < |ds| && ds[i].number == x && ParentKey(idx, ds[i]) == Some(k)
    decreases |ds|
  {
    if |ds| > 0 {
      var init := ds[..|ds| - 1];
      ChildrenSpecMembers(init, idx, k, x);
      assert forall i :: 0 <= i < |init| ==> init[i] == ds[i];
      if exists i :: 0 <= i < |ds| && ds[i].number == x && ParentKey(idx, ds[i]) == Some(k) {
        var i :| 0 <= i < |ds| && ds[i].number == x && ParentKey(idx, ds[i]) == Some(k);
        if i < |init| {
          assert init[i].number == x && ParentKey(idx, init[i]) == Some(k);
        }
      }
    }
  }

  /** With unique numbers, no department appears twice among the children. */
  lemma {:induction false} ChildrenSpecDistinct(ds: seq<Department>, idx: map<string, Department>, k: string)
    requires UniqueKeys(ds, DepartmentNumber)
    ensures var cs := ChildrenSpec(ds, idx, k); forall a, b :: 0 <= a < b < |cs| ==> cs[a] != cs[b]
    decreases |ds|
  {
    if |ds| > 0 {
      var init := ds[..|ds| - 1];
      var last := ds[|ds| - 1];
      assert forall i :: 0 <= i < |init| ==> init[i] == ds[i];
      assert UniqueKeys(init, DepartmentNumber);
      ChildrenSpecDistinct(init, idx, k);
      if ParentKey(idx, last) == Some(k) {
        ChildrenSpecMembers(init, idx, k, last.number);
        assert last.number !in ChildrenSpec(init, idx, k) by {
          forall i | 0 <= i < |init|
            ensures init[i].number != last.number
          {
            assert DepartmentNumber(ds[i]) != DepartmentNumber(ds[|ds| - 1]);
          }
        }
        var cs0 := ChildrenSpec(init, idx, k);
        var cs := ChildrenSpec(ds, idx, k);
        assert cs == cs0 + [last.number];
        forall a, b | 0 <= a < b < |cs|
          ensures cs[a] != cs[b]
        {
          if b == |cs0| {
            assert cs[a] == cs0[a] && cs0[a] in cs0;
          } else {
            assert cs[a] == cs0[a] && cs[b] == cs0[b];
          }
        }
      } else {
        assert ChildrenSpec(ds, idx, k) == ChildrenSpec(init, idx, k);
      }
    }
  }

  /** Acyclicity witness for the input: each resolvable parent has a strictly smaller rank. */
  ghost predicate AcyclicParents(ds: seq<Department>, rank: map<string, nat>) {
    var idx := IndexBy(ds, DepartmentNumber);
    forall i :: 0 <= i < |ds| && ParentKey(idx, ds[i]).Some? ==>
      ds[i].number in rank && ParentKey(idx, ds[i]).value in rank && rank[ParentKey(idx, ds[i]).value] < rank[ds[i].number]
  }

  /** The links built from unique, acyclic input are ranked and stay inside the index. */
  lemma TreeWellFormed(ds: seq<Department>, rank: map<string, nat>)
    requires UniqueKeys(ds, DepartmentNumber) && AcyclicParents(ds, rank)
    ensures var idx := IndexBy(ds, DepartmentNumber);
            var t := BuildTree(ds, idx);
            Ranked(t, rank) && Closed(t, idx) && forall i :: 0 <= i < |ds| ==> ds[i].number in idx
  {
    var idx := IndexBy(ds, DepartmentNumber);
    var t := BuildTree(ds, idx);
    forall i | 0 <= i < |ds| ensures ds[i].number in idx {
      assert DepartmentNumber(ds[i]) == ds[i].number;
    }
    forall c | c in t.parent
      ensures c in rank && t.parent[c] in rank && rank[t.parent[c]] < rank[c]
      ensures c in idx && t.parent[c] in idx
    {
      var i := BuildTreeLink(ds, idx, c);
      assert DepartmentNumber(ds[i]) == c;
    }
  }

  /** Tree shape: a department whose parent number is non-null and indexed
      has exactly that parent and is among its children; any other department
      has no parent; and the children of a department are exactly the
      departments whose parent resolves to it, each once. */
  lemma TreeShape(ds: seq<Department>, i: int, k: string, x: string)
    requires UniqueKeys(ds, DepartmentNumber) && 0 <= i < |ds|
    ensures var idx := IndexBy(ds, DepartmentNumber);
            var t := BuildTree(ds, idx);
            && (ds[i].parentNumber.Some? && ds[i].parentNumber.value in idx ==>
                  ParentOf(t, ds[i].number) == ds[i].parentNumber && ds[i].number in ChildrenOf(t, ds[i].parentNumber.value))
            && (ds[i].parentNumber.None? || ds[i].parentNumber.value !in idx ==> ParentOf(t, ds[i].number).None?)
            && (x in ChildrenOf(t, k) <==> exists j :: 0 <= j < |ds| && ds[j].number == x && ds[j].parentNumber == Some(k) && k in idx)
            && (forall a, b :: 0 <= a < b < |ChildrenOf(t, k)| ==> ChildrenOf(t, k)[a] != ChildrenOf(t, k)[b])
  {
    var idx := IndexBy(ds, DepartmentNumber);
    var t := BuildTree(ds, idx);
    BuildTreeParents(ds, idx);
    BuildTreeChildren(ds, idx, k);
    ChildrenSpecMembers(ds, idx, k, x);
    ChildrenSpecDistinct(ds, idx, k);
    if ds[i].parentNumber.Some? && ds[i].parentNumber.value in idx {
      BuildTreeChildren(ds, idx, ds[i].parentNumber.value);
      ChildrenSpecMembers(ds, idx, ds[i].parentNumber.value, ds[i].number);
    }
  }

  /** The filter of `calcRelation`: the department number is non-null and indexed. */
  predicate Passes(idx: map<string, Department>, e: Employee) {
    e.departmentNumber.Some? && e.departmentNumber.value in idx
  }

  /** The employees the filter keeps, in input order. */
  function Kept(idx: map<string, Department>, emps: seq<Employee>): (r: seq<Employee>)
    ensures forall e :: e in r <==> e in emps && Passes(idx, e)
    ensures |r| <= |emps|
    decreases |emps|
  {
    if |emps| == 0 then []
    else
      var last := emps[|emps| - 1];
      Kept(idx, emps[..|emps| - 1]) + (if Passes(idx, last) then [last] else [])
  }

  /** The filter keeps input order and repetition: filtering a
      concatenation gives the filtered parts, concatenated. */
  lemma {:induction false} KeptAppend(idx: map<string, Department>, a: seq<Employee>, b: seq<Employee>)
    ensures Kept(idx, a + b) == Kept(idx, a) + Kept(idx, b)
    decreases |b|
  {
    if |b| == 0 {
      assert a + b == a;
    } else {
      var init := b[..|b| - 1];
      assert (a + b)[..|a + b| - 1] == a + init;
      assert (a + b)[|a + b| - 1] == b[|b| - 1];
      KeptAppend(idx, a, init);
    }
  }

  /** A single employee is kept exactly when it passes the filter. */
  lemma KeptSingle(idx: map<string, Department>, e: Employee)
    ensures Kept(idx, [e]) == if Passes(idx, e) then [e] else []
  {
    assert [e][..0] == [];
  }

  /** Position linking for a non-null position number: one entry appended to
      `positions` whether or not the lookup succeeds (the source appends the
      null result too), `positionName` copied from the match or cleared. */
  function LinkPosition(pidx: map<string, Position>, e: Employee): (r: Employee)
    ensures r.uid == e.uid && r.department == e.department && r.departmentNumber == e.departmentNumber
    ensures e.positionNumber.None? ==> r == e
    ensures e.positionNumber.Some? ==>
              var pn := e.positionNumber.value;
              && r.positions == e.positions + [if pn in pidx then Some(pn) else None]
              && r.positionName == (if pn in pidx then pidx[pn].name else None)
              && r == e.(positions := r.positions, positionName := r.positionName)
  {
    match e.positionNumber
    case None => e
    case Some(pn) =>
      if pn in pidx then e.(positions := e.positions + [Some(pn)], positionName := pidx[pn].name)
      else e.(positions := e.positions + [None], positionName := None)
  }

  /** What `calcRelation` does to one kept employee: attach it to its
      department unless it already is attached, then link its position. */
  function Resolve(pidx: map<string, Position>, e: Employee): (r: Employee)
    ensures r.uid == e.uid && r.departmentNumber == e.departmentNumber
    ensures r.department == (if e.department.None? then e.departmentNumber else e.department)
  {
    LinkPosition(pidx, if e.department.None? then e.(department := e.departmentNumber) else e)
  }

  function ResolveAll(pidx: map<string, Position>, es: seq<Employee>): (r: seq<Employee>)
    ensures |r| == |es| && forall i :: 0 <= i < |es| ==> r[i] == Resolve(pidx, es[i])
  {
    seq(|es|, i requires 0 <= i < |es| => Resolve(pidx, es[i]))
  }

  /** Employees newly attached to department `k`: kept, not yet attached, with department number `k`. */
  function Newcomers(kept: seq<Employee>, k: string): (r: seq<Employee>)
    ensures forall e :: e in r <==> e in kept && e.department.None? && e.departmentNumber == Some(k)
    decreases |kept|
  {
    if |kept| == 0 then []
    else
      var last := kept[|kept| - 1];
      Newcomers(kept[..|kept| - 1], k) + (if last.department.None? && last.departmentNumber == Some(k) then [last] else [])
  }

  /** A resolved newcomer of department `k` is attached to `k` and is among
      the resolved kept employees. */
  lemma NewcomersResolved(pidx: map<string, Position>, kept: seq<Employee>, k: string)
    ensures forall x :: x in ResolveAll(pidx, Newcomers(kept, k)) ==> x.department == Some(k) && x in ResolveAll(pidx, kept)
  {
    var arrivals := Newcomers(kept, k);
    var rs := ResolveAll(pidx, arrivals);
    forall x | x in rs
      ensures x.department == Some(k) && x in ResolveAll(pidx, kept)
    {
      var j :| 0 <= j < |rs| && rs[j] == x;
      assert arrivals[j] in arrivals;
      var m :| 0 <= m < |kept| && kept[m] == arrivals[j];
      assert ResolveAll(pidx, kept)[m] == x;
    }
  }

  /** Every kept, unattached employee carrying number `k` arrives in department `k`. */
  lemma NewcomerIncluded(pidx: map<string, Position>, kept: seq<Employee>, k: string, e: Employee)
    requires e in kept && e.department.None? && e.departmentNumber == Some(k)
    ensures Resolve(pidx, e) in ResolveAll(pidx, Newcomers(kept, k))
  {
    var arrivals := Newcomers(kept, k);
    var j :| 0 <= j < |arrivals| && arrivals[j] == e;
    assert ResolveAll(pidx, arrivals)[j] == Resolve(pidx, e);
  }

  /** The department's list afterwards: its own employees stay, in place, and
      those that are also kept employees are the same objects the relation
      step updates; the newcomers follow. */
  function DepartmentEmployees(pidx: map<string, Position>, kept: seq<Employee>, d: Department): (r: seq<Employee>)
    ensures |r| == |d.employees| + |Newcomers(kept, d.number)|
    ensures forall i :: 0 <= i < |d.employees| ==> r[i].uid == d.employees[i].uid
    ensures forall i :: 0 <= i < |d.employees| ==> r[i] == (if d.employees[i] in kept then Resolve(pidx, d.employees[i]) else d.employees[i])
    ensures r[|d.employees|..] == ResolveAll(pidx, Newcomers(kept, d.number))
  {
    var own := seq(|d.employees|, i requires 0 <= i < |d.employees| =>
      if d.employees[i] in kept then Resolve(pidx, d.employees[i]) else d.employees[i]);
    own + ResolveAll(pidx, Newcomers(kept, d.number))
  }

  /** Uids of the kept employees whose position number is `k`, in order. */
  function PositionMembers(kept: seq<Employee>, k: string): (r: seq<string>)
    ensures forall u :: u in r <==> exists e :: e in kept && e.uid == u && e.positionNumber == Some(k)
    decreases |kept|
  {
    if |kept| == 0 then []
    else
      var last := kept[|kept| - 1];
      var r0 := PositionMembers(kept[..|kept| - 1], k);
      assert forall e :: e in kept[..|kept| - 1] ==> e in kept;
      assert forall e :: e in kept ==> e in kept[..|kept| - 1] || e == last;
      r0 + (if last.positionNumber == Some(k) then [last.uid] else [])
  }

  /** The organization: its data source, departments, resolved employees,
      positions, the department tree, and the cached emptiness (`None` until
      first asked). */
  datatype Organization = Organization(
    dataSource: DataSource,
    departments: seq<Department>,
    employees: seq<Employee>,
    positions: seq<Position>,
    tree: Tree,
    empty: Option<bool>)

  /** `calcRelation`, seen from the departments: each one's employee list
      becomes its final list. */
  function LinkAll(pidx: map<string, Position>, kept: seq<Employee>, ds: seq<Department>): (r: seq<Department>)
    ensures |r| == |ds|
    ensures forall i :: 0 <= i < |ds| ==> r[i] == ds[i].(employees := DepartmentEmployees(pidx, kept, ds[i]))
  {
    seq(|ds|, i requires 0 <= i < |ds| => ds[i].(employees := DepartmentEmployees(pidx, kept, ds[i])))
  }

  /** `setPath`: each department's three paths set from the finished tree,
      in list order. Only the path fields change. */
  function SetAllPaths(tree: Tree, idx: map<string, Department>, ds: seq<Department>, ghost rank: map<string, nat>): (r: seq<Department>)
    requires Ranked(tree, rank) && Closed(tree, idx) && forall i :: 0 <= i < |ds| ==> ds[i].number in idx
    ensures |r| == |ds|
    ensures forall i :: 0 <= i < |ds| ==>
              && r[i].number == ds[i].number && r[i].employees == ds[i].employees
              && r[i].parentNumber == ds[i].parentNumber && r[i].id == ds[i].id && r[i].name == ds[i].name
    decreases |ds|
  {
    if |ds| == 0 then []
    else [SetPaths(tree, idx, ds[0], rank)] + SetAllPaths(tree, idx, ds[1..], rank)
  }

  /** The department at each position is the one `setPath` made of the input there. */
  lemma {:induction false} SetAllPathsAt(tree: Tree, idx: map<string, Department>, ds: seq<Department>, rank: map<string, nat>, i: int)
    requires Ranked(tree, rank) && Closed(tree, idx) && forall j :: 0 <= j < |ds| ==> ds[j].number in idx
    requires 0 <= i < |ds|
    ensures SetAllPaths(tree, idx, ds, rank)[i] == SetPaths(tree, idx, ds[i], rank)
    decreases |ds|
  {
    if i > 0 {
      SetAllPathsAt(tree, idx, ds[1..], rank, i - 1);
    }
  }

  /** A position after assembly: the kept employees with its number appended to its employee list. */
  function LinkedPosition(kept: seq<Employee>, p: Position): Position {
    p.(employees := p.employees + PositionMembers(kept, p.number))
  }

  /** The position half of the constructor: each position with its kept members appended. */
  function LinkPositions(kept: seq<Employee>, positions: seq<Position>): (r: seq<Position>)
    ensures |r| == |positions| && forall j :: 0 <= j < |positions| ==> r[j] == LinkedPosition(kept, positions[j])
  {
    seq(|positions|, j requires 0 <= j < |positions| => LinkedPosition(kept, positions[j]))
  }

  /** The department half of the constructor: employees linked, then paths set. */
  function LinkDepartments(tree: Tree, idx: map<string, Department>, pidx: map<string, Position>, kept: seq<Employee>,
                           depts: seq<Department>, ghost rank: map<string, nat>): (r: seq<Department>)
    requires Ranked(tree, rank) && Closed(tree, idx) && forall i :: 0 <= i < |depts| ==> depts[i].number in idx
    ensures |r| == |depts|
    ensures forall i :: 0 <= i < |depts| ==>
              && r[i].number == depts[i].number && r[i].parentNumber == depts[i].parentNumber
              && r[i].id == depts[i].id && r[i].name == depts[i].name
              && r[i].employees == DepartmentEmployees(pidx, kept, depts[i])
  {
    SetAllPaths(tree, idx, LinkAll(pidx, kept, depts), rank)
  }

  /** The five-argument constructor: index, build the tree, resolve relations,
      then compute the paths from the finished tree. */
  function Assemble(source: DataSource, depts: seq<Department>, emps: seq<Employee>, positions: seq<Position>,
                    ghost rank: map<string, nat>): (org: Organization)
    requires UniqueKeys(depts, DepartmentNumber) && UniqueKeys(positions, PositionNumber)
    requires AcyclicParents(depts, rank)
    ensures org.dataSource == source && org.empty.None?
    ensures |org.departments| == |depts| && |org.positions| == |positions|
    ensures org.tree == BuildTree(depts, IndexBy(depts, DepartmentNumber))
    ensures org.employees == ResolveAll(IndexBy(positions, PositionNumber), Kept(IndexBy(depts, DepartmentNumber), emps))
    ensures forall i :: 0 <= i < |depts| ==>
              && org.departments[i].number == depts[i].number
              && org.departments[i].parentNumber == depts[i].parentNumber
              && org.departments[i].id == depts[i].id && org.departments[i].name == depts[i].name
              && org.departments[i].employees ==
                   DepartmentEmployees(IndexBy(positions, PositionNumber), Kept(IndexBy(depts, DepartmentNumber), emps), depts[i])
    ensures forall j :: 0 <= j < |positions| ==>
              org.positions[j] == LinkedPosition(Kept(IndexBy(depts, DepartmentNumber), emps), positions[j])
  {
    var idx := IndexBy(depts, DepartmentNumber);
    var pidx := IndexBy(positions, PositionNumber);
    var tree := BuildTree(depts, idx);
    TreeWellFormed(depts, rank);
    var kept := Kept(idx, emps);
    var departments := LinkDepartments(tree, idx, pidx, kept, depts, rank);
    Organization(source, departments, ResolveAll(pidx, kept), LinkPositions(kept, positions), tree, None)
  }

  /** Employee filtering: an input employee is among the resolved employees
      exactly when its department number is non-null and indexed; every
      resolved employee comes from the input and is attached to a department;
      and the resolved list is the kept list resolved entry by entry, so it
      keeps the input order and repetition (`KeptAppend`). */
  lemma EmployeesFiltered(source: DataSource, depts: seq<Department>, emps: seq<Employee>, positions: seq<Position>, rank: map<string, nat>)
    requires UniqueKeys(depts, DepartmentNumber) && UniqueKeys(positions, PositionNumber)
    requires AcyclicParents(depts, rank)
    ensures var org := Assemble(source, depts, emps, positions, rank);
            var idx := IndexBy(depts, DepartmentNumber);
            var pidx := IndexBy(positions, PositionNumber);
            && (forall e :: e in emps ==> (Resolve(pidx, e) in org.employees <==> Passes(idx, e)))
            && (forall r :: r in org.employees ==> exists e :: e in emps && Passes(idx, e) && r == Resolve(pidx, e))
            && (forall r :: r in org.employees ==> r.department.Some?)
            && |org.employees| == |Kept(idx, emps)|
            && (forall i :: 0 <= i < |org.employees| ==> org.employees[i] == Resolve(pidx, Kept(idx, emps)[i]))
  {
    var idx := IndexBy(depts, DepartmentNumber);
    var pidx := IndexBy(positions, PositionNumber);
    var kept := Kept(idx, emps);
    var resolved := ResolveAll(pidx, kept);
    assert Assemble(source, depts, emps, positions, rank).employees == resolved;
    forall e | e in emps
      ensures Resolve(pidx, e) in resolved <==> Passes(idx, e)
    {
      if Passes(idx, e) {
        ResolvedMember(pidx, kept, e);
      }
      if Resolve(pidx, e) in resolved {
        var e' := ResolvedOrigin(pidx, kept, Resolve(pidx, e));
      }
    }
    forall r | r in resolved
      ensures exists e :: e in emps && Passes(idx, e) && r == Resolve(pidx, e)
      ensures r.department.Some?
    {
      var e := ResolvedOrigin(pidx, kept, r);
    }
  }

  lemma ResolvedMember(pidx: map<string, Position>, es: seq<Employee>, e: Employee)
    requires e in es
    ensures Resolve(pidx, e) in ResolveAll(pidx, es)
  {
    var i :| 0 <= i < |es| && es[i] == e;
    assert ResolveAll(pidx, es)[i] == Resolve(pidx, e);
  }

  lemma ResolvedOrigin(pidx: map<string, Position>, es: seq<Employee>, r: Employee) returns (e: Employee)
    requires r in ResolveAll(pidx, es)
    ensures e in es && r == Resolve(pidx, e)
  {
    var i :| 0 <= i < |es| && ResolveAll(pidx, es)[i] == r;
    e := es[i];
  }

  /** Where each employee of an assembled department comes from: its own
      employees stay, in place and by uid, and after them come exactly the
      resolved kept employees that were not yet attached and carry its
      number, each now attached to it and also among the resolved employees. */
  lemma DepartmentMembership(source: DataSource, depts: seq<Department>, emps: seq<Employee>, positions: seq<Position>,
                             rank: map<string, nat>, i: int)
    requires UniqueKeys(depts, DepartmentNumber) && UniqueKeys(positions, PositionNumber)
    requires AcyclicParents(depts, rank) && 0 <= i < |depts|
    ensures var org := Assemble(source, depts, emps, positions, rank);
            var own := depts[i].employees;
            var r := org.departments[i].employees;
            && |own| <= |r|
            && (forall k :: 0 <= k < |own| ==> r[k].uid == own[k].uid)
            && (forall x :: x in r[|own|..] ==> x.department == Some(depts[i].number) && x in org.employees)
            && (forall e :: e in emps && e.department.None? && e.departmentNumber == Some(depts[i].number) ==>
                  Resolve(IndexBy(positions, PositionNumber), e) in r[|own|..])
  {
    var org := Assemble(source, depts, emps, positions, rank);
    var idx := IndexBy(depts, DepartmentNumber);
    var pidx := IndexBy(positions, PositionNumber);
    var kept := Kept(idx, emps);
    var own := depts[i].employees;
    var r := org.departments[i].employees;
    var k := depts[i].number;
    assert r[|own|..] == ResolveAll(pidx, Newcomers(kept, k));
    NewcomersResolved(pidx, kept, k);
    TreeWellFormed(depts, rank);
    forall e | e in emps && e.department.None? && e.departmentNumber == Some(k)
      ensures Resolve(pidx, e) in r[|own|..]
    {
      NewcomerIncluded(pidx, kept, k, e);
    }
  }


  /** The department at position `i` after assembly is the one `setPath`
      made of the input department with its final employee list; the tree
      it was computed on is ranked and closed. */
  lemma AssembledDepartment(source: DataSource, depts: seq<Department>, emps: seq<Employee>, positions: seq<Position>,
                            rank: map<string, nat>, i: int)
    requires UniqueKeys(depts, DepartmentNumber) && UniqueKeys(positions, PositionNumber)
    requires AcyclicParents(depts, rank) && 0 <= i < |depts|
    ensures var idx := IndexBy(depts, DepartmentNumber);
            var t := BuildTree(depts, idx);
            var linked := LinkAll(IndexBy(positions, PositionNumber), Kept(idx, emps), depts);
            && Ranked(t, rank) && Closed(t, idx) && linked[i].number in idx
            && Assemble(source, depts, emps, positions, rank).tree == t
            && Assemble(source, depts, emps, positions, rank).departments[i] == SetPaths(t, idx, linked[i], rank)
  {
    var idx := IndexBy(depts, DepartmentNumber);
    var t := BuildTree(depts, idx);
    var pidx := IndexBy(positions, PositionNumber);
    var kept := Kept(idx, emps);
    var linked := LinkAll(pidx, kept, depts);
    TreeWellFormed(depts, rank);
    assert Assemble(source, depts, emps, positions, rank).departments == LinkDepartments(t, idx, pidx, kept, depts, rank);
    assert LinkDepartments(t, idx, pidx, kept, depts, rank) == SetAllPaths(t, idx, linked, rank);
    SetAllPathsAt(t, idx, linked, rank, i);
  }

  /** Paths after assembly: a preset non-empty path is kept; an empty one
      becomes the path string computed from the finished tree, and the
      number path is the numbers of the root chain joined with "_". */
  lemma AssembledPaths(source: DataSource, depts: seq<Department>, emps: seq<Employee>, positions: seq<Position>,
                       rank: map<string, nat>, i: int)
    requires UniqueKeys(depts, DepartmentNumber) && UniqueKeys(positions, PositionNumber)
    requires AcyclicParents(depts, rank) && 0 <= i < |depts|
    ensures var org := Assemble(source, depts, emps, positions, rank);
            && Ranked(org.tree, rank)
            && (!IsBlank(depts[i].idPath) ==> org.departments[i].idPath == depts[i].idPath)
            && (!IsBlank(depts[i].numberPath) ==> org.departments[i].numberPath == depts[i].numberPath)
            && (!IsBlank(depts[i].namePath) ==> org.departments[i].namePath == depts[i].namePath)
            && (IsBlank(depts[i].numberPath) ==>
                  org.departments[i].numberPath == Some(Join(GetPath(org.tree, depts[i].number, rank), "_")))
  {
    AssembledDepartment(source, depts, emps, positions, rank, i);
    var idx := IndexBy(depts, DepartmentNumber);
    var d := LinkAll(IndexBy(positions, PositionNumber), Kept(idx, emps), depts)[i];
    assert d == depts[i].(employees := d.employees);
    SetPathsKeepsAndJoins(BuildTree(depts, idx), idx, d, rank);
  }


  /** Position linking, seen from the employee: a kept employee whose
      position number names a fetched position gets that position's name
      and one more entry, the position's number, in its list. */
  lemma EmployeePosition(positions: seq<Position>, e: Employee, j: int)
    requires UniqueKeys(positions, PositionNumber) && 0 <= j < |positions|
    requires e.positionNumber == Some(positions[j].number)
    ensures var r := Resolve(IndexBy(positions, PositionNumber), e);
            r.positionName == positions[j].name && r.positions == e.positions + [Some(positions[j].number)]
  {
    assert PositionNumber(positions[j]) == positions[j].number;
  }

  /** Position linking, seen from the position: a uid is in its list
      afterwards exactly when it was before or it is the uid of a kept
      employee with that position number. */
  lemma PositionMembership(source: DataSource, depts: seq<Department>, emps: seq<Employee>, positions: seq<Position>,
                           rank: map<string, nat>, j: int, u: string)
    requires UniqueKeys(depts, DepartmentNumber) && UniqueKeys(positions, PositionNumber)
    requires AcyclicParents(depts, rank) && 0 <= j < |positions|
    ensures var org := Assemble(source, depts, emps, positions, rank);
            var idx := IndexBy(depts, DepartmentNumber);
            u in org.positions[j].employees <==>
              u in positions[j].employees ||
              exists e :: e in emps && Passes(idx, e) && e.uid == u && e.positionNumber == Some(positions[j].number)
  {
  }

  /** `isEmpty`: computed from the departments the first time and cached;
      true exactly when no department has an employee. */
  function IsEmpty(org: Organization): (res: (Organization, bool))
    ensures org.empty.Some? ==> res == (org, org.empty.value)
    ensures org.empty.None? ==>
              && res.1 == (forall i :: 0 <= i < |org.departments| ==> org.departments[i].employees == [])
              && res.0 == org.(empty := Some(res.1))
  {
    match org.empty
    case Some(b) => (org, b)
    case None =>
      FlattenEmpty(org.departments);
      var b := Flatten(org.departments) == [];
      (org.(empty := Some(b)), b)
  }

  /** Asking twice gives the same answer and changes nothing more. */
  lemma IsEmptyCached(org: Organization)
    ensures IsEmpty(IsEmpty(org).0) == IsEmpty(org)
  {
  }

  /** The four-argument constructor: the employees to resolve are the
      departments' own lists concatenated in department order. */
  function FromDepartments(source: DataSource, depts: seq<Department>, positions: seq<Position>,
                           ghost rank: map<string, nat>): Organization
    requires UniqueKeys(depts, DepartmentNumber) && UniqueKeys(positions, PositionNumber)
    requires AcyclicParents(depts, rank)
  {
    Assemble(source, depts, Flatten(depts), positions, rank)
  }

  /** With every fetched employee already attached (the cycle strategy),
      no employee is appended a second time: each department keeps exactly
      its own list, by uid and in order. */
  lemma AttachedNotAppendedAgain(source: DataSource, depts: seq<Department>, positions: seq<Position>,
                                 rank: map<string, nat>, i: int)
    requires UniqueKeys(depts, DepartmentNumber) && UniqueKeys(positions, PositionNumber)
    requires AcyclicParents(depts, rank) && 0 <= i < |depts|
    requires forall j, e :: 0 <= j < |depts| && e in depts[j].employees ==> e.department.Some?
    ensures var r := FromDepartments(source, depts, positions, rank).departments[i].employees;
            |r| == |depts[i].employees| && forall k :: 0 <= k < |r| ==> r[k].uid == depts[i].employees[k].uid
  {
    var idx := IndexBy(depts, DepartmentNumber);
    var kept := Kept(idx, Flatten(depts));
    var arrivals := Newcomers(kept, depts[i].number);
    if |arrivals| > 0 {
      assert arrivals[0] in kept;
      FlattenMembership(depts, arrivals[0]);
      assert false;
    }
  }

  /** The tree of the worked instance: department "2" under root department "1". */
  lemma ScenarioTree(d1: Department, d2: Department)
    requires d1.number == "1" && d1.parentNumber.None?
    requires d2.number == "2" && d2.parentNumber == Some("1")
    ensures UniqueKeys([d1, d2], DepartmentNumber) && AcyclicParents([d1, d2], map["1" := 0, "2" := 1])
    ensures var idx := IndexBy([d1, d2], DepartmentNumber);
            var t := BuildTree([d1, d2], idx);
            && idx == map[d1.number := d1, d2.number := d2]
            && Ranked(t, map["1" := 0, "2" := 1]) && Closed(t, idx)
            && t.parent == map[d2.number := d1.number]
  {
    var depts := [d1, d2];
    var rank: map<string, nat> := map["1" := 0, "2" := 1];
    var idx := IndexBy(depts, DepartmentNumber);
    assert depts[..1] == [d1];
    assert IndexBy([d1], DepartmentNumber) == map["1" := d1];
    assert UniqueKeys(depts, DepartmentNumber);
    assert AcyclicParents(depts, rank);
    assert BuildTree([d1], idx) == BuildTree([], idx);
    TreeWellFormed(depts, rank);
  }

  /** A worked instance: department "2" under root department "1". Once
      assembled, whatever else they hold, department "2" has number path "1_2". */
  lemma ScenarioPath(source: DataSource, d1: Department, d2: Department, emps: seq<Employee>, positions: seq<Position>)
    requires d1.number == "1" && d1.parentNumber.None?
    requires d2.number == "2" && d2.parentNumber == Some("1") && IsBlank(d2.numberPath)
    requires UniqueKeys(positions, PositionNumber)
    ensures && UniqueKeys([d1, d2], DepartmentNumber) && AcyclicParents([d1, d2], map["1" := 0, "2" := 1])
            && Assemble(source, [d1, d2], emps, positions, map["1" := 0, "2" := 1]).departments[1].numberPath == Some("1_2")
  {
    var depts := [d1, d2];
    var rank: map<string, nat> := map["1" := 0, "2" := 1];
    ScenarioTree(d1, d2);
    AssembledPaths(source, depts, emps, positions, rank, 1);
    ScenarioChain(BuildTree(depts, IndexBy(depts, DepartmentNumber)), rank);
  }

  /** In a tree where "2" hangs under the root "1", the path of "2" is
      ["1", "2"] and its number path "1_2". */
  lemma ScenarioChain(t: Tree, rank: map<string, nat>)
    requires Ranked(t, rank) && t.parent == map["2" := "1"]
    ensures GetPath(t, "2", rank) == ["1", "2"] && Join(GetPath(t, "2", rank), "_") == "1_2"
  {
    PathOfChild(t, "2", rank);
    assert GetPath(t, "1", rank) == ["1"];
    assert |"1" + "_" + "2"| == 3;
    assert Join(["1", "2"], "_") == "1" + "_" + Join(["2"], "_");
  }


  /** The same instance with employee "e1" of department "2" holding
      position "p1" named "Engineer": after assembly "e1" is attached to
      department "2", carries the name "Engineer", and is the one uid added
      to the position. */
  lemma ScenarioRelations(source: DataSource, d1: Department, d2: Department, e1: Employee, p1: Position)
    requires d1.number == "1" && d1.parentNumber.None?
    requires d2.number == "2" && d2.parentNumber == Some("1")
    requires e1.uid == "e1" && e1.department.None? && e1.departmentNumber == Some("2") && e1.positionNumber == Some("p1")
    requires p1.number == "p1" && p1.name == Some("Engineer")
    ensures && UniqueKeys([d1, d2], DepartmentNumber) && AcyclicParents([d1, d2], map["1" := 0, "2" := 1])
            && UniqueKeys([p1], PositionNumber)
            && var org := Assemble(source, [d1, d2], [e1], [p1], map["1" := 0, "2" := 1]);
               && |org.employees| == 1
               && org.employees[0].department == Some("2")
               && org.employees[0].positionName == Some("Engineer")
               && org.positions[0].employees == p1.employees + ["e1"]
  {
    ScenarioTree(d1, d2);
    var depts := [d1, d2];
    var idx := IndexBy(depts, DepartmentNumber);
    assert Kept(idx, [e1]) == [e1] by {
      assert [e1][..0] == [];
    }
    assert PositionMembers([e1], "p1") == ["e1"] by {
      assert [e1][..0] == [];
    }
    assert UniqueKeys([p1], PositionNumber);
    EmployeePosition([p1], e1, 0);
  }

  /** After assembly, an empty path field holds the string computed from the finished tree. */
  lemma BlankPathComputed(source: DataSource, depts: seq<Department>, emps: seq<Employee>, positions: seq<Position>,
                          rank: map<string, nat>, i: int, kind: PathKind)
    requires UniqueKeys(depts, DepartmentNumber) && UniqueKeys(positions, PositionNumber)
    requires AcyclicParents(depts, rank) && 0 <= i < |depts| && IsBlank(Cached(depts[i], kind))
    ensures var idx := IndexBy(depts, DepartmentNumber);
            var t := BuildTree(depts, idx);
            && Ranked(t, rank) && Closed(t, idx) && depts[i].number in idx
            && Cached(Assemble(source, depts, emps, positions, rank).departments[i], kind) == Some(ComputedPath(t, idx, depts[i].number, kind, rank))
  {
    AssembledDepartment(source, depts, emps, positions, rank, i);
    var idx := IndexBy(depts, DepartmentNumber);
    var d := LinkAll(IndexBy(positions, PositionNumber), Kept(idx, emps), depts)[i];
    SetPathsFillsBlanks(BuildTree(depts, idx), idx, d, kind, rank);
  }

}

=== FILE: persistence.dfy ===
/** Saving a whole organization: the older `Persistence` base class first
    wipes everything stored for the data source (both indices, then the
    employee rows, then the department rows) and then saves each department
    through the subclass; `Organization.save` skips the wipe. Both do
    nothing for an empty organization. The parallel stream over the
    departments is a sequential fold in list order that stops at the first
    throwable, as the stream does when it propagates one. */
module Persistences {
  import opened Wrappers
  import opened Domain
  import opened Stores
  import opened Organizations

  /** `deleteIndex`: ask whether the index exists, and delete it only if so. */
  function DropIndex(env: Env, s: State, index: string): (r: Step)
    ensures |s.trace| < |r.state.trace| && r.state.trace[..|s.trace|] == s.trace
    ensures Since(s, r.state) ==
              [IndexExists(index)]
              + (if env(IndexExists(index)).None? && index in s.world.indices then [DeleteIndex(index)] else [])
    ensures r.thrown.None? ==> index !in r.state.world.indices
    ensures r.state.world == s.world || r.state.world == s.world.(indices := s.world.indices - {index})
  {
    var a := Do(env, s, IndexExists(index));
    if a.thrown.Some? then a
    else if index in s.world.indices then Do(env, a.state, DeleteIndex(index))
    else a
  }

  /** The two `deleteIndex` calls of `deleteIfExists`: the department index,
      then the employee index, of one data source. */
  function DropIndices(env: Env, s: State, id: int): (r: Step)
    ensures |s.trace| < |r.state.trace| && r.state.trace[..|s.trace|] == s.trace
    ensures r.state.trace[|s.trace|] == IndexExists(IndexName(DEPT_PREFIX, id))
    ensures r.thrown.None? ==> IndexName(DEPT_PREFIX, id) !in r.state.world.indices
                               && IndexName(EMP_PREFIX, id) !in r.state.world.indices
    ensures r.state.world.(indices := s.world.indices) == s.world
    ensures forall k :: k in r.state.world.indices ==> k in s.world.indices && r.state.world.indices[k] == s.world.indices[k]
    ensures forall k :: k in s.world.indices && k != IndexName(DEPT_PREFIX, id) && k != IndexName(EMP_PREFIX, id) ==>
                          k in r.state.world.indices
  {
    var a := DropIndex(env, s, IndexName(DEPT_PREFIX, id));
    if a.thrown.Some? then a
    else DropIndex(env, a.state, IndexName(EMP_PREFIX, id))
  }

  /** `deleteIfExists`: the department index, the employee index, the
      employee rows and the department rows of one data source, in that order. */
  function Wipe(env: Env, s: State, id: int): (r: Step)
    ensures |s.trace| < |r.state.trace| && r.state.trace[..|s.trace|] == s.trace
    ensures r.state.trace[|s.trace|] == IndexExists(IndexName(DEPT_PREFIX, id))
    ensures r.thrown.None? ==>
              && IndexName(DEPT_PREFIX, id) !in r.state.world.indices
              && IndexName(EMP_PREFIX, id) !in r.state.world.indices
              && (forall k :: k in r.state.world.departmentRows <==>
                                k in s.world.departmentRows && s.world.departmentRows[k].dataSource != Some(id))
              && (forall k :: k in r.state.world.employeeRows <==>
                                k in s.world.employeeRows && s.world.employeeRows[k].dataSource != Some(id))
    ensures r.state.world.redis == s.world.redis
    ensures forall k :: k in r.state.world.indices ==> k in s.world.indices && r.state.world.indices[k] == s.world.indices[k]
    ensures forall k :: k in s.world.indices && k != IndexName(DEPT_PREFIX, id) && k != IndexName(EMP_PREFIX, id) ==>
                          k in r.state.world.indices
    ensures forall k :: k in r.state.world.employeeRows ==> k in s.world.employeeRows && r.state.world.employeeRows[k] == s.world.employeeRows[k]
    ensures forall k :: k in s.world.employeeRows && s.world.employeeRows[k].dataSource != Some(id) ==> k in r.state.world.employeeRows
    ensures forall k :: k in r.state.world.departmentRows ==> k in s.world.departmentRows && r.state.world.departmentRows[k] == s.world.departmentRows[k]
    ensures forall k :: k in s.world.departmentRows && s.world.departmentRows[k].dataSource != Some(id) ==> k in r.state.world.departmentRows
  {
    var b := DropIndices(env, s, id);
    if b.thrown.Some? then b
    else
      var c := Do(env, b.state, DeleteRowsOfSource(EmployeeTable, id));
      if c.thrown.Some? then c
      else Do(env, c.state, DeleteRowsOfSource(DepartmentTable, id))
  }

  /** The indices and rows of other data sources survive the wipe untouched. */
  lemma WipeSparesOtherSources(env: Env, s: State, id: int, other: int)
    requires other != id
    ensures var w := Wipe(env, s, id).state.world;
            && (IndexName(DEPT_PREFIX, other) in s.world.indices ==>
                  IndexName(DEPT_PREFIX, other) in w.indices
                  && w.indices[IndexName(DEPT_PREFIX, other)] == s.world.indices[IndexName(DEPT_PREFIX, other)])
            && (IndexName(EMP_PREFIX, other) in s.world.indices ==>
                  IndexName(EMP_PREFIX, other) in w.indices
                  && w.indices[IndexName(EMP_PREFIX, other)] == s.world.indices[IndexName(EMP_PREFIX, other)])
            && (forall k :: k in s.world.employeeRows && s.world.employeeRows[k].dataSource == Some(other) ==>
                              k in w.employeeRows && w.employeeRows[k] == s.world.employeeRows[k])
  {
    IndexNameInjective(DEPT_PREFIX, DEPT_PREFIX, other, id);
    IndexNameInjective(DEPT_PREFIX, EMP_PREFIX, other, id);
    IndexNameInjective(EMP_PREFIX, DEPT_PREFIX, other, id);
    IndexNameInjective(EMP_PREFIX, EMP_PREFIX, other, id);
  }

  /** The outcome of saving a list of departments: the state, the
      departments handed to the save in order, and the throwable that ended
      it, if any. */
  datatype Run = Run(state: State, attempted: seq<Department>, thrown: Option<Exn>)

  /** `forEach(this::save)`: each department handed once to `save`, in list
      order, until one throws. */
  function SaveEach(s: State, ds: seq<Department>, save: (State, Department) -> Step): (r: Run)
    ensures |r.attempted| <= |ds| && r.attempted == ds[..|r.attempted|]
    ensures r.thrown.None? ==> r.attempted == ds
    ensures r.thrown.Some? ==> 0 < |r.attempted|
    decreases |ds|
  {
    if |ds| == 0 then Run(s, [], None)
    else
      var a := save(s, ds[0]);
      if a.thrown.Some? then Run(a.state, [ds[0]], a.thrown)
      else
        var rest := SaveEach(a.state, ds[1..], save);
        Run(rest.state, [ds[0]] + rest.attempted, rest.thrown)
  }

  /** A single department is one call of `save`. */
  lemma SaveEachSingle(s: State, d: Department, save: (State, Department) -> Step)
    ensures SaveEach(s, [d], save) == Run(save(s, d).state, [d], save(s, d).thrown)
  {
    assert [d][1..] == [];
  }

  /** Runs compose: once the saves of `a` have all returned, saving `a + b`
      continues with the saves of `b` from the state they left. */
  lemma {:induction false} SaveEachAppend(s: State, a: seq<Department>, b: seq<Department>, save: (State, Department) -> Step)
    requires SaveEach(s, a, save).thrown.None?
    ensures var rest := SaveEach(SaveEach(s, a, save).state, b, save);
            SaveEach(s, a + b, save) == Run(rest.state, a + rest.attempted, rest.thrown)
    decreases |a|
  {
    if |a| == 0 {
      assert a + b == b;
    } else {
      var x := save(s, a[0]);
      assert (a + b)[0] == a[0] && (a + b)[1..] == a[1..] + b;
      SaveEachAppend(x.state, a[1..], b, save);
      var rest := SaveEach(SaveEach(x.state, a[1..], save).state, b, save);
      assert [a[0]] + (a[1..] + rest.attempted) == a + rest.attempted;
    }
  }

  /** A run that throws stopped at the department whose save threw: the
      saves of every earlier department returned, and the throwing save
      started from the state they left. */
  lemma {:induction false} SaveEachStopsAtFirstThrow(s: State, ds: seq<Department>, save: (State, Department) -> Step)
    returns (t: State)
    ensures var r := SaveEach(s, ds, save);
            r.thrown.Some? ==>
              var before := SaveEach(s, r.attempted[..|r.attempted| - 1], save);
              && before.thrown.None? && t == before.state
              && save(t, r.attempted[|r.attempted| - 1]) == Step(r.state, r.thrown)
    decreases |ds|
  {
    t := s;
    var r := SaveEach(s, ds, save);
    if |ds| > 0 && r.thrown.Some? {
      var a := save(s, ds[0]);
      if a.thrown.None? {
        var rest := SaveEach(a.state, ds[1..], save);
        t := SaveEachStopsAtFirstThrow(a.state, ds[1..], save);
        var p := rest.attempted[..|rest.attempted| - 1];
        assert r.attempted[..|r.attempted| - 1] == [ds[0]] + p;
        assert ([ds[0]] + p)[0] == ds[0] && ([ds[0]] + p)[1..] == p;
        assert r.attempted[|r.attempted| - 1] == rest.attempted[|rest.attempted| - 1];
      } else {
        assert r.attempted[..|r.attempted| - 1] == [];
      }
    }
  }

  /** `Persistence.save(organization)`: nothing for an empty organization;
      otherwise the wipe of its data source and then each department's save.
      The organization comes back with its emptiness cached. */
  function SaveOrganization(env: Env, s: State, org: Organization, save: (State, Department) -> Step): (r: (Organization, Run))
    ensures r.0 == IsEmpty(org).0
    ensures IsEmpty(org).1 ==> r.1 == Run(s, [], None)
    ensures r.1.thrown.None? && !IsEmpty(org).1 ==> r.1.attempted == org.departments
  {
    var (checked, empty) := IsEmpty(org);
    if empty then (checked, Run(s, [], None))
    else
      var w := Wipe(env, s, org.dataSource.id);
      if w.thrown.Some? then (checked, Run(w.state, [], w.thrown))
      else (checked, SaveEach(w.state, org.departments, save))
  }

  /** Every department save starts from a store that holds nothing of the
      organization's data source any more: both indices are gone and so are
      all rows stamped with its id. A throwing wipe saves nothing. */
  lemma WipeBeforeSaves(env: Env, s: State, org: Organization, save: (State, Department) -> Step)
    requires !IsEmpty(org).1
    ensures var id := org.dataSource.id;
            var w := Wipe(env, s, id);
            var r := SaveOrganization(env, s, org, save).1;
            && (w.thrown.Some? ==> r == Run(w.state, [], w.thrown))
            && (w.thrown.None? ==>
                  && r == SaveEach(w.state, org.departments, save)
                  && IndexName(DEPT_PREFIX, id) !in w.state.world.indices
                  && IndexName(EMP_PREFIX, id) !in w.state.world.indices
                  && (forall k :: k in w.state.world.departmentRows ==> w.state.world.departmentRows[k].dataSource != Some(id))
                  && (forall k :: k in w.state.world.employeeRows ==> w.state.world.employeeRows[k].dataSource != Some(id)))
  {
  }

  /** An organization is empty exactly when every department's employee
      list is empty (unless the answer is already cached); then no call is
      made at all. */
  lemma EmptyOrganizationTouchesNothing(env: Env, s: State, org: Organization, save: (State, Department) -> Step)
    requires org.empty.None?
    requires forall i :: 0 <= i < |org.departments| ==> org.departments[i].employees == []
    ensures SaveOrganization(env, s, org, save).1 == Run(s, [], None)
    ensures OrganizationSave(s, org, save).1 == Run(s, [], None)
  {
  }

  /** `Organization.save`: for a non-empty organization, each department
      handed to the persistence once, with no wipe first. */
  function OrganizationSave(s: State, org: Organization, save: (State, Department) -> Step): (r: (Organization, Run))
    ensures r.0 == IsEmpty(org).0
    ensures IsEmpty(org).1 ==> r.1 == Run(s, [], None)
    ensures !IsEmpty(org).1 && r.1.thrown.None? ==> r.1.attempted == org.departments
  {
    var (checked, empty) := IsEmpty(org);
    if empty then (checked, Run(s, [], None))
    else (checked, SaveEach(s, org.departments, save))
  }

  /** The two organization saves differ only by the wipe: after a returning
      wipe, `Persistence.save` is `Organization.save` run on the wiped store. */
  lemma OrganizationSaveIsSaveWithoutWipe(env: Env, s: State, org: Organization, save: (State, Department) -> Step)
    requires Wipe(env, s, org.dataSource.id).thrown.None?
    ensures SaveOrganization(env, s, org, save) == OrganizationSave(Wipe(env, s, org.dataSource.id).state, org, save)
            || IsEmpty(org).1
  {
  }
}

=== FILE: redis_persistence.dfy ===
/** The Redis back end: a department and its employees as JSON values under
    keys built from the entity type and the storage id (not the number or
    uid). JSON serialisation is not modelled; a value is the entity itself. */
module RedisPersistences {
  import opened Wrappers
  import opened Text
  import opened Domain
  import opened Stores

  /** `getKey`: `muc:`, the type, a colon and the id, a null id rendered as `null`. */
  function Key(kind: string, id: Option<string>): string {
    "muc:" + kind + ":" + Display(id)
  }

  function DeptKey(id: Option<string>): string {
    Key("dept", id)
  }

  function EmpKey(id: Option<string>): string {
    Key("emp", id)
  }

  /** A department key never equals an employee key, and keys of the same
      type differ whenever the ids render differently. */
  lemma KeysSeparate(a: Option<string>, b: Option<string>)
    ensures DeptKey(a) != EmpKey(b)
    ensures DeptKey(a) == DeptKey(b) <==> Display(a) == Display(b)
    ensures EmpKey(a) == EmpKey(b) <==> Display(a) == Display(b)
  {
    assert DeptKey(a)[4] == 'd' && EmpKey(b)[4] == 'e';
    if DeptKey(a) == DeptKey(b) {
      assert DeptKey(a)[9..] == Display(a) && DeptKey(b)[9..] == Display(b);
    }
    if EmpKey(a) == EmpKey(b) {
      assert EmpKey(a)[8..] == Display(a) && EmpKey(b)[8..] == Display(b);
    }
  }

  /** A null id and the id `null` share a key. */
  lemma NullIdSharesKey()
    ensures EmpKey(None) == EmpKey(Some("null"))
  {
  }

  /** The `HashMap` handed to `multiSet`: one entry per employee key, a later
      employee with the same key replacing an earlier one. */
  function EmployeeEntries(es: seq<Employee>): (m: map<string, Doc>)
    ensures forall i :: 0 <= i < |es| ==> EmpKey(es[i].id) in m
  {
    var pairs := seq(|es|, i requires 0 <= i < |es| => (EmpKey(es[i].id), EmpDoc(es[i])));
    assert forall i :: 0 <= i < |es| ==> pairs[i].0 == EmpKey(es[i].id);
    PutDocs(map[], pairs)
  }

  /** `save`: the department key, then, for a non-empty list only, one
      `multiSet` of the employee keys. */
  function Save(env: Env, s: State, d: Department, list: Option<seq<Employee>>): (r: Step)
    ensures |s.trace| < |r.state.trace| <= |s.trace| + 2 && r.state.trace[..|s.trace|] == s.trace
    ensures r.state.trace[|s.trace|] == RedisSet(DeptKey(d.id), DeptDoc(d))
    ensures |r.state.trace| == |s.trace| + 2 <==>
              env(RedisSet(DeptKey(d.id), DeptDoc(d))).None? && list.Some? && |list.value| > 0
    ensures |r.state.trace| == |s.trace| + 2 ==> r.state.trace[|s.trace| + 1] == RedisMultiSet(EmployeeEntries(list.value))
    ensures r.thrown.None? ==> DeptKey(d.id) in r.state.world.redis
    ensures r.thrown.None? ==> list.Some? && forall i :: 0 <= i < |list.value| ==> EmpKey(list.value[i].id) in r.state.world.redis
  {
    var a := Do(env, s, RedisSet(DeptKey(d.id), DeptDoc(d)));
    if a.thrown.Some? then a
    else if list.None? then Step(a.state, Some(NullReference))
    else if |list.value| == 0 then a
    else
      var entries := EmployeeEntries(list.value);
      Do(env, a.state, RedisMultiSet(entries))
  }

  /** The keys `remove` deletes: the department key, then one per employee. */
  function RemovedKeys(d: Department, es: seq<Employee>): (keys: seq<string>)
    ensures |keys| == |es| + 1 && keys[0] == DeptKey(d.id)
    ensures forall i :: 0 <= i < |es| ==> keys[i + 1] == EmpKey(es[i].id)
  {
    [DeptKey(d.id)] + seq(|es|, i requires 0 <= i < |es| => EmpKey(es[i].id))
  }

  /** `remove`: a single delete of n + 1 keys; a null list is dereferenced
      before any call. */
  function Remove(env: Env, s: State, d: Department, list: Option<seq<Employee>>): (r: Step)
    ensures |s.trace| <= |r.state.trace| && r.state.trace[..|s.trace|] == s.trace
    ensures list.None? ==> r == Step(s, Some(NullReference))
    ensures list.Some? ==> Since(s, r.state) == [RedisDelete(RemovedKeys(d, list.value))]
    ensures r.thrown.None? ==> list.Some? && r.state.world.redis.Keys == s.world.redis.Keys - set k | k in RemovedKeys(d, list.value)
    ensures r.thrown.Some? ==> IsRuntime(r.thrown.value)
    ensures r.state.world.(redis := s.world.redis) == s.world
  {
    if list.None? then Step(s, Some(NullReference))
    else Do(env, s, RedisDelete(RemovedKeys(d, list.value)))
  }

  /** A remove after a save with the same list deletes every key the save wrote. */
  lemma SaveThenRemove(env: Env, s: State, d: Department, es: seq<Employee>)
    requires Save(env, s, d, Some(es)).thrown.None?
    requires Remove(env, Save(env, s, d, Some(es)).state, d, Some(es)).thrown.None?
    ensures var w := Remove(env, Save(env, s, d, Some(es)).state, d, Some(es)).state.world;
            DeptKey(d.id) !in w.redis && forall i :: 0 <= i < |es| ==> EmpKey(es[i].id) !in w.redis
  {
    var keys := RemovedKeys(d, es);
    assert forall j :: 0 <= j < |keys| ==> keys[j] in keys;
  }
}

=== FILE: stores.dfy ===
/** The three back ends the synchronisation writes to, each a plain map of
    keys, and the client calls made on them. Every call either takes effect
    as a whole or throws and changes nothing; which calls throw, and whether
    the throwable is checked, is a parameter. Every attempted call is
    recorded in a trace, so that the order of calls can be stated. */
module Stores {
  import opened Wrappers
  import opened Text
  import opened Domain

  /** A document in an Elasticsearch index, or a value under a Redis key. */
  datatype Doc = DeptDoc(department: Department) | EmpDoc(employee: Employee)

  /** The department and employee tables keyed by the JPA id, the
      Elasticsearch indices by name holding documents by id, and the Redis key space. */
  datatype World = World(
    departmentRows: map<Option<string>, Department>,
    employeeRows: map<Option<string>, Employee>,
    indices: map<string, map<string, Doc>>,
    redis: map<string, Doc>)

  datatype Table = DepartmentTable | EmployeeTable

  /** One call on a repository, the Elasticsearch client or Redis. */
  datatype Call =
    | SaveRow(department: Department)
    | SaveRows(employees: seq<Employee>)
    | DeleteRow(department: Department)
    | DeleteRows(employees: seq<Employee>)
    | DeleteRowsOfSource(table: Table, dataSourceId: int)
    | Upsert(index: string, id: string, doc: Doc)
    | BulkUpsert(index: string, docs: seq<(string, Doc)>)
    | Delete(index: string, id: string)
    | BulkDelete(targets: seq<(string, string)>)
    | IndexExists(index: string)
    | DeleteIndex(index: string)
    | RedisSet(key: string, value: Doc)
    | RedisMultiSet(entries: map<string, Doc>)
    | RedisDelete(keys: seq<string>)

  /** Calls that can throw a checked exception: the Elasticsearch client's
      `IOException`, and the JSON serialisation before a Redis write. Repository
      calls and Redis deletes throw unchecked exceptions only. */
  predicate MayThrowChecked(c: Call) {
    c.Upsert? || c.BulkUpsert? || c.Delete? || c.BulkDelete? || c.IndexExists? || c.DeleteIndex?
    || c.RedisSet? || c.RedisMultiSet?
  }

  /** Calls that undo an earlier write. */
  predicate IsRemoval(c: Call) {
    c.DeleteRow? || c.DeleteRows? || c.DeleteRowsOfSource? || c.Delete? || c.BulkDelete? || c.DeleteIndex? || c.RedisDelete?
  }

  /** A throwable escaping a call. */
  datatype Exn =
    | Raised(checked: bool, at: Call)   // thrown by a client call
    | NullReference                     // a null employee list dereferenced, or handed to a repository
    | Wrapped(cause: Exn)               // `new RuntimeException(cause)`

  /** Whether a `catch (RuntimeException e)` catches it. */
  predicate IsRuntime(e: Exn) {
    !(e.Raised? && e.checked)
  }

  /** For each call, whether it throws, and whether the throwable is checked. */
  type Env = Call -> Option<bool>

  /** The back ends and the calls attempted so far. */
  datatype State = State(world: World, trace: seq<Call>)

  /** A state after an action, with the throwable it ended with, if any. */
  datatype Step = Step(state: State, thrown: Option<Exn>)

  function IdsOf(es: seq<Employee>): set<Option<string>> {
    set e | e in es :: e.id
  }

  /** Every employee written under its id, a later one replacing an earlier one. */
  function PutRows(rows: map<Option<string>, Employee>, es: seq<Employee>): (r: map<Option<string>, Employee>)
    ensures r.Keys == rows.Keys + IdsOf(es)
    decreases |es|
  {
    if |es| == 0 then rows
    else
      var r := PutRows(rows, es[..|es| - 1]);
      assert es == es[..|es| - 1] + [es[|es| - 1]];
      r[es[|es| - 1].id := es[|es| - 1]]
  }

  function PutDocs(docs: map<string, Doc>, entries: seq<(string, Doc)>): (r: map<string, Doc>)
    ensures forall k :: k in docs ==> k in r
    ensures forall i :: 0 <= i < |entries| ==> entries[i].0 in r
    decreases |entries|
  {
    if |entries| == 0 then docs
    else
      var r := PutDocs(docs, entries[..|entries| - 1]);
      assert forall i :: 0 <= i < |entries| - 1 ==> entries[..|entries| - 1][i] == entries[i];
      r[entries[|entries| - 1].0 := entries[|entries| - 1].1]
  }

  function IndexOf(w: World, index: string): map<string, Doc> {
    if index in w.indices then w.indices[index] else map[]
  }

  /** Removes one document; an index that does not exist is left absent. */
  function DeleteDoc(indices: map<string, map<string, Doc>>, index: string, id: string): (r: map<string, map<string, Doc>>)
    ensures r.Keys == indices.Keys
    ensures index in r ==> id !in r[index]
    ensures forall i :: i in indices && i != index ==> r[i] == indices[i]
    ensures index in indices ==> r[index] == indices[index] - {id}
  {
    if index in indices then indices[index := indices[index] - {id}] else indices
  }

  function DeleteDocs(indices: map<string, map<string, Doc>>, targets: seq<(string, string)>): (r: map<string, map<string, Doc>>)
    ensures r.Keys == indices.Keys
    ensures forall i :: i in r ==> r[i].Keys <= indices[i].Keys
    ensures forall k :: 0 <= k < |targets| && targets[k].0 in r ==> targets[k].1 !in r[targets[k].0]
    decreases |targets|
  {
    if |targets| == 0 then indices
    else
      var r := DeleteDocs(indices, targets[..|targets| - 1]);
      var t := targets[|targets| - 1];
      assert forall k :: 0 <= k < |targets| - 1 ==> targets[..|targets| - 1][k] == targets[k];
      DeleteDoc(r, t.0, t.1)
  }

  /** The rows whose stamped data source is not `id`: `deleteByDataSourceId`. */
  function RowsNotOf<T>(rows: map<Option<string>, T>, id: int, stamp: T -> Option<int>): (r: map<Option<string>, T>)
    ensures forall k :: k in r <==> k in rows && stamp(rows[k]) != Some(id)
    ensures forall k :: k in r ==> r[k] == rows[k]
  {
    map k | k in rows && stamp(rows[k]) != Some(id) :: rows[k]
  }

  function DepartmentSource(d: Department): Option<int> {
    d.dataSource
  }

  function EmployeeSource(e: Employee): Option<int> {
    e.dataSource
  }

  /** The effect of a call that does not throw. A department row is written
      without its employee list, which the repository does not cascade. */
  function Apply(w: World, c: Call): World {
    match c
    case SaveRow(d) => w.(departmentRows := w.departmentRows[d.id := d.(employees := [])])
    case SaveRows(es) => w.(employeeRows := PutRows(w.employeeRows, es))
    case DeleteRow(d) => w.(departmentRows := w.departmentRows - {d.id})
    case DeleteRows(es) => w.(employeeRows := w.employeeRows - IdsOf(es))
    case DeleteRowsOfSource(table, id) =>
      if table == DepartmentTable then w.(departmentRows := RowsNotOf(w.departmentRows, id, DepartmentSource))
      else w.(employeeRows := RowsNotOf(w.employeeRows, id, EmployeeSource))
    case Upsert(index, id, doc) => w.(indices := w.indices[index := IndexOf(w, index)[id := doc]])
    case BulkUpsert(index, docs) => w.(indices := w.indices[index := PutDocs(IndexOf(w, index), docs)])
    case Delete(index, id) => w.(indices := DeleteDoc(w.indices, index, id))
    case BulkDelete(targets) => w.(indices := DeleteDocs(w.indices, targets))
    case IndexExists(_) => w
    case DeleteIndex(index) => w.(indices := w.indices - {index})
    case RedisSet(key, value) => w.(redis := w.redis[key := value])
    case RedisMultiSet(entries) => w.(redis := w.redis + entries)
    case RedisDelete(keys) => w.(redis := w.redis - set k | k in keys)
  }

  /** Attempts one call: it is recorded, and it either takes effect or
      throws, checked only where the call can throw a checked exception. */
  function Do(env: Env, s: State, c: Call): (r: Step)
    ensures r.state.trace == s.trace + [c]
    ensures r.thrown.None? <==> env(c).None?
    ensures r.thrown.Some? ==> r.state.world == s.world
    ensures r.thrown.Some? ==> r.thrown.value.Raised? && r.thrown.value.at == c && (r.thrown.value.checked ==> MayThrowChecked(c))
  {
    match env(c)
    case None => Step(State(Apply(s.world, c), s.trace + [c]), None)
    case Some(checked) => Step(State(s.world, s.trace + [c]), Some(Raised(checked && MayThrowChecked(c), c)))
  }

  /** A bulk request without items. */
  predicate EmptyBulk(c: Call) {
    (c.BulkUpsert? && |c.docs| == 0) || (c.BulkDelete? && |c.targets| == 0)
  }

  /** `client.bulk`: a request without items fails the client's own
      validation ("no requests added") with an unchecked exception, whatever
      the server would do; any other request is an ordinary call. */
  function DoBulk(env: Env, s: State, c: Call): (r: Step)
    requires c.BulkUpsert? || c.BulkDelete?
    ensures r.state.trace == s.trace + [c]
    ensures EmptyBulk(c) ==> r.state.world == s.world && r.thrown == Some(Raised(false, c))
    ensures !EmptyBulk(c) ==> r == Do(env, s, c)
  {
    if EmptyBulk(c) then Step(State(s.world, s.trace + [c]), Some(Raised(false, c))) else Do(env, s, c)
  }

  /** The calls made after `s`, when `t` extends its trace. */
  function Since(s: State, t: State): seq<Call>
    requires |s.trace| <= |t.trace|
  {
    t.trace[|s.trace|..]
  }

  /** The Elasticsearch index of one entity type for one data source: the
      prefix, an underscore and the data source id. */
  function IndexName(prefix: string, dataSourceId: int): string {
    prefix + "_" + IntToString(dataSourceId)
  }

  const DEPT_PREFIX := "dept"
  const EMP_PREFIX := "emp"

  /** Distinct data sources get distinct indices, and the department and
      employee indices of any two data sources never coincide. */
  lemma IndexNameInjective(p: string, q: string, a: int, b: int)
    requires p == DEPT_PREFIX || p == EMP_PREFIX
    requires q == DEPT_PREFIX || q == EMP_PREFIX
    ensures IndexName(p, a) == IndexName(q, b) <==> p == q && a == b
  {
    var x := IndexName(p, a);
    var y := IndexName(q, b);
    if x == y {
      assert x[0] == y[0];
      assert p == q;
      assert x[|p| + 1..] == IntToString(a) && y[|q| + 1..] == IntToString(b);
      IntToStringInjective(a, b);
    }
  }
}

=== FILE: text.dfy ===
/** String helpers with the semantics of the Java library calls the system
    relies on: `Collectors.joining`, `String.split`, string concatenation of a
    possibly-null value, `Integer.toString` and `String.hashCode`. */
module Text {
  import opened Wrappers

  /** Spring's `isEmpty` on a string: null or "". */
  predicate IsBlank(s: Option<string>) {
    s.None? || s.value == ""
  }

  /** How Java renders a possibly-null string when concatenating or joining: null becomes "null". */
  function Display(s: Option<string>): string {
    match s
    case None => "null"
    case Some(v) => v
  }

  /** `Collectors.joining(sep)`: the parts in order, separated by `sep`; "" for no parts. */
  function Join(parts: seq<string>, sep: string): string
    decreases |parts|
  {
    if |parts| == 0 then ""
    else if |parts| == 1 then parts[0]
    else parts[0] + sep + Join(parts[1..], sep)
  }

  lemma {:induction false} JoinSnoc(parts: seq<string>, x: string, sep: string)
    requires |parts| > 0
    ensures Join(parts + [x], sep) == Join(parts, sep) + sep + x
    decreases |parts|
  {
    if |parts| == 1 {
      assert parts + [x] == [parts[0], x];
      assert ([parts[0], x])[1..] == [x];
    } else {
      assert (parts + [x])[1..] == parts[1..] + [x];
      JoinSnoc(parts[1..], x, sep);
    }
  }

  /** Every piece between occurrences of `c`, including empty ones: |pieces| = count of c + 1. */
  function SplitAll(s: string, c: char): (pieces: seq<string>)
    ensures |pieces| > 0
    decreases |s|
  {
    if |s| == 0 then [""]
    else
      var rest := SplitAll(s[1..], c);
      if s[0] == c then [""] + rest
      else [[s[0]] + rest[0]] + rest[1..]
  }

  function DropTrailingEmpty(pieces: seq<string>): (r: seq<string>)
    ensures |r| <= |pieces| && r == pieces[..|r|]
    ensures |r| > 0 ==> r[|r| - 1] != ""
    ensures forall i :: |r| <= i < |pieces| ==> pieces[i] == ""
    decreases |pieces|
  {
    if |pieces| == 0 then []
    else if pieces[|pieces| - 1] == "" then DropTrailingEmpty(pieces[..|pieces| - 1])
    else pieces
  }

  /** `String.split` with a one-character, non-regex separator and limit 0:
      a string without the separator is returned whole; otherwise the pieces,
      with trailing empty pieces removed. */
  function JavaSplit(s: string, c: char): seq<string> {
    if c !in s then [s] else DropTrailingEmpty(SplitAll(s, c))
  }

  lemma {:induction false} SplitAllNoSeparator(s: string, c: char)
    requires c !in s
    ensures SplitAll(s, c) == [s]
    decreases |s|
  {
    if |s| > 0 {
      SplitAllNoSeparator(s[1..], c);
      assert [s[0]] + s[1..] == s;
    }
  }

  lemma {:induction false} SplitAllPrefix(a: string, c: char, b: string)
    requires c !in a
    ensures SplitAll(a + [c] + b, c) == [a] + SplitAll(b, c)
    decreases |a|
  {
    if |a| == 0 {
      assert a + [c] + b == [c] + b;
      assert ([c] + b)[1..] == b;
    } else {
      var s := a + [c] + b;
      assert s[0] == a[0];
      assert s[1..] == a[1..] + [c] + b;
      SplitAllPrefix(a[1..], c, b);
      assert [a[0]] + a[1..] == a;
    }
  }

  /** Splitting a comma-free list of pieces joined by the separator gives the pieces back. */
  lemma {:induction false} SplitAllJoin(parts: seq<string>, c: char)
    requires |parts| > 0
    requires forall i :: 0 <= i < |parts| ==> c !in parts[i]
    ensures SplitAll(Join(parts, [c]), c) == parts
    decreases |parts|
  {
    if |parts| == 1 {
      SplitAllNoSeparator(parts[0], c);
    } else {
      SplitAllJoin(parts[1..], c);
      SplitAllPrefix(parts[0], c, Join(parts[1..], [c]));
      assert [parts[0]] + parts[1..] == parts;
    }
  }

  /** Round trip of `String.split`: joining separator-free pieces whose last piece
      is non-empty and splitting again gives back exactly those pieces, in order. */
  lemma JavaSplitJoin(parts: seq<string>, c: char)
    requires |parts| > 0 && parts[|parts| - 1] != ""
    requires forall i :: 0 <= i < |parts| ==> c !in parts[i]
    ensures JavaSplit(Join(parts, [c]), c) == parts
  {
    var s := Join(parts, [c]);
    SplitAllJoin(parts, c);
    if c !in s {
      SplitAllNoSeparator(s, c);
    }
  }

  function Digit(d: nat): char
    requires d < 10
  {
    "0123456789"[d]
  }

  function DigitValue(ch: char): nat {
    if '0' <= ch <= '9' then (ch - '0') as nat else 0
  }

  /** Decimal rendering of a natural number, as `Integer.toString` writes it. */
  function NatToString(n: nat): (s: string)
    ensures |s| > 0 && forall i :: 0 <= i < |s| ==> '0' <= s[i] <= '9'
    decreases n
  {
    if n < 10 then [Digit(n)] else NatToString(n / 10) + [Digit(n % 10)]
  }

  function ParseNat(s: string): nat
    decreases |s|
  {
    if |s| == 0 then 0 else ParseNat(s[..|s| - 1]) * 10 + DigitValue(s[|s| - 1])
  }

  lemma {:induction false} ParseNatToString(n: nat)
    ensures ParseNat(NatToString(n)) == n
    decreases n
  {
    if n >= 10 {
      var s := NatToString(n);
      assert s[..|s| - 1] == NatToString(n / 10);
      ParseNatToString(n / 10);
    }
  }

  /** `Integer.toString`: a minus sign before the magnitude of a negative number. */
  function IntToString(i: int): string {
    if i < 0 then "-" + NatToString(-i) else NatToString(i)
  }

  function ParseInt(s: string): int {
    if |s| > 0 && s[0] == '-' then -(ParseNat(s[1..]) as int) else ParseNat(s)
  }

  lemma IntToStringRoundTrip(i: int)
    ensures ParseInt(IntToString(i)) == i
  {
    var t := NatToString(if i < 0 then -i else i);
    ParseNatToString(if i < 0 then -i else i);
    if i < 0 {
      assert IntToString(i) == "-" + t;
      assert ("-" + t)[1..] == t;
    } else {
      assert IntToString(i) == t;
      assert t[0] != '-';
    }
  }

  /** Distinct integers render as distinct strings. */
  lemma IntToStringInjective(a: int, b: int)
    requires IntToString(a) == IntToString(b)
    ensures a == b
  {
    IntToStringRoundTrip(a);
    IntToStringRoundTrip(b);
  }

  const TWO_32: int := 0x1_0000_0000
  const TWO_31: int := 0x8000_0000

  /** Reduction to a signed 32-bit `int`, as Java arithmetic wraps around. */
  function Wrap32(x: int): (r: int)
    ensures -TWO_31 <= r < TWO_31
    ensures (r - x) % TWO_32 == 0
  {
    var m := x % TWO_32;
    if m >= TWO_31 then m - TWO_32 else m
  }

  /** The UTF-16 code units of one character, as a Java string stores it:
      the character itself below 0x10000, otherwise its surrogate pair. */
  function Units(c: char): (u: seq<int>)
    ensures 1 <= |u| <= 2 && forall i :: 0 <= i < |u| ==> 0 <= u[i] < 0x1_0000
    ensures c as int < 0x1_0000 <==> |u| == 1
    ensures |u| == 1 ==> u[0] == c as int
    ensures |u| == 2 ==> && 0xD800 <= u[0] < 0xDC00 && 0xDC00 <= u[1] < 0xE000
                         && c as int == 0x1_0000 + (u[0] - 0xD800) * 0x400 + (u[1] - 0xDC00)
  {
    if c as int < 0x1_0000 then [c as int]
    else
      var v := c as int - 0x1_0000;
      [0xD800 + v / 0x400, 0xDC00 + v % 0x400]
  }

  /** The UTF-16 encoding of a string: the code units of its characters in order. */
  function Utf16(s: string): (u: seq<int>)
    ensures |s| <= |u| <= 2 * |s|
    decreases |s|
  {
    if |s| == 0 then [] else Utf16(s[..|s| - 1]) + Units(s[|s| - 1])
  }

  /** A string without supplementary characters is its own encoding. */
  lemma {:induction false} Utf16OfBasicPlane(s: string)
    requires forall i :: 0 <= i < |s| ==> s[i] as int < 0x1_0000
    ensures |Utf16(s)| == |s| && forall i :: 0 <= i < |s| ==> Utf16(s)[i] == s[i] as int
    decreases |s|
  {
    if |s| > 0 {
      var init := s[..|s| - 1];
      assert forall i :: 0 <= i < |init| ==> init[i] == s[i];
      Utf16OfBasicPlane(init);
    }
  }

  /** `h = 31 * h + unit` over code units, in 32-bit arithmetic. */
  function HashUnits(u: seq<int>): (h: int)
    ensures -TWO_31 <= h < TWO_31
    decreases |u|
  {
    if |u| == 0 then 0 else Wrap32(31 * HashUnits(u[..|u| - 1]) + u[|u| - 1])
  }

  /** `String.hashCode`: the 32-bit hash of the string's UTF-16 code units. */
  function StringHash(s: string): (h: int)
    ensures -TWO_31 <= h < TWO_31
  {
    HashUnits(Utf16(s))
  }

  function Pow31(n: nat): (r: nat)
    ensures r >= 1
  {
    if n == 0 then 1 else 31 * Pow31(n - 1)
  }

  /** The documented value `u[0]*31^(n-1) + ... + u[n-1]`, without wrap-around. */
  function Polynomial(u: seq<int>): int
    decreases |u|
  {
    if |u| == 0 then 0 else u[0] * Pow31(|u| - 1) + Polynomial(u[1..])
  }

  /** Appending a unit multiplies the polynomial by 31 and adds the unit. */
  lemma {:induction false} PolynomialSnoc(u: seq<int>, c: int)
    ensures Polynomial(u + [c]) == 31 * Polynomial(u) + c
    decreases |u|
  {
    if |u| > 0 {
      assert (u + [c])[1..] == u[1..] + [c];
      PolynomialSnoc(u[1..], c);
      var p := Pow31(|u| - 1);
      assert u[0] * (31 * p) == 31 * (u[0] * p);
    } else {
      assert u + [c] == [c];
    }
  }

  /** Congruent values modulo 2^32 reduce to the same 32-bit value. */
  lemma Wrap32Congruent(a: int, b: int, k: int)
    requires a == b + k * TWO_32
    ensures Wrap32(a) == Wrap32(b)
  {
    assert a % TWO_32 == b % TWO_32 by {
      var q := b / TWO_32;
      assert b == q * TWO_32 + b % TWO_32;
      assert a == (q + k) * TWO_32 + b % TWO_32;
    }
  }

  /** Wrapping after every step gives the wrapped polynomial. */
  lemma {:induction false} HashUnitsIsPolynomial(u: seq<int>)
    ensures HashUnits(u) == Wrap32(Polynomial(u))
    decreases |u|
  {
    if |u| > 0 {
      var init := u[..|u| - 1];
      var c := u[|u| - 1];
      HashUnitsIsPolynomial(init);
      assert init + [c] == u;
      PolynomialSnoc(init, c);
      var p := Polynomial(init);
      var w := Wrap32(p);
      var k := (w - p) / TWO_32;
      assert w - p == k * TWO_32;
      Wrap32Congruent(31 * w + c, 31 * p + c, 31 * k);
    } else {
      assert Wrap32(0) == 0;
    }
  }

  /** `String.hashCode` is `s[0]*31^(n-1) + ... + s[n-1]` over the UTF-16
      code units, reduced to a signed 32-bit value. */
  lemma StringHashIsPolynomial(s: string)
    ensures StringHash(s) == Wrap32(Polynomial(Utf16(s)))
  {
    HashUnitsIsPolynomial(Utf16(s));
  }

  /** A supplementary character hashes as its surrogate pair. */
  lemma SupplementaryHash()
    ensures StringHash("\U{1F600}") == 31 * 0xD83D + 0xDE00
  {
    assert "\U{1F600}"[..0] == [];
    assert Utf16("\U{1F600}") == [0xD83D, 0xDE00];
    assert Utf16("\U{1F600}")[..1] == [0xD83D];
    assert [0xD83D][..0] == [];
  }
}

=== FILE: wrappers.dfy ===
/** Failure-compatible wrappers used across the model: `Option` stands for a
    Java reference that may be null, `Result` for a call that may throw. */
module Wrappers {

  datatype Option<+T> = None | Some(value: T) {

    predicate IsFailure() {
      None?
    }

    function PropagateFailure<U>(): Option<U>
      requires None?
    {
      None
    }

    function Extract(): T
      requires Some?
    {
      value
    }

    function GetOr(default: T): T {
      match this
      case Some(v) => v
      case None => default
    }
  }

  datatype Result<+R, +E> = Success(value: R) | Failure(error: E) {

    predicate IsFailure() {
      Failure?
    }

    function PropagateFailure<U>(): Result<U, E>
      requires Failure?
    {
      Failure(error)
    }

    function Extract(): R
      requires Success?
    {
      value
    }
  }
}
